=== FILE: README.md ===
# AnimX core, modelled in Dafny

AnimX plays a video or animated image as the X11 root-window wallpaper.
It can run once in the foreground, or as a daemon. The daemon reads
reconfiguration messages from a FIFO and restarts its playback worker when
the configuration changes. This project models the deterministic logic
under the FFmpeg, X11 and pthread plumbing. It covers both the current
sources (`src/AnimX-*.c`) and the older copies (`src/main.c`, `src/flag.c`,
`src/utils.c`) where they behave differently.

| module (file) | what it models |
|---|---|
| `Settings` (settings.dfy) | `g_config`: wallpaper, monitor, mode, memory ceiling, fps, and the `FT_MAXMEM` and `FT_DAEMON` bits |
| `Text` (text.dfy) | first-occurrence search shared by the parsers |
| `Numerals` (numerals.dfy) | both `str_isdigit` validators; `atoi`/`strtod` on validated text; `%d` and `%f` rendering |
| `Clap` (clap.dfy) | `clap_init`, `__clap_eat` and `clap_next` of include/clap.h |
| `HelpFlags` (help_flags.dfy) | both `dump_flag_info` dispatchers |
| `ConfigFile` (config_file.dfy) | `parse_config_file` and `write_config_file` |
| `Message` (message.dfy) | `send_msg`, the reader's `fgets`, `parse_daemon_sender_msg`, the older parser and sender, `determine_argc` |
| `FrameRing` (frame_ring.dfy) | the two-slot ring shared by `producer_thread` and `consumer_thread` |
| `Session` (session.dfy) | frame sampling, end-of-input rewind, pacing, the per-frame `stop` check |
| `LoadMode` (load_mode.dfy) | `run_load_all`: loading up to the memory ceiling, and the display loop |
| `Reconfig` (reconfig.dfy) | the FIFO reader's restart test and the copy it hands the next worker |
| `Lifecycle` (lifecycle.dfy) | `worker_thread` and the reader's locked section as a state machine over interleavings |
| `Monitors` (monitors.dfy) | monitor counting and target-rectangle selection in `init_context` |

Modelling conventions:

- `err` and `err_wargs` call `exit(1)`. Here they are explicit error results. Where a later token or line fails, the error carries the configuration as far as it had been updated.
- Each stretch of code that runs under one mutex is one atomic step. The frame ring is a value with pure step functions, and `Contents` is the queue it represents. The worker/reader protocol is a transition function over a state holding every worker thread ever created.
- Decoded frames are their presentation timestamps. The frame duration, the target frame time and the processing time are integers. The memory ceiling is an exact `real`, and memory is counted in bytes.
- `realpath` (`resolve`) is a function parameter, and so are the seek result and the outcome of the X server queries.
- Code that C leaves undefined gets its own outcome, so that a proof can say when it happens: a NULL dereference, a division by zero, a call past a table, a read before an array.

Three behaviours of the daemon's message handling:

- A message the parser rejects makes the whole daemon exit through `err_wargs`; the reader does not skip the line and carry on.
- A message that changes `fps` does take effect: both display loops compute their target frame time from `g_config.fps` on every frame (src/AnimX-main.c:470 and 601), and the worker's copy `wd->fps` is only logged (src/AnimX-main.c:228-235). What goes wrong is the restart test at src/AnimX-main.c:633, which compares `fps` with a copy that is never updated: once the two differ, every later message restarts the worker. See `Reconfig.FpsNeverSettles`.
- A message identical to the running configuration is ignored only when the configured `fps` equals the worker's copy and the stored wallpaper is its own resolved path. Messages and the command line store resolved paths (src/AnimX-main.c:1063, 1292). The configuration file stores `wp=` as written (src/AnimX-io.c:80), and `--restore` runs with it. A relative path or a symbolic link there therefore restarts the worker on every message. See `Reconfig.FpsNeverSettles` and `Reconfig.UnresolvedRestarts`.

## Model

| member | source | states |
|---|---|---|
| Settings.ModeCode | src/AnimX-main.c:67-70 | the stored mode code is 0 or 1, and it is 0 exactly for load mode |
| Settings.ParseModeName | src/AnimX-io.c:86-93 | only the exact spellings `load` and `stream` are recognised, and each reads back as the mode whose name it is |
| Numerals.ScanIsDigit | src/AnimX-utils.c:10-21 | the scan accepts exactly the texts that, after one optional leading '-', hold only digits and at most one '.'; a second '.' or any other character rejects |
| Numerals.ScanIsDigitLegacy | src/utils.c:6-12 | the older scan accepts exactly the texts that hold only digits after one optional leading '-' |
| Numerals.LegacyAcceptsFewer | src/utils.c:6-12 | every text the older validator accepts, the newer one accepts too |
| Numerals.ValidatorEdges | src/AnimX-utils.c:11-20 | "", "-", "." and "-." pass; "1.2.3", "+5" and "--5" fail; the older validator takes "" and "-" but rejects "1.5" and "--5" |
| Numerals.IntTextRoundTrip | src/AnimX-io.c:148-159 | the `%d` text of any integer passes `str_isdigit`, and `atoi` reads the same integer back |
| Numerals.FixedTextRoundTrip | src/AnimX-io.c:178-189 | the `%f` text of a ceiling passes `str_isdigit`; `strtod` reads back the value rounded to six decimals, within 0.0000005 of the original |
| Clap.Split | include/clap.h:66-84 | the hyphen count is 2 for "--", 1 for one leading '-', else 0; the name holds no '='; the value is absent exactly when no '=' follows the hyphens; hyphens, name, '=' and value reassemble the argument |
| Clap.SplitUnique | include/clap.h:66-84 | any hyphen count, '='-free name and value that reassemble the argument are the split `clap_next` makes, so the split is determined by the argument |
| Clap.SplitExamples | include/clap.h:66-82 | "---x" has two hyphens and the name "-x"; in "--mode=a=b" the later '=' stays in the value "a=b" |
| Clap.Next | include/clap.h:50-84 | no result exactly when no argument is left; otherwise exactly one argument is consumed, and it comes back as its split: the hyphen count `clap_next` uses, a name free of '=', parts that reassemble it (which by `Clap.SplitUnique` fixes it) |
| Clap.Drain | include/clap.h:58-87 | the `while (clap_next(...))` loop sees every argument exactly once, in order, each as its split |
| HelpFlags.Listing | src/AnimX-flag.c:135-139 | the `*` listing has every page of the table in order, with one blank line between neighbours |
| HelpFlags.Index | src/AnimX-flag.c:120-134 | every index the dispatcher calls lies inside the seven-entry table, and names the page documenting the given flag ("h" for help, "d" for daemon) |
| HelpFlags.DumpFlagInfo | src/AnimX-flag.c:105-145 | never calls past the table; a leading '-' is an error exactly when present; a name is unknown exactly when it is neither a flag name nor "*"; a flag name prints its one page |
| HelpFlags.EachNameSelectsOwnPage | src/AnimX-flag.c:121-134 | each of the seven long flag names prints exactly its own page |
| HelpFlags.StarListsAll | src/AnimX-flag.c:135-139 | "*" prints all seven pages in table order, with six blank lines between them |
| HelpFlags.LegacyDumpAsWritten | src/flag.c:68-99 | the older dispatcher calls past its four-entry table exactly for "maxmem" |
| HelpFlags.LegacyMisdirects | src/flag.c:83-88 | as written, "mon" prints the mode page, "mode" the maxmem page, and "maxmem" calls past the table |
| HelpFlags.LegacyDump | src/flag.c:68-99 | the corrected older dispatcher never calls past its table, and rejects exactly the names starting with '-' as hyphenated |
| HelpFlags.LegacyDumpSelectsOwnPage | src/flag.c:72-88 | corrected, each of the four names prints its own page, as the newer dispatcher does |
| ConfigFile.ScanLineLoop | src/AnimX-io.c:54-74 | the character loop splits a line at its first '='. Everything after that '=' is the value, and both parts are cut at the first "//". The loop never finishes when a '\n' comes before any "//". |
| ConfigFile.ScanEntryLine | src/AnimX-io.c:54-74 | a line `key=value` with no "//" or '\n' scans back to exactly that key and value, whatever '=' the value holds |
| ConfigFile.ScanTruncatesAtComment | src/AnimX-io.c:55-57 | a "//" in a value ends it: the rest of the line is dropped |
| ConfigFile.ApplyEntry | src/AnimX-io.c:79-110 | `mon`, `maxmem` or `fps` with a value the validator rejects is an error, and nothing else is. Otherwise `wp` stores the text unresolved; `mon` and `fps` set the `atoi` of the value; `maxmem` sets the `strtod` of the value without raising `FT_MAXMEM`; a recognised `mode` sets it and any other mode leaves it; `daemon=true` raises `FT_DAEMON` and any other value leaves it. Each changes only its own field, and an unknown key changes nothing |
| ConfigFile.WarningsKeepConfig | src/AnimX-io.c:86-109 | an unknown mode value and a daemon value other than `true` (including `false`) only warn and change nothing; `load` and `stream` select their mode |
| ConfigFile.ParseKeepsFlags | src/AnimX-io.c:104-109 | reading a whole file never clears `FT_DAEMON` and never changes `FT_MAXMEM` |
| ConfigFile.ParseLinesAppend | src/AnimX-io.c:44-114 | reading lines `a + b` is reading `a`, then `b` from the configuration `a` left, and an error in `a` ends the read |
| ConfigFile.NeverHangs | src/AnimX-io.c:54-58 | a file whose lines hold no '\n' never makes the scan spin |
| ConfigFile.WriteLinesAsWritten | src/AnimX-io.c:125-224 | the writer dereferences a NULL wallpaper exactly when none is set; otherwise it writes seven lines, header first |
| ConfigFile.WriteLines | src/AnimX-io.c:130-216 | the corrected writer produces seven lines with a wallpaper and six without, header first, and agrees with the writer as written whenever a wallpaper is set |
| ConfigFile.RoundTrip | src/AnimX-io.c:138-216 | reading back a written file restores the wallpaper (when free of '\n' and "//"), monitor, mode and fps exactly, and the ceiling to six decimals. A set daemon flag is restored, a clear one clears nothing, and `FT_MAXMEM` is left as it was. |
| ConfigFile.WrittenLinesRead | src/AnimX-io.c:138-216 | the lines the writer produces, parsed from any starting configuration, give that configuration with the written wallpaper, monitor, mode and fps, the ceiling as `%f` rounds it, and `FT_DAEMON` set if either had it |
| ConfigFile.WriteWithoutWallpaper | src/AnimX-io.c:143 | a daemon that never received a wallpaper cannot write its file; the corrected writer writes `mon=-2` after the header |
| Message.Tokens | src/AnimX-main.c:963-1065 | every token is free of ' ' and '\n' and at most 255 characters long; a word is non-empty and never starts with "--" |
| Message.SplitCommand | src/AnimX-main.c:976-992 | the command holds no '='; a '=' was found exactly when the option has one; command, '=' and rest reassemble the option |
| Message.ApplyToken | src/AnimX-main.c:995-1065 | a rejected token leaves the configuration as it was; a word sets the wallpaper to its resolved path and changes nothing else; an accepted `mode=` sets only the mode to the named one, `mon=` and `fps=` only their field to the `atoi` of the digits, `maxmem=` the limit to the `strtod` of the digits and raises `FT_MAXMEM`; any other option name is rejected as unknown |
| Message.ApplyOption | src/AnimX-main.c:995-1048 | for each known name the option is accepted exactly when it has an `=` and a valid value (a mode name, or digits), with the field effects above; a known name without `=` is rejected as needing a value, an unknown name as unknown |
| Message.OptionEffect | src/AnimX-main.c:995-1048 | for `name=value` with no `=` in the name: `mode` is accepted exactly for `stream` and `load`, `mon`/`fps`/`maxmem` exactly for all-digit values, each accepted one yields precisely the configuration with that one field (and for `maxmem` the flag) changed, and any other name is rejected as unknown |
| Message.OptionNeedsEquals | src/AnimX-main.c:995-1044 | a bare `-mode`, `-mon`, `-fps` or `-maxmem` is rejected as needing a value and leaves the configuration unchanged |
| Message.OptionAcceptedIff | src/AnimX-main.c:995-1048 | an option is applied exactly when it is `mode=stream`, `mode=load`, or `mon=`, `fps=` or `maxmem=` followed by text `str_isdigit` accepts |
| Message.RejectedKeepsEarlier | src/AnimX-main.c:962-1067 | when a token fails, the configuration keeps every update made by the tokens before it |
| Message.SendRoundTrip | src/AnimX-main.c:1157-1167 | tokenizing the line `send_msg` writes recovers every argument (non-empty, no separator, at most 255 characters), each as option or word as the sender wrote it |
| Message.LongWordCut | src/AnimX-main.c:1049-1065 | a 256-character word is cut after 255 characters, and its last character becomes a second word |
| Message.Fgets | src/AnimX-main.c:626-628 | one read takes a non-empty piece of at most 255 characters that holds no '\n' before its last character, and it ends without a '\n' only at the 255-character cap or when it took the whole rest of the stream; piece and remainder make up the stream |
| Message.Pieces | src/AnimX-main.c:626-630 | the pieces the reader parses, laid end to end, give back the stream; each has 1 to 255 characters and a '\n' at most as its last one |
| Message.ShortLineWhole | src/AnimX-main.c:626-630 | a sent line of at most 255 characters is parsed as one message |
| Message.PieceBoundsTokens | src/AnimX-main.c:968-975 | within one piece the parser's own 255-character cut never shortens an option |
| Message.LegacyApplyToken | src/main.c:901-946 | a rejected token leaves the configuration as it was; any option other than `mode` and `mon` is an unknown option; fps, ceiling and `FT_MAXMEM` never change |
| Message.LegacyAgreesOnModeAndMon | src/main.c:901-930 | on `mode` and `mon` options the older parser does exactly what the newer one does |
| Message.LegacyRejectsFpsAndMaxmem | src/main.c:901-930 | `fps` and `maxmem` options end the older parser |
| Message.LegacySendGarbles | src/main.c:1049-1086 | with no terminating NUL, a stray byte after `--mon=1` makes the daemon read `--mon=12` |
| Message.LegacySendTerminated | src/main.c:1049-1086 | with the terminator added, the older sender writes the same line as the newer one whatever bytes follow its buffer; as written it does so only when the next byte is zero |
| Message.DetermineArgc | src/main.c:1040-1047 | the loop returns the number of ' ' characters in its argument |
| Message.SpacesOfJoin | src/main.c:1040-1047 | on a line joined from space-free arguments, the count is one less than the number of arguments |
| FrameRing.Empty | src/AnimX-main.c:737-754 | the ring `run_stream` sets up is well formed, holds nothing and is open |
| FrameRing.TryPush | src/AnimX-main.c:500-560 | the push reports a close exactly when `done` is set. It waits exactly when the ring is full and open. Otherwise the frame joins the back of the queue and the ring stays well formed (count in 0..2, indices in 0..1). |
| FrameRing.TryPop | src/AnimX-main.c:577-592 | the pop waits exactly when the ring is empty and open, and stops exactly when it is empty and closed. Otherwise it returns the oldest frame, from the slot at `read_idx`; the rest of the queue stays in order and the slots are untouched. |
| FrameRing.Close | src/AnimX-main.c:637-642 | after `done` is set neither side's wait condition can hold, and the queue is unchanged |
| FrameRing.CloseReleasesBoth | src/AnimX-main.c:637-642 | after a close a push reports the close, a pop never waits, and closing again changes nothing |
| FrameRing.PopFromFullIsNextWrite | src/AnimX-main.c:588-594 | popping from a full ring hands the consumer exactly the slot the next push overwrites |
| FrameRing.Attempt | src/AnimX-main.c:537-591 | one producer or consumer attempt queues at most one frame and hands out at most one; the frames queued before plus the one it queued are the one it handed out plus those still queued, and the ring stays well formed |
| FrameRing.FifoOrder | src/AnimX-main.c:537-591 | under any interleaving of the producer's and consumer's locked sections, the frames handed out followed by those still queued are exactly those queued at the start followed by those accepted: first in, first out, nothing lost or repeated |
| FrameRing.PacketAsWritten | src/AnimX-main.c:500-561 | as written, the producer's full and closed checks are made once per packet |
| FrameRing.PacketOverruns | src/AnimX-main.c:535-561 | a packet that yields two frames while one is queued writes three frames into two slots, overwriting the unread frame |
| FrameRing.PushPacket | src/AnimX-main.c:500-561 | with the check before every frame, the queue grows by a prefix of the packet's frames, the ring stays well formed, and it stops early only when full or closed |
| Session.Sample | src/AnimX-main.c:535-559 | each kept timestamp is one of the decoded ones, never more are kept than were decoded, and each kept frame is counted |
| Session.KeptIndices | src/AnimX-main.c:535-559 | the kept timestamps are the decoded ones at strictly increasing positions: sampling keeps an order-preserving subsequence |
| Session.SampleSpacing | src/AnimX-main.c:535-559 | the k-th kept frame has a timestamp of at least `next_pts + k * frame_duration`, and `next_pts` ends one duration further on per kept frame |
| Session.SampleSnoc | src/AnimX-main.c:535-559 | one more decoded frame is kept exactly when its timestamp has reached the `next_pts` the frames before it left |
| Session.EndOfInput | src/AnimX-main.c:512-530 | at the end of the input the ring is closed exactly when it was already closed or the seek failed. The queued frames stay, the sampler restarts after a successful rewind, and the producer leaves exactly when `done` is set. |
| Session.RewindRestartsSpacing | src/AnimX-main.c:512-530 | after a rewind the k-th kept frame is again at least k frame durations in |
| Session.Sleep | src/AnimX-main.c:600-606 | the sleep is never negative, and positive exactly when the target time exceeds the processing time |
| Session.FramePeriod | src/AnimX-main.c:600-606 | a displayed frame takes the longer of its processing time and the target time |
| Session.LegacyPacing | src/main.c:540-547 | with the fixed 33333 µs target, a faster frame is padded to exactly 33333 µs and a slower one is not padded |
| Session.LegacyStopCheckAsWritten | src/main.c:334-340 | the older stop check dereferences NULL exactly when there is no worker data, and ends the session exactly when `stop` is set |
| Session.LegacyNonDaemonDerefs | src/main.c:1175-1184 | run from `main`'s own thread, the older session's first stop check dereferences NULL |
| Session.StopCheck | src/AnimX-main.c:445-452 | the guarded check never dereferences NULL; in daemon mode with worker data it does what the unguarded check does; it ends the session exactly then, with `stop` set |
| Session.StreamGuardHarmless | src/AnimX-main.c:699-760 | the always-true guard `flags \| FT_DAEMON` registers the stream's thread data with the worker exactly when the intended `flags & FT_DAEMON` would, namely whenever worker data exists, because only daemon workers have it |
| LoadMode.LoadFrom | src/AnimX-main.c:401-423 | the frames loaded are a prefix of those the sampler keeps, and all of them when the input ends. Loading stops early only at the ceiling. Each loaded frame adds its bytes, and each was loaded below the ceiling. |
| LoadMode.CeilingBound | src/AnimX-main.c:402-407 | the final total is one frame's bytes per loaded frame and stays below the ceiling plus one frame; without a ceiling every kept frame is loaded |
| LoadMode.ZeroCeilingLoadsNothing | src/AnimX-main.c:402-407 | a ceiling of 0 GB loads no frame at all |
| LoadMode.DisplayStepAsWritten | src/AnimX-main.c:458 | the display step divides by zero exactly when no frame was loaded |
| LoadMode.IterationAsWritten | src/AnimX-main.c:443-483 | a display pass reads outside the array exactly when the index is not a loaded frame's, and never reaches the division by zero without such a read first; otherwise it steps the index as written |
| LoadMode.IterationStaysInside | src/AnimX-main.c:443-483 | with at least one frame, a pass from a loaded frame's index reads inside the array and moves to another loaded frame's index |
| LoadMode.ZeroCeilingFaults | src/AnimX-main.c:443-482 | with `--maxmem=0`, any input reaches the display loop with no frames; the first pass reads `images.data[0]` of the empty array (454), and the step after it divides by zero |
| LoadMode.DisplayStep | src/AnimX-main.c:482 | corrected, no frames ends the session; otherwise the index stays in range, moves on by one, and wraps to 0 after the last frame |
| LoadMode.DisplayCycles | src/AnimX-main.c:443-483 | step k shows frame k mod image_count, so every loaded frame is shown once per round |
| LoadMode.DisplayStepAgrees | src/AnimX-main.c:482 | wherever the C step is defined, the corrected step gives the same index |
| Reconfig.AdoptAsWritten | src/AnimX-main.c:653-659 | the copy takes the monitor, mode and ceiling and a wallpaper exactly when one is configured, and keeps the old frame rate |
| Reconfig.InitialCopy | src/AnimX-main.c:1086-1092 | the copy made at start-up is the same partial copy, made into freshly initialised worker data |
| Reconfig.FpsNeverSettles | src/AnimX-main.c:633-659 | after the copy as written, the next message restarts the worker again exactly when a wallpaper is set and either the configured frame rate differs from the copy's or the stored wallpaper is not its own resolved path |
| Reconfig.RestartsOnEveryMessage | src/AnimX-main.c:633-659 | with a configured rate other than the copy's, every message restarts the worker, however many arrive, and the copy's rate never changes |
| Reconfig.FirstCopyMissesFps | src/AnimX-main.c:1086-1092 | a configuration file with `fps=60` makes the first message restart the worker |
| Reconfig.UnresolvedRestarts | src/AnimX-main.c:633-659 | a wallpaper that `realpath` changes makes the test ask for a restart after the copy as written, and after the full copy too |
| Reconfig.ResolvedTestAgrees | src/AnimX-main.c:633 | for a wallpaper that is its own resolved path, the test on the resolved wallpaper decides exactly as the test as written |
| Reconfig.Adopt | src/AnimX-main.c:653-659 | the full copy takes every compared setting and the resolved wallpaper. Right after it the resolved test asks for no restart, whatever the wallpaper, and the test as written asks for none when the wallpaper is its own resolved path |
| Reconfig.RestartOnlyOnChange | src/AnimX-main.c:633 | with the full copy and the resolved test, a later configuration restarts the worker exactly when it has a wallpaper and changes a compared setting (the wallpaper compared resolved); the same configuration never restarts it, whatever its wallpaper |
| Reconfig.AdoptDiffersOnlyInFps | src/AnimX-main.c:653-659 | the copy as written and the full copy differ exactly when the old rate is not the configured one |
| Reconfig.HandleAsWritten | src/AnimX-main.c:628-672 | after a message the daemon exits exactly when parsing failed; otherwise it restarts the worker exactly when the restart test holds, and keeps the parsed configuration |
| Reconfig.Handle | src/AnimX-main.c:628-672 | the daemon exits exactly when parsing failed and otherwise keeps the parsed configuration; with the full copy and the resolved test it restarts exactly when that test holds, and the new worker needs no further restart, whatever the wallpaper |
| Reconfig.LegacyAdopt | src/main.c:595-600 | the older copy takes exactly the fields the older test compares, so no restart is needed afterwards |
| Reconfig.RestartTestsAgree | src/main.c:574 | a difference the older test sees the newer one sees too, and the two agree whenever the frame rates agree |
| Lifecycle.Start | src/AnimX-main.c:653-672 | starting a worker appends one thread at the top of its loop, makes it the current handle, sets `running`, clears `stop`, and leaves the older threads as they were |
| Lifecycle.LostWakeup | src/AnimX-main.c:211-215 | a message right after the first worker starts, before the worker reaches its loop, ends with the worker exited, the reader waiting unnotified, and no thread able to move |
| Lifecycle.JoinUnderLock | src/AnimX-main.c:644-650 | if the reader's join starts after a session ends, the worker can never take the mutex to see `stop`, so the join never returns |
| Lifecycle.TwoSessions | src/AnimX-main.c:634-672 | a session that ended by itself leaves its worker parked and unjoined; a message starts a second worker beside it, the second session's end signal wakes the parked first worker, and after one more message the first and the third worker both run a session |
| Lifecycle.InitInv | src/AnimX-main.c:1086-1100 | the daemon's start-up state satisfies the corrected protocol's invariant |
| Lifecycle.NextKeepsInv | src/AnimX-main.c:203-247 | every step of the corrected protocol keeps the invariant |
| Lifecycle.RunKeepsInv | src/AnimX-main.c:203-247 | any run of corrected steps keeps the invariant |
| Lifecycle.OneSessionAtATime | src/AnimX-main.c:633-672 | under the corrected protocol, however the threads interleave, every worker but the current one has exited and at most one session runs |
| Lifecycle.StopCompletes | src/AnimX-main.c:634-651 | from any state where the reader waits, whatever the current worker is doing, the stop completes once the current session (if any) has ended: the old worker exits, the reader is idle again, and the next worker is started |
| Lifecycle.CorrectedTraces | src/AnimX-main.c:634-672 | the traces that break the code as written complete under the corrected protocol, with only the new worker alive |
| Monitors.Collect | src/AnimX-context.c:154-177 | the collecting pass keeps at most one CRTC per output, all of positive size, including every counted output's CRTC |
| Monitors.CollectSound | src/AnimX-context.c:154-177 | every collected CRTC belongs to a counted output |
| Monitors.CollectFirst | src/AnimX-context.c:154-177 | the first collected CRTC is that of the first counted output |
| Monitors.AnyCounted | src/AnimX-context.c:111-128 | there are monitors exactly when some output counts, and then their bounding box is wider than zero |
| Monitors.Box | src/AnimX-context.c:150-168 | the bounding box contains every collected CRTC |
| Monitors.BoxTight | src/AnimX-context.c:150-168 | each edge of the bounding box is an edge of some CRTC |
| Monitors.BoundingBox | src/AnimX-context.c:150-168 | the min/max loop from `LONG_MAX`/`LONG_MIN` computes the bounding box of the CRTCs it sees, and leaves the sentinels when it sees none |
| Monitors.BoxNonEmpty | src/AnimX-context.c:218-220 | with at least one positive-size monitor, the combined width and height are positive, so the `<= 0` test never fires |
| Monitors.SelectOutput | src/AnimX-context.c:243-263 | a chosen output succeeds exactly when it is connected with a positive-size CRTC; the target is that CRTC with one monitor; "not connected" exactly when it is not |
| Monitors.SelectAsWritten | src/AnimX-context.c:235-263 | for indices of -2 and above the code as written selects as the corrected selection does; below -2, with any monitor present, it reads before the start of the output array |
| Monitors.Select | src/AnimX-context.c:107-265 | no monitors exactly when no output counts. Mirror mode counts every monitor. The combined target contains every counted monitor, and fails exactly when its span exceeds `INT_MAX`. A single index is chosen exactly when it names a counted output, and any index naming no output is out of range. |
| Monitors.MirrorUsesFirst | src/AnimX-context.c:188-196 | mirror mode draws at the position and size of the first counted output |
| Monitors.CombinedIsTight | src/AnimX-context.c:216-233 | each edge of the combined target is an edge of some counted monitor |
| Monitors.BelowMinusTwoUnguarded | src/AnimX-context.c:237-243 | `--mon=-3` passes the validator; with any monitor present the code as written reads outside the array, and the corrected selection reports it as out of range |

## Left out

- FFmpeg decoding, seeking and scaling, and all X11 drawing: frames are timestamps, the seek outcome is a parameter, and outputs and CRTCs are plain records.
- Real pthread interleavings inside a critical section: each locked stretch is one atomic step. Spurious wake-ups and a failing `pthread_create` are not modelled.
- The consumer's display of a popped slot after unlocking is stated only as a sequential observation (`FrameRing.PopFromFullIsNextWrite`). Its unlocked `while (!td->done)` test is not modelled.
- Floating point: the memory ceiling is an exact `real`, and `strtod` reads validated text exactly. `%f` rounding is modelled as round-half-even at six decimals. The `1.0/fps*1e6` target and the frame-interval computation are replaced by integer targets and an integer frame duration. An `fps` of 0, which gives an infinite target in C, is not modelled.
- `malloc` and `strdup` failures (such as src/AnimX-main.c:544-553, which sets `done`) are not modelled.
- The single-frame paths of `run_load_all` (src/AnimX-main.c:350-376) and `run_stream` (src/AnimX-main.c:708-734), and the stop check inside `run_load_all`'s loading loop, are not modelled.
- OS I/O is not modelled: `daemonize`, PID file, signal handler, `stop_daemon`, FIFO open and reopen, syslog, the loading spinner and the sleeps themselves. The `fgets` cut is modelled (`Message.Fgets`), but the FIFO is not.
- `realpath`, `get_config_fullpath` and `cio_file_to_lines` are not part of this model. The file is read as its lines split at '\n', without the '\n' itself. `dyn_array.h` is not part of this model either.
- `main`'s command-line dispatch, `usage`, `version` and `copying` are exit-driven UI flow around the parsers modelled here.
- The daemon's shutdown path (src/AnimX-main.c:1113-1133) is not modelled. It repeats the reader's stop sequence.
- src/bak/*.c and src/main.cpp are one-shot programs whose logic repeats the modelled ring.
- FrameRing.TryPush: the producer's full/closed check (src/AnimX-main.c:501-510) and its write (src/AnimX-main.c:539-561) are separate locked sections with the decode in between, but the model merges them into one step. In C, a close that lands between them still writes and counts the frame, because the write section never tests `done`. `TryPush` (and `FrameRing.PacketAsWritten` for a whole packet) reports the close instead, so a frame queued after a close is not modelled.
- Lifecycle.StopCompletes: a session's end is a free step, which assumes every stopped session ends. A stream session learns of a stop only through `td->done`, and the reader sets that only if the session has already registered `wd->td` (src/AnimX-main.c:637 against 756-760, which come after `init_context` and `is_single_frame`). A stop arriving in that window leaves the session rewinding for ever (512-530) and the reader waiting at 644-646, in the code as written and in the corrected protocol alike. This hang is not modelled.
- Lifecycle.NextAsWritten: only messages that need a restart are modelled. The restart test itself is `Reconfig.NeedsRestart`.
- Clap.Init: `clap_init`'s `strdup` of every argument is implicit, because strings are values here. Its contract states only that the cursor starts at the first argument.
- Numerals.Atoi: defined only on text the validator accepted, as every call site checks first. Overflow of `atoi` on very long digit runs is not modelled.
- Monitors.Select: `XRRGetOutputInfo` failing on one pass and succeeding on the other is not modelled. Both passes see the same outputs, so the `idx == 0` test at src/AnimX-context.c:179-186 cannot fire.

## Findings

| source | as written | input that shows it | evidently intended | confidence | as-written member | corrected member |
|---|---|---|---|---|---|---|
| src/flag.c:83-88 | `mon`, `mode`, `maxmem` call `infos[2]`, `infos[3]`, `infos[4]` of a four-entry table | `--help=maxmem` | each name calls its own entry, 1, 2, 3 | high, not executed | HelpFlags.LegacyMisdirects | HelpFlags.LegacyDumpSelectsOwnPage |
| src/main.c:334-340 | the stop check dereferences the thread-specific `Worker_Data` without a NULL test | running without `--daemon` and with no daemon present (src/main.c:1175-1184) | test for missing worker data, as src/AnimX-main.c:388-396 does | high, not executed | Session.LegacyNonDaemonDerefs | Session.StopCheck |
| src/AnimX-main.c:454-458 | with zero frames the loop reads `images.data[0]` of the empty array, then `i = (i + 1) % image_count` divides by zero | `--mode=load --maxmem=0` | end the session when nothing was loaded | high, not executed | LoadMode.ZeroCeilingFaults | LoadMode.DisplayStep |
| src/AnimX-main.c:500-561 | the producer checks for room once per packet, then writes every frame the packet decodes to | a packet yielding two kept frames while one frame is queued | check for room before each frame | medium, not executed | FrameRing.PacketOverruns | FrameRing.PushPacket |
| src/AnimX-main.c:211-215 | a worker leaving through the `stop` branch clears `running` without signalling the reader | a message arriving before the first worker has taken the mutex | signal (or broadcast) on the stop path, as the session end does | medium, not executed | Lifecycle.LostWakeup | Lifecycle.StopCompletes |
| src/AnimX-main.c:644-650 | the reader joins the worker while holding the mutex the worker needs to see `stop` | a message that stops a running session | wait for the worker to exit before joining, without holding the mutex across the join, so that the stop completes once the session has ended | medium, not executed | Lifecycle.JoinUnderLock | Lifecycle.StopCompletes |
| src/AnimX-main.c:634-672 | a worker whose session ended by itself is parked, not stopped, and a new worker is started beside it | a still image as wallpaper (its session returns after one frame, src/AnimX-main.c:709-734), followed by any restart message | stop the old worker whenever one exists, not only while `running` | medium, not executed | Lifecycle.TwoSessions | Lifecycle.OneSessionAtATime |
| src/AnimX-main.c:633 | `fps` is compared with the worker's copy but never copied into it | `fps=60` in the configuration file, then any message | copy `fps` with the other settings | high, not executed | Reconfig.RestartsOnEveryMessage | Reconfig.RestartOnlyOnChange |
| src/AnimX-main.c:633 | the stored wallpaper is compared with the copy's resolved path | `wp=` with a relative path or a symbolic link in the configuration file, `--restore --daemon`, then any message | compare the resolved wallpaper (or store it resolved when reading the file) | medium, not executed | Reconfig.UnresolvedRestarts | Reconfig.RestartOnlyOnChange |
| src/main.c:1049-1086 | the joined text gets no terminating NUL before `%s` | `--mon=1` with a stray byte `2` after the buffer | append the terminator, as src/AnimX-main.c:1167 does | low, not executed | Message.LegacySendGarbles | Message.LegacySendTerminated |
| src/AnimX-io.c:143 | the wallpaper line dereferences `g_config.wp` even when it is NULL | a daemon started without a wallpaper and stopped by SIGTERM (src/AnimX-main.c:888) | skip the wallpaper line when there is none | high, not executed | ConfigFile.WriteWithoutWallpaper | ConfigFile.RoundTrip |
| src/AnimX-context.c:237 | a single-monitor index is checked only against the upper bound | `--mon=-3` with any monitor connected | reject every index below -2 as out of range | high, not executed | Monitors.BelowMinusTwoUnguarded | Monitors.Select |

=== FILE: clap.dfy ===
/** The command-line argument splitter of include/clap.h: `clap_init` takes
    a private copy of argv, `clap_next` hands out one argument at a time,
    split into its leading hyphens, its name and the text after the first
    '='. Strings are values here, so the copy `clap_init` makes (and the
    NUL it writes over the '=' in that copy) can never reach the caller's
    argv. */
module Clap {
  import opened Settings
  import opened Text

  /** `Clap_Arg`: the hyphen count (0, 1 or 2), the name after the hyphens
      and before the first '=', and the text after that '=' if there is
      one. */
  datatype Arg = Arg(hyphc: nat, start: string, eq: Option<string>)

  /** The hyphens `clap_next` stripped: it never counts more than two. */
  function Dashes(n: nat): (d: string)
    ensures |d| == if n <= 2 then n else 0
  {
    if n == 2 then "--" else if n == 1 then "-" else ""
  }

  /** The '=' and value part of an argument, empty when there is none. */
  function Tail(eq: Option<string>): string
  {
    if eq.Some? then "=" + eq.value else ""
  }

  /** Writing an argument back out: hyphens, name, then '=' and the value. */
  function Reassemble(a: Arg): string
  {
    Dashes(a.hyphc) + (a.start + Tail(a.eq))
  }

  /** How many leading hyphens `clap_next` strips: two for "--", one for a
      lone leading '-', none otherwise. */
  function HyphenCount(arg: string): (n: nat)
    ensures n <= 2 && n <= |arg|
    ensures n == 2 <==> |arg| >= 2 && arg[0] == '-' && arg[1] == '-'
    ensures n == 0 <==> |arg| == 0 || arg[0] != '-'
    ensures arg[..n] == Dashes(n)
  {
    if |arg| >= 2 && arg[0] == '-' && arg[1] == '-' then 2
    else if |arg| >= 1 && arg[0] == '-' then 1
    else 0
  }

  /** The cut at the first '=' of what follows the hyphens. */
  function SplitAtEq(rest: string): (r: (string, Option<string>))
    ensures Free(r.0, '=')
    ensures r.1.None? <==> Free(rest, '=')
    ensures r.0 + Tail(r.1) == rest
  {
    var k := IndexOf(rest, '=');
    if k < |rest| then
      assert rest == rest[..k] + "=" + rest[k + 1..];
      (rest[..k], Some(rest[k + 1..]))
    else
      (rest, None)
  }

  /** Splitting one argument as `clap_next` does. Every argument gives a
      result, the name holds no '=', and reassembling the parts gives the
      argument back. A third hyphen stays in the name ("---x" has two
      hyphens and name "-x"). */
  function Split(arg: string): (a: Arg)
    ensures a.hyphc == HyphenCount(arg)
    ensures Free(a.start, '=')
    ensures a.eq.None? <==> Free(arg[a.hyphc..], '=')
    ensures Reassemble(a) == arg
  {
    var n := HyphenCount(arg);
    var p := SplitAtEq(arg[n..]);
    ReassembleParts(arg, n, p.0, p.1);
    Arg(n, p.0, p.1)
  }

  lemma ReassembleParts(arg: string, n: nat, name: string, eq: Option<string>)
    requires n <= |arg| && arg[..n] == Dashes(n)
    requires name + Tail(eq) == arg[n..]
    ensures Reassemble(Arg(n, name, eq)) == arg
  {
    assert arg == arg[..n] + arg[n..];
  }

  /** The parts determine the split: any `Arg` with a name free of '=' that
      reassembles to `arg` with the hyphen count `clap_next` uses is the
      one `Split` returns. */
  lemma SplitUnique(arg: string, a: Arg)
    requires a.hyphc == HyphenCount(arg)
    requires Free(a.start, '=')
    requires Reassemble(a) == arg
    ensures Split(arg) == a
  {
    var b := Split(arg);
    var n := a.hyphc;
    var rest := arg[n..];
    assert b.hyphc == n;
    AfterDashes(n, a.start + Tail(a.eq), arg);
    AfterDashes(n, b.start + Tail(b.eq), arg);
    TailSplit(rest, a.start, a.eq);
    TailSplit(rest, b.start, b.eq);
    SameTail(rest, a.start, a.eq, b.eq);
  }

  lemma SameTail(rest: string, name: string, e1: Option<string>, e2: Option<string>)
    requires rest == name + Tail(e1) && rest == name + Tail(e2)
    ensures e1 == e2
  {
    assert Tail(e1) == rest[|name|..] == Tail(e2);
    if e1.Some? && e2.Some? {
      assert e1.value == Tail(e1)[1..];
      assert e2.value == Tail(e2)[1..];
    }
  }

  lemma AfterDashes(n: nat, body: string, arg: string)
    requires n <= 2
    requires Dashes(n) + body == arg
    ensures arg[n..] == body
  {
  }

  /** A name free of '=' followed by a tail is cut exactly at the tail. */
  lemma TailSplit(rest: string, name: string, eq: Option<string>)
    requires Free(name, '=') && rest == name + Tail(eq)
    ensures IndexOf(rest, '=') == |name|
    ensures rest[..|name|] == name
    ensures eq.Some? ==> rest[|name| + 1..] == eq.value
  {
    if eq.Some? {
      SplitAtFirst(name, '=', eq.value);
      assert Tail(eq) == ['='] + eq.value;
      assert rest == name + ['='] + eq.value;
    } else {
      assert rest == name;
      FreeIndexOf(rest, '=');
    }
  }

  /** The arguments `clap_next` has not handed out yet. */
  datatype Cursor = Cursor(remaining: seq<string>)

  /** `clap_init`: the cursor starts at the first argument. */
  function Init(args: seq<string>): (c: Cursor)
    ensures c.remaining == args
  {
    Cursor(args)
  }

  /** `clap_next`: `None` (0) exactly when no argument is left; otherwise
      the next argument, split as include/clap.h:66-84 does (its hyphen
      count, a name free of '=', and the value), and a cursor one argument
      further on. */
  function Next(c: Cursor): (r: Option<(Arg, Cursor)>)
    ensures r.None? <==> |c.remaining| == 0
    ensures r.Some? ==> Reassemble(r.value.0) == c.remaining[0]
    ensures r.Some? ==> r.value.0.hyphc == HyphenCount(c.remaining[0]) && Free(r.value.0.start, '=')
    ensures r.Some? ==> r.value.0 == Split(c.remaining[0])
    ensures r.Some? ==> r.value.1.remaining == c.remaining[1..]
  {
    if |c.remaining| == 0 then None
    else Some((Split(c.remaining[0]), Cursor(c.remaining[1..])))
  }

  /** The `while (clap_next(&arg))` loop of `main`: it sees every argument
      exactly once, in order, each split as `clap_next` splits it. */
  method Drain(args: seq<string>) returns (seen: seq<Arg>)
    ensures |seen| == |args|
    ensures forall i | 0 <= i < |args| :: Reassemble(seen[i]) == args[i]
    ensures forall i | 0 <= i < |args| :: seen[i] == Split(args[i])
  {
    var c := Init(args);
    seen := [];
    while true
      invariant |seen| <= |args|
      invariant c.remaining == args[|seen|..]
      invariant forall i | 0 <= i < |seen| :: seen[i] == Split(args[i])
      decreases |args| - |seen|
    {
      var r := Next(c);
      if r.None? {
        assert |args[|seen|..]| == 0;
        break;
      }
      var a := r.value.0;
      var k, prev := |seen|, seen;
      assert a == Split(args[k]);
      seen := prev + [a];
      c := r.value.1;
      assert args[k..][1..] == args[k + 1..];
      SeenOneMore(prev, a, args);
    }
  }

  lemma SeenOneMore(prev: seq<Arg>, a: Arg, args: seq<string>)
    requires |prev| < |args|
    requires forall i | 0 <= i < |prev| :: prev[i] == Split(args[i])
    requires a == Split(args[|prev|])
    ensures forall i | 0 <= i < |prev| + 1 :: (prev + [a])[i] == Split(args[i])
  {
    forall i | 0 <= i < |prev| + 1
      ensures (prev + [a])[i] == Split(args[i])
    {
      if i < |prev| {
        assert (prev + [a])[i] == prev[i];
      }
    }
  }

  /** The hyphen rule on a third hyphen, and a later '=' kept in the
      value. */
  lemma SplitExamples()
    ensures Split("---x") == Arg(2, "-x", None)
    ensures Split("--mode=a=b") == Arg(2, "mode", Some("a=b"))
  {
    SplitUnique("---x", Arg(2, "-x", None));
    SplitUnique("--mode=a=b", Arg(2, "mode", Some("a=b")));
  }
}

=== FILE: config_file.dfy ===
/** The `key=value` configuration file: `parse_config_file` and
    `write_config_file` of src/AnimX-io.c. The file is read as a list of
    lines split at '\n'; the writer's text is joined the same way. */
module ConfigFile {
  import opened Settings
  import opened Text
  import Numerals

  // ---------------------------------------------------------------------
  // Scanning one line

  /** A "//" starts at index `j` of `s`. */
  predicate CommentAt(s: string, j: int)
  {
    0 <= j && j + 1 < |s| && s[j] == '/' && s[j + 1] == '/'
  }

  predicate NoComment(s: string)
  {
    forall j | 0 <= j < |s| :: !CommentAt(s, j)
  }

  /** Index of the first "//" in `s` at or after `i`, or `|s|`. */
  function CommentFrom(s: string, i: nat): (k: nat)
    requires i <= |s|
    ensures i <= k <= |s|
    ensures k < |s| ==> CommentAt(s, k)
    ensures forall j | i <= j < k :: !CommentAt(s, j)
    decreases |s| - i
  {
    if i == |s| || CommentAt(s, i) then i else CommentFrom(s, i + 1)
  }

  /** What the scan of one line yields: the text before the first '=' and
      the text after it, both cut at the first "//"; or, when a '\n' comes
      before any "//", a scan that never ends (the loop `continue`s without
      advancing). */
  datatype Scan = Entry(key: string, value: string) | Spins

  /** Reference meaning of the scan of src/AnimX-io.c:54-74. */
  function ScanLine(line: string): Scan
  {
    var body := line[..CommentFrom(line, 0)];
    if !Free(body, '\n') then Spins
    else
      var e := IndexOf(body, '=');
      if e < |body| then Entry(body[..e], body[e + 1..]) else Entry(body, "")
  }

  /** The character loop of src/AnimX-io.c:54-74, one character per step;
      reaching a '\n' is reported as `Spins` where the C loop would spin
      forever. */
  method ScanLineLoop(line: string) returns (r: Scan)
    ensures r == ScanLine(line)
  {
    var key, value := "", "";
    var eq := false;
    var i := 0;
    ghost var e := IndexOf(line, '=');
    while i < |line|
      invariant 0 <= i <= |line|
      invariant forall j | 0 <= j < i :: !CommentAt(line, j)
      invariant forall j | 0 <= j < i :: line[j] != '\n'
      invariant eq <==> e < i
      invariant !eq ==> key == line[..i] && value == ""
      invariant eq ==> key == line[..e] && value == line[e + 1..i]
    {
      if CommentAt(line, i) {
        break;
      }
      if line[i] == '\n' {
        ScanSpins(line, i);
        return Spins;
      }
      if line[i] == '=' && !eq {
        assert e == i;
        assert line[e + 1..i + 1] == "";
        eq := true;
        i := i + 1;
        continue;
      }
      if !eq {
        assert line[..i + 1] == line[..i] + [line[i]];
        key := key + [line[i]];
      } else {
        assert line[e + 1..i + 1] == line[e + 1..i] + [line[i]];
        value := value + [line[i]];
      }
      i := i + 1;
    }
    ScanEnds(line, i);
    return Entry(key, value);
  }

  /** Where the loop leaves off: the scan cut at `i`, split at the first
      '=' if one comes before `i`. */
  lemma ScanEnds(line: string, i: nat)
    requires i <= |line|
    requires i < |line| ==> CommentAt(line, i)
    requires forall j | 0 <= j < i :: !CommentAt(line, j)
    requires forall j | 0 <= j < i :: line[j] != '\n'
    ensures var e := IndexOf(line, '=');
            ScanLine(line) == if e < i then Entry(line[..e], line[e + 1..i]) else Entry(line[..i], "")
  {
    ScanStops(line, i);
    IndexOfPrefix(line, '=', i);
    var e := IndexOf(line, '=');
    if e < i {
      assert line[..i][..e] == line[..e];
      assert line[..i][e + 1..] == line[e + 1..i];
    }
  }

  lemma ScanSpins(line: string, i: nat)
    requires i < |line| && line[i] == '\n' && !CommentAt(line, i)
    requires forall j | 0 <= j < i :: !CommentAt(line, j)
    ensures ScanLine(line) == Spins
  {
    var k := CommentFrom(line, 0);
    assert i < k;
    assert line[..k][i] == '\n';
  }

  lemma ScanStops(line: string, i: nat)
    requires i <= |line|
    requires i < |line| ==> CommentAt(line, i)
    requires forall j | 0 <= j < i :: !CommentAt(line, j)
    requires forall j | 0 <= j < i :: line[j] != '\n'
    ensures CommentFrom(line, 0) == i
    ensures Free(line[..i], '\n')
  {
  }

  /** A line `key=value` with no "//" and no '\n' scans back to its parts,
      whatever '=' the value holds. */
  lemma {:induction false} ScanEntryLine(key: string, value: string)
    requires Free(key, '=') && Free(key, '\n') && Free(value, '\n')
    requires NoComment(key + "=" + value)
    ensures ScanLine(key + "=" + value) == Entry(key, value)
  {
    var line := key + "=" + value;
    assert CommentFrom(line, 0) == |line|;
    assert line[..|line|] == line;
    FreeConcat(key, "=", '\n');
    FreeConcat(key + "=", value, '\n');
    SplitAtFirst(key, '=', value);
  }

  /** A "//" inside a value ends it: the rest of the line is dropped. */
  lemma {:induction false} ScanTruncatesAtComment(key: string, kept: string, dropped: string)
    requires Free(key, '=') && Free(key, '\n') && Free(key, '/')
    requires Free(kept, '\n') && Free(kept, '/')
    ensures ScanLine(key + "=" + kept + "//" + dropped) == Entry(key, kept)
  {
    var line := key + "=" + kept + "//" + dropped;
    var n := |key| + 1 + |kept|;
    assert line[..n] == key + "=" + kept;
    assert CommentAt(line, n);
    forall j | 0 <= j < n
      ensures !CommentAt(line, j)
    {
      if j < |key| { assert line[j] == key[j]; }
      else if j > |key| { assert line[j] == kept[j - |key| - 1]; }
    }
    assert CommentFrom(line, 0) == n;
    FreeConcat(key, "=", '\n');
    FreeConcat(key + "=", kept, '\n');
    SplitAtFirst(key, '=', kept);
  }

  // ---------------------------------------------------------------------
  // Applying the lines

  /** Outcome of reading a whole file. `BadNumber` is the `err_wargs` exit
      for a `mon`, `maxmem` or `fps` value `str_isdigit` rejects. */
  datatype Outcome = Loaded(cfg: Config) | BadNumber(key: string, value: string) | Hangs

  /** The key dispatch of src/AnimX-io.c:79-110. `wp` stores the text as
      written, unresolved; `mon` and `fps` take the `atoi` and `maxmem` the
      `strtod` of a value `str_isdigit` accepts, without raising
      `FT_MAXMEM`; a `mode` other than `load` or `stream` and a `daemon`
      other than `true` only print a warning; any other key is ignored. */
  function ApplyEntry(c: Config, key: string, value: string): (r: Outcome)
    ensures r != Hangs
    ensures r.BadNumber? <==> key in ["mon", "maxmem", "fps"] && !Numerals.StrIsDigit(value)
    ensures r.Loaded? ==> r.cfg.maxmemSet == c.maxmemSet
    ensures r.Loaded? ==> (c.daemon ==> r.cfg.daemon)
    ensures key == "wp" ==> r == Loaded(c.(wp := Some(value)))
    ensures key == "mon" && r.Loaded? ==> r.cfg == c.(mon := Numerals.Atoi(value))
    ensures key == "fps" && r.Loaded? ==> r.cfg == c.(fps := Numerals.Atoi(value))
    ensures key == "maxmem" && r.Loaded? ==> r.cfg == c.(maxmem := Numerals.Strtod(value))
    ensures key == "mode" ==> r == Loaded(if ParseModeName(value).Some? then c.(mode := ParseModeName(value).value) else c)
    ensures key == "daemon" ==> r == Loaded(if value == "true" then c.(daemon := true) else c)
    ensures key !in ["wp", "mon", "mode", "maxmem", "fps", "daemon"] ==> r == Loaded(c)
  {
    if key == "wp" then Loaded(c.(wp := Some(value)))
    else if key == "mon" then
      if !Numerals.StrIsDigit(value) then BadNumber(key, value)
      else Loaded(c.(mon := Numerals.Atoi(value)))
    else if key == "mode" then
      match ParseModeName(value)
      case Some(m) => Loaded(c.(mode := m))
      case None => Loaded(c)
    else if key == "maxmem" then
      if !Numerals.StrIsDigit(value) then BadNumber(key, value)
      else Loaded(c.(maxmem := Numerals.Strtod(value)))
    else if key == "fps" then
      if !Numerals.StrIsDigit(value) then BadNumber(key, value)
      else Loaded(c.(fps := Numerals.Atoi(value)))
    else if key == "daemon" then
      if value == "true" then Loaded(c.(daemon := true)) else Loaded(c)
    else Loaded(c)
  }

  /** A hand-written value the reader only warns about changes nothing:
      a mode other than `load` or `stream`, a daemon setting other than
      `true` (`false` included). `load` and `stream` select their mode. */
  lemma WarningsKeepConfig(c: Config, v: string)
    ensures v != "load" && v != "stream" ==> ApplyEntry(c, "mode", v) == Loaded(c)
    ensures v != "true" ==> ApplyEntry(c, "daemon", v) == Loaded(c)
    ensures ApplyEntry(c, "mode", "load") == Loaded(c.(mode := Load))
    ensures ApplyEntry(c, "mode", "stream") == Loaded(c.(mode := Stream))
  {
  }

  function ParseLine(line: string, c: Config): Outcome
  {
    match ScanLine(line)
    case Spins => Hangs
    case Entry(k, v) => ApplyEntry(c, k, v)
  }

  /** `parse_config_file` over the file's lines, first to last, starting
      from the configuration in force. The first bad number ends the run. */
  function ParseLines(lines: seq<string>, c: Config): Outcome
    decreases |lines|
  {
    if |lines| == 0 then Loaded(c)
    else match ParseLine(lines[0], c)
      case Loaded(c') => ParseLines(lines[1..], c')
      case other => other
  }

  /** Reading a file never clears `FT_DAEMON` and never touches
      `FT_MAXMEM`. */
  lemma {:induction false} ParseKeepsFlags(lines: seq<string>, c: Config)
    ensures ParseLines(lines, c).Loaded? ==>
              ParseLines(lines, c).cfg.maxmemSet == c.maxmemSet
              && (c.daemon ==> ParseLines(lines, c).cfg.daemon)
    decreases |lines|
  {
    if |lines| > 0 {
      match ParseLine(lines[0], c)
      case Loaded(c') => ParseKeepsFlags(lines[1..], c');
      case _ =>
    }
  }

  /** Reading `a` then `b` is reading `a + b`. */
  lemma {:induction false} ParseLinesAppend(a: seq<string>, b: seq<string>, c: Config)
    ensures ParseLines(a + b, c) ==
              match ParseLines(a, c)
              case Loaded(c') => ParseLines(b, c')
              case other => other
    decreases |a|
  {
    if |a| == 0 {
      assert a + b == b;
    } else {
      assert (a + b)[0] == a[0];
      assert (a + b)[1..] == a[1..] + b;
      match ParseLine(a[0], c)
      case Loaded(c') => ParseLinesAppend(a[1..], b, c');
      case _ =>
    }
  }

  // ---------------------------------------------------------------------
  // Lines of a file

  /** Join lines with '\n' between them (the writer puts none after the
      last line). */
  function JoinLines(lines: seq<string>): string
    requires |lines| > 0
  {
    if |lines| == 1 then lines[0] else lines[0] + "\n" + JoinLines(lines[1..])
  }

  /** Splitting a file's text at every '\n', without the '\n' itself. */
  function SplitLines(s: string): (lines: seq<string>)
    ensures |lines| > 0
    ensures forall i | 0 <= i < |lines| :: Free(lines[i], '\n')
    decreases |s|
  {
    var k := IndexOf(s, '\n');
    if k == |s| then [s] else [s[..k]] + SplitLines(s[k + 1..])
  }

  /** Splitting joined lines gives them back when none holds a '\n'. */
  lemma {:induction false} SplitJoin(lines: seq<string>)
    requires |lines| > 0
    requires forall i | 0 <= i < |lines| :: Free(lines[i], '\n')
    ensures SplitLines(JoinLines(lines)) == lines
    decreases |lines|
  {
    if |lines| == 1 {
      FreeIndexOf(lines[0], '\n');
    } else {
      var rest := lines[1..];
      assert forall i | 0 <= i < |rest| :: rest[i] == lines[i + 1];
      SplitJoin(rest);
      JoinStep(lines);
      SplitStep(lines[0], JoinLines(rest));
      assert lines == [lines[0]] + rest;
    }
  }

  lemma JoinStep(lines: seq<string>)
    requires |lines| > 1
    ensures JoinLines(lines) == lines[0] + ['\n'] + JoinLines(lines[1..])
  {
  }

  /** Splitting stops at the first '\n'. */
  lemma SplitStep(a: string, b: string)
    requires Free(a, '\n')
    ensures SplitLines(a + ['\n'] + b) == [a] + SplitLines(b)
  {
    SplitAtFirst(a, '\n', b);
  }

  /** Lines produced by splitting can never make the scan spin. */
  lemma {:induction false} ParseSplitNeverHangs(s: string, c: Config)
    ensures ParseLines(SplitLines(s), c) != Hangs
  {
    NeverHangs(SplitLines(s), c);
  }

  lemma {:induction false} NeverHangs(lines: seq<string>, c: Config)
    requires forall i | 0 <= i < |lines| :: Free(lines[i], '\n')
    ensures ParseLines(lines, c) != Hangs
    decreases |lines|
  {
    if |lines| > 0 {
      var line := lines[0];
      var k := CommentFrom(line, 0);
      assert Free(line[..k], '\n') by {
        forall j | 0 <= j < k ensures line[..k][j] != '\n' {
          assert line[..k][j] == line[j];
        }
      }
      match ParseLine(line, c)
      case Loaded(c') => NeverHangs(lines[1..], c');
      case _ =>
    }
  }

  // ---------------------------------------------------------------------
  // Writing

  /** The generated header, a comment line. */
  const Header: string :=
    "// This is " + "a generated " + "file, changes " + "here will not " + "be saved!"

  function DaemonText(b: bool): string
  {
    if b then "true" else "false"
  }

  /** One `key=value` line as the writer emits it. */
  function KeyValue(key: string, value: string): string
  {
    key + "=" + value
  }

  /** The five setting lines after the wallpaper line. */
  function SettingLines(c: Config): seq<string>
  {
    [ KeyValue("mon", Numerals.IntText(c.mon)),
      KeyValue("mode", ModeName(c.mode)),
      KeyValue("maxmem", Numerals.FixedText(c.maxmem)),
      KeyValue("fps", Numerals.IntText(c.fps)),
      KeyValue("daemon", DaemonText(c.daemon)) ]
  }

  /** `write_config_file` as written: the wallpaper line copies
      `g_config.wp` character by character and so dereferences it even when
      no wallpaper was ever given. `None` stands for that NULL
      dereference. */
  function WriteLinesAsWritten(c: Config): (r: Option<seq<string>>)
    ensures r.None? <==> c.wp.None?
    ensures r.Some? ==> |r.value| == 7 && r.value[0] == Header
  {
    match c.wp
    case None => None
    case Some(p) => Some([Header, KeyValue("wp", p)] + SettingLines(c))
  }

  /** The writer with the missing guard: the wallpaper line is written only
      when a wallpaper is set, so a file written by a daemon that never
      received one reads back without one. */
  function WriteLines(c: Config): (r: seq<string>)
    ensures |r| == if c.wp.Some? then 7 else 6
    ensures r[0] == Header
    ensures c.wp.Some? ==> WriteLinesAsWritten(c) == Some(r)
  {
    match c.wp
    case None => [Header] + SettingLines(c)
    case Some(p) => [Header, KeyValue("wp", p)] + SettingLines(c)
  }

  /** A wallpaper path the file can carry: no '\n' and no "//". */
  predicate Storable(p: string)
  {
    Free(p, '\n') && NoComment(p)
  }

  /** What reading back a written file yields, starting from `start`. */
  function ReadBack(start: Config, c: Config): Config
  {
    start.(wp := if c.wp.Some? then c.wp else start.wp,
           mon := c.mon,
           mode := c.mode,
           maxmem := Numerals.SixDecimals(c.maxmem),
           fps := c.fps,
           daemon := start.daemon || c.daemon)
  }

  /** Round trip: reading the written file restores the wallpaper, monitor,
      mode and fps exactly, the memory ceiling to six decimals, and sets the
      daemon flag if it was set; a cleared daemon flag does not clear one
      already in force, and `FT_MAXMEM` is never restored. */
  lemma RoundTrip(start: Config, c: Config)
    requires c.wp.Some? ==> Storable(c.wp.value)
    ensures ParseLines(SplitLines(JoinLines(WriteLines(c))), start) == Loaded(ReadBack(start, c))
    ensures Numerals.Abs(ReadBack(start, c).maxmem - c.maxmem) <= 0.0000005
  {
    var lines := WriteLines(c);
    LinesFree(c);
    SplitJoin(lines);
    WrittenLinesRead(start, c);
    assert Numerals.Abs(Numerals.SixDecimals(c.maxmem) - c.maxmem) <= 0.0000005 by {
      Numerals.FixedTextRoundTrip(c.maxmem);
    }
  }

  /** The written lines, read from `start`, give `ReadBack(start, c)`. */
  lemma WrittenLinesRead(start: Config, c: Config)
    requires c.wp.Some? ==> Storable(c.wp.value)
    ensures ParseLines(WriteLines(c), start) == Loaded(ReadBack(start, c))
  {
    var lines := WriteLines(c);
    var c1 := start.(wp := if c.wp.Some? then c.wp else start.wp);
    var n := |lines| - 5;
    HeadRead(start, c);
    assert lines[n..] == SettingLines(c);
    SettingLinesRead(c1, c);
    ParseLinesAppend(lines[..n], lines[n..], start);
    assert lines[..n] + lines[n..] == lines;
  }

  /** The header and the wallpaper line set only the wallpaper. */
  lemma HeadRead(start: Config, c: Config)
    requires c.wp.Some? ==> Storable(c.wp.value)
    ensures var lines := WriteLines(c);
            ParseLines(lines[..|lines| - 5], start) == Loaded(start.(wp := if c.wp.Some? then c.wp else start.wp))
  {
    var lines := WriteLines(c);
    var n := |lines| - 5;
    HeaderIgnored(start);
    if c.wp.Some? {
      WpLine(c.wp.value, start);
      assert lines == [Header, KeyValue("wp", c.wp.value)] + SettingLines(c);
      assert lines[..n] == [Header] + [KeyValue("wp", c.wp.value)];
      ParseLinesAppend([Header], [KeyValue("wp", c.wp.value)], start);
    } else {
      assert lines == [Header] + SettingLines(c);
      assert lines[..n] == [Header];
    }
  }

  lemma LinesFree(c: Config)
    requires c.wp.Some? ==> Storable(c.wp.value)
    ensures forall i | 0 <= i < |WriteLines(c)| :: Free(WriteLines(c)[i], '\n')
  {
    var lines := WriteLines(c);
    var n := |lines| - 5;
    if c.wp.Some? {
      FreeConcat("wp", "=", '\n');
      FreeConcat("wp" + "=", c.wp.value, '\n');
    }
    SettingLinesFree(c);
    HeaderFree();
    forall i | 0 <= i < |lines|
      ensures Free(lines[i], '\n')
    {
      if i >= n {
        assert lines[i] == SettingLines(c)[i - n];
      } else if i == 0 {
        assert lines[i] == Header;
      } else {
        assert lines[i] == KeyValue("wp", c.wp.value);
      }
    }
  }

  lemma HeaderFree()
    ensures Free(Header, '\n')
  {
    FreeConcat("// This is ", "a generated ", '\n');
    FreeConcat("// This is " + "a generated ", "file, changes ", '\n');
    FreeConcat("// This is " + "a generated " + "file, changes ", "here will not ", '\n');
    FreeConcat("// This is " + "a generated " + "file, changes " + "here will not ", "be saved!", '\n');
  }

  lemma HeaderIgnored(start: Config)
    ensures ParseLines([Header], start) == Loaded(start)
  {
    assert CommentAt(Header, 0);
    assert CommentFrom(Header, 0) == 0;
    assert ScanLine(Header) == Entry("", "");
    assert [Header][1..] == [];
  }

  lemma WpLine(p: string, start: Config)
    requires Storable(p)
    ensures ParseLines([KeyValue("wp", p)], start) == Loaded(start.(wp := Some(p)))
  {
    NoCommentAfterEquals("wp", p);
    ScanEntryLine("wp", p);
    assert ParseLine(KeyValue("wp", p), start) == Loaded(start.(wp := Some(p)));
    assert [KeyValue("wp", p)][1..] == [];
  }

  /** `k=` followed by a text without "//" has none, for a key without '/'. */
  lemma NoCommentAfterEquals(key: string, v: string)
    requires Free(key, '/') && NoComment(v)
    ensures NoComment(key + "=" + v)
  {
    var line := key + "=" + v;
    forall j | 0 <= j < |line|
      ensures !CommentAt(line, j)
    {
      if j < |key| {
        assert line[j] == key[j];
      } else if j > |key| {
        assert line[j] == v[j - |key| - 1];
        if j + 1 < |line| {
          assert line[j + 1] == v[j - |key|];
          assert !CommentAt(v, j - |key| - 1);
        }
      }
    }
  }

  /** Characters that never start a comment or a new line or split a key:
      what `%d`, `%f`, mode names and `true`/`false` produce. */
  predicate Plain(s: string)
  {
    forall j | 0 <= j < |s| :: s[j] != '/' && s[j] != '\n' && s[j] != '='
  }

  lemma NumeralsPlain(s: string)
    requires Numerals.StrIsDigit(s)
    ensures Plain(s)
  {
    var t := Numerals.Unsigned(s);
    forall j | 0 <= j < |s|
      ensures s[j] != '/' && s[j] != '\n' && s[j] != '='
    {
      if |s| > 0 && s[0] == '-' && j > 0 {
        assert s[j] == t[j - 1];
      } else if !(|s| > 0 && s[0] == '-') {
        assert s[j] == t[j];
      }
    }
  }

  /** A `key=value` line made of plain text scans back to its parts. */
  lemma PlainLine(key: string, value: string)
    requires Plain(key) && Plain(value)
    ensures ScanLine(KeyValue(key, value)) == Entry(key, value)
    ensures Free(KeyValue(key, value), '\n')
  {
    NoCommentAfterEquals(key, value);
    ScanEntryLine(key, value);
    FreeConcat(key, "=", '\n');
    FreeConcat(key + "=", value, '\n');
  }

  lemma MonLine(n: int, d: Config)
    ensures ParseLine(KeyValue("mon", Numerals.IntText(n)), d) == Loaded(d.(mon := n))
    ensures Free(KeyValue("mon", Numerals.IntText(n)), '\n')
  {
    var v := Numerals.IntText(n);
    Numerals.IntTextRoundTrip(n);
    NumeralsPlain(v);
    assert Plain("mon");
    PlainLine("mon", v);
    assert ApplyEntry(d, "mon", v) == Loaded(d.(mon := n));
  }

  lemma FpsLine(n: int, d: Config)
    ensures ParseLine(KeyValue("fps", Numerals.IntText(n)), d) == Loaded(d.(fps := n))
    ensures Free(KeyValue("fps", Numerals.IntText(n)), '\n')
  {
    Numerals.IntTextRoundTrip(n);
    NumeralsPlain(Numerals.IntText(n));
    PlainLine("fps", Numerals.IntText(n));
  }

  lemma MaxmemLine(x: real, d: Config)
    ensures ParseLine(KeyValue("maxmem", Numerals.FixedText(x)), d) == Loaded(d.(maxmem := Numerals.SixDecimals(x)))
    ensures Free(KeyValue("maxmem", Numerals.FixedText(x)), '\n')
  {
    Numerals.FixedTextRoundTrip(x);
    MaxmemValueLine(Numerals.FixedText(x), d);
  }

  lemma MaxmemValueLine(v: string, d: Config)
    requires Numerals.StrIsDigit(v)
    ensures ParseLine(KeyValue("maxmem", v), d) == Loaded(d.(maxmem := Numerals.Strtod(v)))
    ensures Free(KeyValue("maxmem", v), '\n')
  {
    NumeralsPlain(v);
    assert Plain("maxmem");
    PlainLine("maxmem", v);
    assert ApplyEntry(d, "maxmem", v) == Loaded(d.(maxmem := Numerals.Strtod(v)));
  }

  lemma ModeLine(m: Mode, d: Config)
    ensures ParseLine(KeyValue("mode", ModeName(m)), d) == Loaded(d.(mode := m))
    ensures Free(KeyValue("mode", ModeName(m)), '\n')
  {
    PlainLine("mode", ModeName(m));
  }

  lemma DaemonLine(b: bool, d: Config)
    ensures ParseLine(KeyValue("daemon", DaemonText(b)), d) == Loaded(d.(daemon := d.daemon || b))
    ensures Free(KeyValue("daemon", DaemonText(b)), '\n')
  {
    PlainLine("daemon", DaemonText(b));
  }

  /** One step of the fold over lines. */
  lemma ParseStep(ls: seq<string>, k: nat, d: Config, d': Config)
    requires k < |ls| && ParseLine(ls[k], d) == Loaded(d')
    ensures ParseLines(ls[k..], d) == ParseLines(ls[k + 1..], d')
  {
    assert ls[k..][0] == ls[k];
    assert ls[k..][1..] == ls[k + 1..];
  }

  /** Reading the five setting lines from `c1`. */
  lemma SettingLinesRead(c1: Config, c: Config)
    ensures ParseLines(SettingLines(c), c1) ==
              Loaded(c1.(mon := c.mon, mode := c.mode,
                         maxmem := Numerals.SixDecimals(c.maxmem),
                         fps := c.fps, daemon := c1.daemon || c.daemon))
  {
    var ls := SettingLines(c);
    var d1 := c1.(mon := c.mon);
    var d2 := d1.(mode := c.mode);
    var d3 := d2.(maxmem := Numerals.SixDecimals(c.maxmem));
    var d4 := d3.(fps := c.fps);
    var d5 := d4.(daemon := c1.daemon || c.daemon);
    MonLine(c.mon, c1);
    ModeLine(c.mode, d1);
    MaxmemLine(c.maxmem, d2);
    FpsLine(c.fps, d3);
    DaemonLine(c.daemon, d4);
    ParseStep(ls, 4, d4, d5);
    ParseStep(ls, 3, d3, d4);
    ParseStep(ls, 2, d2, d3);
    ParseStep(ls, 1, d1, d2);
    ParseStep(ls, 0, c1, d1);
    assert ls[5..] == [];
    assert ls[0..] == ls;
  }

  lemma SettingLinesFree(c: Config)
    ensures forall i | 0 <= i < 5 :: Free(SettingLines(c)[i], '\n')
  {
    var ls := SettingLines(c);
    forall i | 0 <= i < 5
      ensures Free(ls[i], '\n')
    {
      if i == 0 { MonLine(c.mon, c); }
      else if i == 1 { ModeLine(c.mode, c); }
      else if i == 2 { MaxmemLine(c.maxmem, c); }
      else if i == 3 { FpsLine(c.fps, c); }
      else { DaemonLine(c.daemon, c); }
    }
  }

  /** The generated file cannot be written when no wallpaper was ever set
      (a daemon started without one and stopped before receiving one). */
  lemma WriteWithoutWallpaper()
    ensures WriteLinesAsWritten(Defaults.(daemon := true)) == None
    ensures WriteLines(Defaults.(daemon := true))[1] == "mon=-2"
  {
    assert Numerals.IntText(-2) == "-" + Numerals.NatText(2);
  }
}

=== FILE: frame_ring.dfy ===
/** The two-slot frame ring of streaming mode: `Thread_Data` and the locked
    sections of `producer_thread` and `consumer_thread` in src/AnimX-main.c
    (the older copy in src/main.c:435-557 is the same code). Each locked
    section is one atomic step; a frame is an abstract value. */
module FrameRing {
  import opened Settings

  /** `buffer_size`. */
  const N: nat := 2

  /** The slots (a slot's `data` is NULL until the producer first fills
      it), `write_idx`, `read_idx`, `count` and `done`. */
  datatype Ring<T> = Ring(slots: seq<Option<T>>, writeIdx: int, readIdx: int, count: int, done: bool)

  /** The slot `i` places after `start`, wrapping at `buffer_size`. */
  function Slot(start: int, i: int): int
  {
    (start + i) % N
  }

  /** Both indices in range, `count` between 0 and `buffer_size`, the
      write index `count` slots after the read index, and every queued slot
      filled. */
  predicate Valid<T>(r: Ring<T>)
  {
    |r.slots| == N && 0 <= r.readIdx < N && 0 <= r.count <= N
    && r.writeIdx == Slot(r.readIdx, r.count)
    && forall i | 0 <= i < r.count :: r.slots[Slot(r.readIdx, i)].Some?
  }

  /** The queued frames, oldest first. */
  function Contents<T>(r: Ring<T>): (q: seq<T>)
    requires Valid(r)
    ensures |q| == r.count
    ensures forall i | 0 <= i < r.count :: r.slots[Slot(r.readIdx, i)] == Some(q[i])
  {
    if r.count == 0 then []
    else if r.count == 1 then [r.slots[Slot(r.readIdx, 0)].value]
    else [r.slots[Slot(r.readIdx, 0)].value, r.slots[Slot(r.readIdx, 1)].value]
  }

  /** The ring `run_stream` sets up: both slots empty, nothing queued. */
  function Empty<T>(): (r: Ring<T>)
    ensures Valid(r) && Contents(r) == [] && !r.done
  {
    Ring([None, None], 0, 0, 0, false)
  }

  /** The producer's wait condition, `count == buffer_size && !done`. */
  predicate ProducerWaits<T>(r: Ring<T>)
  {
    r.count == N && !r.done
  }

  /** The consumer's wait condition, `count == 0 && !done`. */
  predicate ConsumerWaits<T>(r: Ring<T>)
  {
    r.count == 0 && !r.done
  }

  /** The producer's locked write (src/AnimX-main.c:537-560): store the
      frame at `write_idx`, advance it modulo `buffer_size`, and count it.
      The section itself checks nothing. */
  function Write<T>(r: Ring<T>, f: T): (w: Ring<T>)
    requires |r.slots| == N && 0 <= r.writeIdx < N
    ensures |w.slots| == N && 0 <= w.writeIdx < N
    ensures w.slots[r.writeIdx] == Some(f) && w.count == r.count + 1 && w.done == r.done
  {
    r.(slots := r.slots[r.writeIdx := Some(f)], writeIdx := (r.writeIdx + 1) % N, count := r.count + 1)
  }

  datatype PushResult<T> = Pushed(ring: Ring<T>) | PushBlocked | PushClosed

  /** A push with its check, as one atomic step: the producer stops once
      `done` is set, waits while the ring is full, and otherwise appends the
      frame at the back of the queue. */
  function TryPush<T>(r: Ring<T>, f: T): (res: PushResult<T>)
    requires Valid(r)
    ensures res == PushClosed <==> r.done
    ensures res == PushBlocked <==> ProducerWaits(r)
    ensures res.Pushed? ==> Valid(res.ring) && Contents(res.ring) == Contents(r) + [f]
    ensures res.Pushed? ==> res.ring.done == r.done && res.ring.readIdx == r.readIdx
  {
    if r.done then PushClosed
    else if r.count == N then PushBlocked
    else
      var w := Write(r, f);
      PushKeeps(r, f);
      Pushed(w)
  }

  lemma PushKeeps<T>(r: Ring<T>, f: T)
    requires Valid(r) && r.count < N
    ensures Valid(Write(r, f)) && Contents(Write(r, f)) == Contents(r) + [f]
  {
    var w := Write(r, f);
    forall i | 0 <= i < r.count
      ensures w.slots[Slot(r.readIdx, i)] == r.slots[Slot(r.readIdx, i)]
    {
      assert Slot(r.readIdx, i) != r.writeIdx;
    }
    assert w.slots[Slot(r.readIdx, r.count)] == Some(f);
  }

  datatype PopResult<T> = Popped(slot: int, frame: T, ring: Ring<T>) | PopBlocked | PopClosed

  /** The consumer's locked section (src/AnimX-main.c:580-591): wait while
      the ring is empty and open, stop when it is empty and closed, and
      otherwise take the oldest frame, even once `done` is set. The slot
      keeps its data: the consumer displays it after unlocking. */
  function TryPop<T>(r: Ring<T>): (res: PopResult<T>)
    requires Valid(r)
    ensures res == PopBlocked <==> ConsumerWaits(r)
    ensures res == PopClosed <==> r.count == 0 && r.done
    ensures res.Popped? ==> Valid(res.ring) && [res.frame] + Contents(res.ring) == Contents(r)
    ensures res.Popped? ==> res.slot == r.readIdx && res.ring.slots == r.slots && res.ring.done == r.done
  {
    if r.count == 0 then
      if r.done then PopClosed else PopBlocked
    else
      var p := r.(readIdx := (r.readIdx + 1) % N, count := r.count - 1);
      PopKeeps(r);
      Popped(r.readIdx, r.slots[Slot(r.readIdx, 0)].value, p)
  }

  lemma PopKeeps<T>(r: Ring<T>)
    requires Valid(r) && r.count > 0
    ensures var p := r.(readIdx := (r.readIdx + 1) % N, count := r.count - 1);
            Valid(p) && [r.slots[Slot(r.readIdx, 0)].value] + Contents(p) == Contents(r)
  {
    var p := r.(readIdx := (r.readIdx + 1) % N, count := r.count - 1);
    forall i | 0 <= i < p.count
      ensures Slot(p.readIdx, i) == Slot(r.readIdx, i + 1)
    {
    }
  }

  /** Setting `done` under the lock, as the stop paths do. Neither wait
      condition can hold afterwards, and the queue is untouched. */
  function Close<T>(r: Ring<T>): (c: Ring<T>)
    ensures c.done
    ensures !ProducerWaits(c) && !ConsumerWaits(c)
    ensures Valid(r) ==> Valid(c) && Contents(c) == Contents(r)
  {
    r.(done := true)
  }

  /** After a close both sides leave their loops: a push reports the close,
      a pop never waits, and setting `done` again changes nothing. */
  lemma {:induction false} CloseReleasesBoth<T>(r: Ring<T>, f: T)
    requires Valid(r)
    ensures TryPush(Close(r), f) == PushClosed
    ensures TryPop(Close(r)) != PopBlocked
    ensures Close(Close(r)) == Close(r)
  {
  }

  /** Popping from a full ring hands the consumer exactly the slot the next
      push overwrites: the frame being displayed after the unlock is the
      producer's next write target. */
  lemma PopFromFullIsNextWrite<T>(r: Ring<T>, g: T)
    requires Valid(r) && r.count == N && !r.done
    ensures TryPop(r).Popped?
    ensures TryPop(r).ring.writeIdx == TryPop(r).slot
    ensures TryPush(TryPop(r).ring, g).Pushed?
    ensures TryPush(TryPop(r).ring, g).ring.slots[TryPop(r).slot] == Some(g)
  {
  }

  /** One attempt by either side: the producer offering a frame, or the
      consumer asking for one. */
  datatype Step<T> = Produce(f: T) | Consume

  /** One step on its own: the ring after it, the frame it queued (if
      any) and the frame it handed out (if any). A step that would wait or
      finds the ring closed changes nothing. What was queued before, plus
      what the step queued, is what it handed out plus what stays queued. */
  function Attempt<T>(r: Ring<T>, step: Step<T>): (a: (Ring<T>, seq<T>, seq<T>))
    requires Valid(r)
    ensures Valid(a.0) && |a.1| <= 1 && |a.2| <= 1
    ensures a.2 + Contents(a.0) == Contents(r) + a.1
  {
    match step
    case Produce(f) =>
      var p := TryPush(r, f);
      if p.Pushed? then (p.ring, [f], []) else (r, [], [])
    case Consume =>
      var q := TryPop(r);
      if q.Popped? then (q.ring, [], [q.frame]) else (r, [], [])
  }

  /** The producer and consumer sections run in any interleaving. Gives
      the final ring, the frames the ring accepted and the frames it
      handed out, each in order. */
  function Interleave<T>(r: Ring<T>, steps: seq<Step<T>>): (out: (Ring<T>, seq<T>, seq<T>))
    requires Valid(r)
    ensures Valid(out.0)
    decreases |steps|
  {
    if |steps| == 0 then (r, [], [])
    else
      var a := Attempt(r, steps[0]);
      var o := Interleave(a.0, steps[1..]);
      (o.0, a.1 + o.1, a.2 + o.2)
  }

  /** Frames leave in the order they entered, none lost or repeated: under
      any interleaving, the frames handed out followed by those still
      queued are exactly the frames queued at the start followed by those
      accepted. */
  lemma {:induction false} FifoOrder<T>(r: Ring<T>, steps: seq<Step<T>>)
    requires Valid(r)
    ensures var o := Interleave(r, steps); o.2 + Contents(o.0) == Contents(r) + o.1
    decreases |steps|
  {
    if |steps| > 0 {
      var a := Attempt(r, steps[0]);
      var o := Interleave(a.0, steps[1..]);
      FifoOrder(a.0, steps[1..]);
      Rearrange(a.2, o.2, Contents(o.0), Contents(a.0), o.1, Contents(r), a.1);
    }
  }

  /** The bookkeeping of one step followed by the rest. */
  lemma Rearrange<T>(out1: seq<T>, out2: seq<T>, left: seq<T>, mid: seq<T>, in2: seq<T>, start: seq<T>, in1: seq<T>)
    requires out2 + left == mid + in2 && out1 + mid == start + in1
    ensures out1 + out2 + left == start + (in1 + in2)
  {
    calc {
      out1 + out2 + left;
      out1 + (out2 + left);
      out1 + (mid + in2);
      (out1 + mid) + in2;
      start + in1 + in2;
    }
  }

  // ---------------------------------------------------------------------
  // One packet

  /** Every kept frame of one packet written in turn without a check. */
  function WriteAll<T>(r: Ring<T>, frames: seq<T>): (w: Ring<T>)
    requires |r.slots| == N && 0 <= r.writeIdx < N
    ensures |w.slots| == N && 0 <= w.writeIdx < N
    ensures w.count == r.count + |frames| && w.readIdx == r.readIdx && w.done == r.done
    decreases |frames|
  {
    if |frames| == 0 then r else WriteAll(Write(r, frames[0]), frames[1..])
  }

  /** One packet as src/AnimX-main.c:502-564 handles it: the fullness
      check happens once, before the packet is read, and then every kept
      frame the decoder returns for that packet is written. */
  function PacketAsWritten<T>(r: Ring<T>, frames: seq<T>): (res: PushResult<T>)
    requires Valid(r)
    ensures res == PushClosed <==> r.done
    ensures res == PushBlocked <==> ProducerWaits(r)
  {
    if r.done then PushClosed
    else if r.count == N then PushBlocked
    else Pushed(WriteAll(r, frames))
  }

  /** A packet that decodes to two kept frames while one frame is queued
      passes the check and then writes three frames into two slots: the
      count reaches 3 and the unread frame `a` is overwritten by `c`, the
      next frame the consumer reads. */
  lemma PacketOverruns(a: int, b: int, c: int)
    ensures var r := TryPush(Empty<int>(), a).ring;
            var res := PacketAsWritten(r, [b, c]);
            res.Pushed? && res.ring.count == 3 && !Valid(res.ring)
            && res.ring.slots[res.ring.readIdx] == Some(c)
  {
    var r := TryPush(Empty<int>(), a).ring;
    assert WriteAll(r, [b, c]) == WriteAll(Write(r, b), [c]);
    assert WriteAll(Write(r, b), [c]) == WriteAll(Write(Write(r, b), c), []);
  }

  /** One packet with the check made before every frame: frames are pushed
      while there is room, and the producer stops at the first frame that
      finds the ring full (it waits there) or closed. */
  method PushPacket<T>(r: Ring<T>, frames: seq<T>) returns (w: Ring<T>, k: nat)
    requires Valid(r)
    ensures Valid(w) && w.done == r.done && k <= |frames|
    ensures Contents(w) == Contents(r) + frames[..k]
    ensures k < |frames| ==> r.done || ProducerWaits(w)
    ensures r.done ==> k == 0
  {
    w, k := r, 0;
    while k < |frames|
      invariant k <= |frames|
      invariant Valid(w) && w.done == r.done
      invariant Contents(w) == Contents(r) + frames[..k]
      invariant r.done ==> k == 0
      decreases |frames| - k
    {
      var res := TryPush(w, frames[k]);
      if !res.Pushed? {
        return;
      }
      assert frames[..k + 1] == frames[..k] + [frames[k]];
      w, k := res.ring, k + 1;
    }
  }
}

=== FILE: help_flags.dfy ===
/** `dump_flag_info`, the `--help=<flag>` dispatcher: src/AnimX-flag.c and
    its older copy src/flag.c. Each table entry is a help page; printing a
    page is modelled as naming it. */
module HelpFlags {

  /** The help pages, one per documented flag. */
  datatype Info = HelpInfo | MonInfo | ModeInfo | MaxmemInfo | DaemonInfo | StopInfo | FpsInfo

  /** What the dispatcher prints: a page, or the blank line `putchar('\n')`
      puts between pages. */
  datatype Out = Page(info: Info) | Blank

  /** Either the output, or the `err_wargs` exit: `HyphenName` for a name
      starting with '-', `UnknownName` for any name no branch takes, and
      `PastTable` for a call through an index outside the table (undefined
      behaviour in C). */
  datatype Result = Printed(out: seq<Out>) | HyphenName | UnknownName | PastTable

  /** The seven-entry table of src/AnimX-flag.c:109-117. */
  const Table: seq<Info> := [HelpInfo, MonInfo, ModeInfo, MaxmemInfo, DaemonInfo, StopInfo, FpsInfo]

  /** The four-entry table of src/flag.c:72-77. */
  const LegacyTable: seq<Info> := [HelpInfo, MonInfo, ModeInfo, MaxmemInfo]

  /** The long flag name a page documents. */
  function LongName(i: Info): string
  {
    match i
    case HelpInfo => "help"
    case MonInfo => "mon"
    case ModeInfo => "mode"
    case MaxmemInfo => "maxmem"
    case DaemonInfo => "daemon"
    case StopInfo => "stop"
    case FpsInfo => "fps"
  }

  /** Pages of `table` in order with a blank line between neighbours: the
      `*` loop. */
  function Listing(table: seq<Info>): (out: seq<Out>)
    ensures |table| > 0 ==> |out| == 2 * |table| - 1
    ensures forall k | 0 <= k < |table| :: out[2 * k] == Page(table[k])
    ensures forall k | 0 <= k < |table| - 1 :: out[2 * k + 1] == Blank
    decreases |table|
  {
    if |table| == 0 then []
    else if |table| == 1 then [Page(table[0])]
    else
      var rest := Listing(table[1..]);
      var out := [Page(table[0]), Blank] + rest;
      assert forall k | 1 <= k < |table| :: out[2 * k] == rest[2 * (k - 1)];
      assert forall k | 1 <= k < |table| - 1 :: out[2 * k + 1] == Blank by {
        forall k | 1 <= k < |table| - 1
          ensures out[2 * k + 1] == Blank
        {
          var j := k - 1;
          assert out[2 * k + 1] == rest[2 * j + 1];
        }
      }
      out
  }

  /** The table index src/AnimX-flag.c:120-134 calls for a name, if any
      branch takes it; "h" and "d" are the one-letter spellings. */
  function Index(name: string): (k: int)
    ensures -1 <= k < |Table|
    ensures 0 <= k ==> name == LongName(Table[k]) || (name == "h" && k == 0) || (name == "d" && k == 4)
  {
    if name == "h" || name == "help" then 0
    else if name == "mon" then 1
    else if name == "mode" then 2
    else if name == "maxmem" then 3
    else if name == "d" || name == "daemon" then 4
    else if name == "stop" then 5
    else if name == "fps" then 6
    else -1
  }

  /** `dump_flag_info` of src/AnimX-flag.c:105-145. */
  function DumpFlagInfo(name: string): (r: Result)
    ensures r != PastTable
    ensures r == HyphenName <==> |name| > 0 && name[0] == '-'
    ensures r == UnknownName <==> !(|name| > 0 && name[0] == '-') && Index(name) < 0 && name != "*"
    ensures r.Printed? && name != "*" ==> Index(name) >= 0 && r.out == [Page(Table[Index(name)])]
  {
    if |name| > 0 && name[0] == '-' then HyphenName
    else
      var k := Index(name);
      if k >= 0 then Printed([Page(Table[k])])
      else if name == "*" then Printed(Listing(Table))
      else UnknownName
  }

  /** Every page is reached by its own long name. */
  lemma EachNameSelectsOwnPage(i: Info)
    ensures DumpFlagInfo(LongName(i)) == Printed([Page(i)])
  {
    match i
    case HelpInfo =>
    case MonInfo =>
    case ModeInfo =>
    case MaxmemInfo =>
    case DaemonInfo =>
    case StopInfo =>
    case FpsInfo =>
  }

  /** `*` prints all seven pages in table order with a blank line between
      neighbours. */
  lemma StarListsAll()
    ensures DumpFlagInfo("*").Printed?
    ensures |DumpFlagInfo("*").out| == 13
    ensures forall k | 0 <= k < 7 :: DumpFlagInfo("*").out[2 * k] == Page(Table[k])
    ensures forall k | 0 <= k < 6 :: DumpFlagInfo("*").out[2 * k + 1] == Blank
  {
  }

  // ---------------------------------------------------------------------
  // The older dispatcher

  /** The index src/flag.c:81-88 calls for a name: one past the right entry
      for `mon`, `mode` and `maxmem`. */
  function LegacyIndexAsWritten(name: string): int
  {
    if name == "h" || name == "help" then 0
    else if name == "mon" then 2
    else if name == "mode" then 3
    else if name == "maxmem" then 4
    else -1
  }

  /** `dump_flag_info` of src/flag.c:68-99, as written: an index past the
      four-entry table is `PastTable`. */
  function LegacyDumpAsWritten(name: string): (r: Result)
    ensures r == HyphenName <==> |name| > 0 && name[0] == '-'
    ensures r == PastTable <==> name == "maxmem"
  {
    if |name| > 0 && name[0] == '-' then HyphenName
    else
      var k := LegacyIndexAsWritten(name);
      if k >= |LegacyTable| then PastTable
      else if k >= 0 then Printed([Page(LegacyTable[k])])
      else if name == "*" then Printed(Listing(LegacyTable))
      else UnknownName
  }

  /** `--help=mon` prints the mode page, `--help=mode` the maxmem page, and
      `--help=maxmem` calls past the end of the table. */
  lemma LegacyMisdirects()
    ensures LegacyDumpAsWritten("mon") == Printed([Page(ModeInfo)])
    ensures LegacyDumpAsWritten("mode") == Printed([Page(MaxmemInfo)])
    ensures LegacyDumpAsWritten("maxmem") == PastTable
  {
  }

  /** The older dispatcher with each name sent to its own entry. */
  function LegacyDump(name: string): (r: Result)
    ensures r != PastTable
    ensures r == HyphenName <==> |name| > 0 && name[0] == '-'
  {
    if |name| > 0 && name[0] == '-' then HyphenName
    else if name == "h" || name == "help" then Printed([Page(LegacyTable[0])])
    else if name == "mon" then Printed([Page(LegacyTable[1])])
    else if name == "mode" then Printed([Page(LegacyTable[2])])
    else if name == "maxmem" then Printed([Page(LegacyTable[3])])
    else if name == "*" then Printed(Listing(LegacyTable))
    else UnknownName
  }

  /** In the corrected older dispatcher every page of its table is reached
      by its own name, and it agrees with the newer dispatcher on every
      name the older table documents. */
  lemma LegacyDumpSelectsOwnPage(k: nat)
    requires k < |LegacyTable|
    ensures LegacyDump(LongName(LegacyTable[k])) == Printed([Page(LegacyTable[k])])
    ensures LegacyDump(LongName(LegacyTable[k])) == DumpFlagInfo(LongName(LegacyTable[k]))
  {
    EachNameSelectsOwnPage(LegacyTable[k]);
    if k == 0 {
    } else if k == 1 {
    } else if k == 2 {
    } else {
    }
  }
}

=== FILE: lifecycle.dfy ===
/** The daemon's worker lifecycle: `worker_thread` and the locked section of
    `fifo_reader_thread` in src/AnimX-main.c (203-247 and 621-680; first
    start at 1086-1100), sharing `Worker_Data`'s mutex, condition variable
    and `running`, `stop` and `thread` fields. Each step below is one stretch
    of code between two points where a thread takes or gives up the mutex,
    taken atomically; a session runs with the mutex released, and its end is
    a step that may be taken at any time. That end stands for a session
    that notices `stop`: a load session tests it on every pass, but a
    stream session learns of it only through `td->done`, which the reader
    sets only once the session has registered its thread data
    (src/AnimX-main.c:637 against 756-760). A stop that arrives before that
    registration, after which the stream session never ends, is not
    modelled. Only messages that need a restart are modelled (see
    `Reconfig`); spurious wake-ups and a failing `pthread_create` are not. */
module Lifecycle {
  import opened Settings

  /** Where a worker thread is: about to take the mutex at the top of its
      loop, parked in `pthread_cond_wait` (`notified` once a signal or
      broadcast has picked it), running a session, or exited. */
  datatype Phase = Top | Parked(notified: bool) | InSession | Exited

  /** The FIFO reader: between messages, in its `pthread_cond_wait` for
      `running` to drop, or in `pthread_join` with the mutex still held. */
  datatype Reader = Idle | Waiting(notified: bool) | Joining

  /** Every worker thread ever created, oldest first; `running`, `stop`;
      the index of the thread whose handle `wd->thread` holds; the reader. */
  datatype State = State(workers: seq<Phase>, running: bool, stop: bool, thread: Option<nat>, reader: Reader)

  /** Which waiter a `pthread_cond_signal` wakes; `ToNobody` only when
      nobody waits. */
  datatype Target = ToReader | ToWorker(i: nat) | ToNobody

  /** One atomic step: worker `i` passes the wait loop at the top of its
      loop; worker `i`'s session returns and it signals `wake`; a message
      arrives that needs a restart; the reader is woken; the reader's
      `pthread_join` returns. */
  datatype Step =
    | WorkerChecks(i: nat)
    | SessionEnds(i: nat, wake: Target)
    | MessageArrives
    | ReaderWakes
    | JoinReturns

  /** The daemon just after src/AnimX-main.c:1086-1100: with a configured
      wallpaper, one worker created and `running` set. */
  function Init(hasWp: bool): State
  {
    if hasWp then State([Top], true, false, Some(0), Idle)
    else State([], false, false, None, Idle)
  }

  /** The reader holds the mutex across a blocking call, so no worker can
      take it. */
  predicate Locked(s: State)
  {
    s.reader == Joining
  }

  /** `wake` is a waiter a signal may pick, or nobody waits. */
  predicate CanWake(s: State, wake: Target)
  {
    match wake
    case ToReader => s.reader.Waiting?
    case ToWorker(i) => i < |s.workers| && s.workers[i].Parked?
    case ToNobody => !s.reader.Waiting? && forall i | 0 <= i < |s.workers| :: !s.workers[i].Parked?
  }

  /** `pthread_cond_signal`: the chosen waiter is notified. */
  function Signal(s: State, wake: Target): State
  {
    match wake
    case ToReader => s.(reader := Waiting(true))
    case ToWorker(i) => if i < |s.workers| then s.(workers := s.workers[i := Parked(true)]) else s
    case ToNobody => s
  }

  /** Every parked worker notified; no other worker moves. */
  function WakeAll(ws: seq<Phase>): (r: seq<Phase>)
    ensures |r| == |ws|
    ensures forall i | 0 <= i < |ws| :: r[i] != Parked(false) && (r[i].Parked? <==> ws[i].Parked?)
    ensures forall i | 0 <= i < |ws| :: !ws[i].Parked? ==> r[i] == ws[i]
  {
    seq(|ws|, i requires 0 <= i < |ws| => if ws[i].Parked? then Parked(true) else ws[i])
  }

  /** `pthread_cond_broadcast`: every waiter notified, the reader included. */
  function Broadcast(s: State): (b: State)
    ensures b.running == s.running && b.stop == s.stop && b.thread == s.thread
    ensures s.reader.Waiting? ==> b.reader == Waiting(true)
    ensures !s.reader.Waiting? ==> b.reader == s.reader
  {
    s.(workers := WakeAll(s.workers), reader := if s.reader.Waiting? then Waiting(true) else s.reader)
  }

  /** The end of the reader's section (src/AnimX-main.c:653-672): `stop`
      cleared, `running` set, and a new worker created whose handle goes
      into `wd->thread`. */
  function Start(s: State): (t: State)
    ensures |t.workers| == |s.workers| + 1 && s.workers <= t.workers
    ensures forall j | 0 <= j < |s.workers| :: t.workers[j] == s.workers[j]
    ensures t.thread == Some(|s.workers|) && t.workers[|s.workers|] == Top
    ensures t.running && !t.stop && t.reader == Idle
  {
    State(s.workers + [Top], true, false, Some(|s.workers|), Idle)
  }

  // ---------------------------------------------------------------------
  // As written

  /** One step as the code is written: a worker leaving through the `stop`
      branch clears `running` without signalling (src/AnimX-main.c:213-217);
      a session's end signals one waiter (240-244); a message while a
      session is running sets `stop` and waits for `running` to drop, then
      joins with the mutex held (634-651); a message while no session runs
      starts a new worker without stopping the old one. */
  function NextAsWritten(s: State, step: Step): Option<State>
  {
    match step
    case WorkerChecks(i) =>
      if Locked(s) || i >= |s.workers| || !(s.workers[i] == Top || s.workers[i] == Parked(true)) then None
      else if !s.running && !s.stop then Some(s.(workers := s.workers[i := Parked(false)]))
      else if s.stop then Some(s.(running := false, workers := s.workers[i := Exited]))
      else Some(s.(workers := s.workers[i := InSession]))
    case SessionEnds(i, wake) =>
      if Locked(s) || i >= |s.workers| || s.workers[i] != InSession || !CanWake(s, wake) then None
      else Some(Signal(s.(running := false, workers := s.workers[i := Top]), wake))
    case MessageArrives =>
      if s.reader != Idle then None
      else if s.running then Some(s.(stop := true, reader := Waiting(false)))
      else Some(Start(s))
    case ReaderWakes =>
      if s.reader != Waiting(true) then None
      else if s.running then Some(s.(reader := Waiting(false)))
      else if s.thread.Some? then Some(s.(reader := Joining))
      else Some(Start(s))
    case JoinReturns =>
      if s.reader != Joining || s.thread.None? || s.thread.value >= |s.workers|
         || s.workers[s.thread.value] != Exited then None
      else Some(Start(s))
  }

  function RunAsWritten(s: State, steps: seq<Step>): Option<State>
    decreases |steps|
  {
    if |steps| == 0 then Some(s)
    else match NextAsWritten(s, steps[0])
      case None => None
      case Some(t) => RunAsWritten(t, steps[1..])
  }

  /** No thread can move again. */
  ghost predicate StuckAsWritten(s: State)
  {
    forall step: Step :: NextAsWritten(s, step).None?
  }

  /** A message arrives right after the first worker is created, before the
      worker has taken the mutex: the reader sets `stop` and waits; the
      worker sees `stop`, clears `running` and exits without a signal, and
      the reader waits for ever. */
  lemma LostWakeup()
    ensures var r := RunAsWritten(Init(true), [MessageArrives, WorkerChecks(0)]);
            r.Some? && r.value.reader == Waiting(false) && r.value.workers == [Exited]
            && !r.value.running && StuckAsWritten(r.value)
  {
    var s1 := State([Top], true, true, Some(0), Waiting(false));
    var s2 := State([Exited], false, true, Some(0), Waiting(false));
    assert NextAsWritten(Init(true), MessageArrives) == Some(s1);
    assert [Top][0 := Exited] == [Exited];
    assert NextAsWritten(s1, WorkerChecks(0)) == Some(s2);
    assert RunAsWritten(s2, []) == Some(s2);
    forall step: Step
      ensures NextAsWritten(s2, step).None?
    {
    }
  }

  /** A message stops a running session; the session returns and signals
      the reader; the reader wakes before the worker is back at the mutex
      and calls `pthread_join` holding it. The worker can never take the
      mutex to see `stop`, so it never exits and the join never returns. */
  lemma JoinUnderLock()
    ensures var r := RunAsWritten(Init(true), [WorkerChecks(0), MessageArrives, SessionEnds(0, ToReader), ReaderWakes]);
            r.Some? && r.value.reader == Joining && r.value.workers == [Top] && StuckAsWritten(r.value)
  {
    var s1 := State([InSession], true, false, Some(0), Idle);
    var s2 := State([InSession], true, true, Some(0), Waiting(false));
    var s3 := State([Top], false, true, Some(0), Waiting(true));
    var s4 := State([Top], false, true, Some(0), Joining);
    assert NextAsWritten(Init(true), WorkerChecks(0)) == Some(s1) by {
      assert [Top][0 := InSession] == [InSession];
    }
    assert NextAsWritten(s1, MessageArrives) == Some(s2);
    assert NextAsWritten(s2, SessionEnds(0, ToReader)) == Some(s3) by {
      assert [InSession][0 := Top] == [Top];
    }
    assert NextAsWritten(s3, ReaderWakes) == Some(s4);
    assert RunAsWritten(s4, []) == Some(s4);
    forall step: Step
      ensures NextAsWritten(s4, step).None?
    {
    }
  }

  /** A session that ends by itself (a still image, after its one frame)
      leaves its worker parked with `running` cleared; the next message
      then starts a second worker without stopping or joining the first. When the second session ends, its
      signal can wake the parked first worker, and after one more message
      the first and the third worker both run a session. */
  lemma TwoSessions()
    ensures var r := RunAsWritten(Init(true),
                       [WorkerChecks(0), SessionEnds(0, ToNobody), WorkerChecks(0), MessageArrives,
                        WorkerChecks(1), SessionEnds(1, ToWorker(0)), MessageArrives,
                        WorkerChecks(0), WorkerChecks(2)]);
            r.Some? && |r.value.workers| == 3
            && r.value.workers[0] == InSession && r.value.workers[2] == InSession
  {
    FirstSessionParks();
    SecondSessionWakes();
  }

  /** The first five steps: the first worker ends its session and parks,
      and the message starts a second worker, which enters its session. */
  lemma FirstSessionParks()
    ensures RunAsWritten(Init(true),
              [WorkerChecks(0), SessionEnds(0, ToNobody), WorkerChecks(0), MessageArrives,
               WorkerChecks(1), SessionEnds(1, ToWorker(0)), MessageArrives,
               WorkerChecks(0), WorkerChecks(2)])
            == RunAsWritten(State([Parked(false), InSession], true, false, Some(1), Idle),
                 [SessionEnds(1, ToWorker(0)), MessageArrives, WorkerChecks(0), WorkerChecks(2)])
  {
    var s1 := State([InSession], true, false, Some(0), Idle);
    var s2 := State([Top], false, false, Some(0), Idle);
    var s3 := State([Parked(false)], false, false, Some(0), Idle);
    var s4 := State([Parked(false), Top], true, false, Some(1), Idle);
    var s5 := State([Parked(false), InSession], true, false, Some(1), Idle);
    var tail := [SessionEnds(1, ToWorker(0)), MessageArrives, WorkerChecks(0), WorkerChecks(2)];
    assert NextAsWritten(Init(true), WorkerChecks(0)) == Some(s1) by {
      assert [Top][0 := InSession] == [InSession];
    }
    assert NextAsWritten(s1, SessionEnds(0, ToNobody)) == Some(s2) by {
      assert [InSession][0 := Top] == [Top];
    }
    assert NextAsWritten(s2, WorkerChecks(0)) == Some(s3) by {
      assert [Top][0 := Parked(false)] == [Parked(false)];
    }
    assert NextAsWritten(s3, MessageArrives) == Some(s4) by {
      assert [Parked(false)] + [Top] == [Parked(false), Top];
    }
    assert NextAsWritten(s4, WorkerChecks(1)) == Some(s5) by {
      assert [Parked(false), Top][1 := InSession] == [Parked(false), InSession];
    }
    RunStepAsWritten(s4, [WorkerChecks(1)] + tail, s5);
    RunStepAsWritten(s3, [MessageArrives, WorkerChecks(1)] + tail, s4);
    RunStepAsWritten(s2, [WorkerChecks(0), MessageArrives, WorkerChecks(1)] + tail, s3);
    RunStepAsWritten(s1, [SessionEnds(0, ToNobody), WorkerChecks(0), MessageArrives, WorkerChecks(1)] + tail, s2);
    RunStepAsWritten(Init(true), [WorkerChecks(0), SessionEnds(0, ToNobody), WorkerChecks(0), MessageArrives,
                                  WorkerChecks(1)] + tail, s1);
  }

  /** The last four steps: the second session's end wakes the parked first
      worker, the next message starts a third, and both run a session. */
  lemma SecondSessionWakes()
    ensures RunAsWritten(State([Parked(false), InSession], true, false, Some(1), Idle),
              [SessionEnds(1, ToWorker(0)), MessageArrives, WorkerChecks(0), WorkerChecks(2)])
            == Some(State([InSession, Top, InSession], true, false, Some(2), Idle))
  {
    var s5 := State([Parked(false), InSession], true, false, Some(1), Idle);
    var s6 := State([Parked(true), Top], false, false, Some(1), Idle);
    var s7 := State([Parked(true), Top, Top], true, false, Some(2), Idle);
    var s8 := State([InSession, Top, Top], true, false, Some(2), Idle);
    var s9 := State([InSession, Top, InSession], true, false, Some(2), Idle);
    assert NextAsWritten(s5, SessionEnds(1, ToWorker(0))) == Some(s6) by {
      assert [Parked(false), InSession][1 := Top] == [Parked(false), Top];
      assert [Parked(false), Top][0 := Parked(true)] == [Parked(true), Top];
    }
    assert NextAsWritten(s6, MessageArrives) == Some(s7) by {
      assert [Parked(true), Top] + [Top] == [Parked(true), Top, Top];
    }
    assert NextAsWritten(s7, WorkerChecks(0)) == Some(s8) by {
      assert [Parked(true), Top, Top][0 := InSession] == [InSession, Top, Top];
    }
    assert NextAsWritten(s8, WorkerChecks(2)) == Some(s9) by {
      assert [InSession, Top, Top][2 := InSession] == [InSession, Top, InSession];
    }
    RunStepAsWritten(s8, [WorkerChecks(2)], s9);
    RunStepAsWritten(s7, [WorkerChecks(0), WorkerChecks(2)], s8);
    RunStepAsWritten(s6, [MessageArrives, WorkerChecks(0), WorkerChecks(2)], s7);
    RunStepAsWritten(s5, [SessionEnds(1, ToWorker(0)), MessageArrives, WorkerChecks(0), WorkerChecks(2)], s6);
  }

  /** Running from the first step's result. */
  lemma RunStepAsWritten(s: State, steps: seq<Step>, t: State)
    requires |steps| > 0 && NextAsWritten(s, steps[0]) == Some(t)
    ensures RunAsWritten(s, steps) == RunAsWritten(t, steps[1..])
  {
  }

  // ---------------------------------------------------------------------
  // Corrected

  /** One step of the corrected protocol: the `stop` branch and a session's
      end broadcast; a message stops the current worker whenever one exists,
      running or parked; the reader waits until that worker has exited, so
      its join returns at once, and then starts the next one. */
  function Next(s: State, step: Step): Option<State>
  {
    match step
    case WorkerChecks(i) =>
      if Locked(s) || i >= |s.workers| || !(s.workers[i] == Top || s.workers[i] == Parked(true)) then None
      else if !s.running && !s.stop then Some(s.(workers := s.workers[i := Parked(false)]))
      else if s.stop then Some(Broadcast(s.(running := false, workers := s.workers[i := Exited])))
      else Some(s.(workers := s.workers[i := InSession]))
    case SessionEnds(i, _) =>
      if Locked(s) || i >= |s.workers| || s.workers[i] != InSession then None
      else Some(Broadcast(s.(running := false, workers := s.workers[i := Top])))
    case MessageArrives =>
      if s.reader != Idle then None
      else if s.thread.Some? then Some(Broadcast(s.(stop := true)).(reader := Waiting(false)))
      else Some(Start(s))
    case ReaderWakes =>
      if s.reader != Waiting(true) then None
      else if s.thread.Some? && s.thread.value < |s.workers| && s.workers[s.thread.value] != Exited
      then Some(s.(reader := Waiting(false)))
      else Some(Start(s))
    case JoinReturns => None
  }

  function Run(s: State, steps: seq<Step>): Option<State>
    decreases |steps|
  {
    if |steps| == 0 then Some(s)
    else match Next(s, steps[0])
      case None => None
      case Some(t) => Run(t, steps[1..])
  }

  /** The corrected protocol's invariant: every worker other than the one
      `wd->thread` names has exited; the reader never blocks holding the
      mutex; while it waits, `stop` is set and the current worker will see
      it (it is not parked without a notification); outside a stop `stop`
      is clear; and an exited current worker has notified the reader. */
  predicate Inv(s: State)
  {
    (s.thread.Some? ==> s.thread.value < |s.workers|)
    && (forall i | 0 <= i < |s.workers| && s.workers[i] != Exited :: s.thread == Some(i))
    && s.reader != Joining
    && (s.reader.Waiting? ==> s.stop && s.thread.Some? && s.workers[s.thread.value] != Parked(false))
    && (s.reader == Idle ==> !s.stop)
    && (s.thread.Some? && s.workers[s.thread.value] == Exited ==> s.reader == Waiting(true))
  }

  lemma InitInv(hasWp: bool)
    ensures Inv(Init(hasWp))
  {
  }

  /** Every step keeps the invariant. */
  lemma NextKeepsInv(s: State, step: Step)
    requires Inv(s)
    ensures Next(s, step).Some? ==> Inv(Next(s, step).value)
  {
    match step
    case WorkerChecks(i) => WorkerChecksKeepsInv(s, i);
    case SessionEnds(i, _) => SessionEndsKeepsInv(s, i);
    case MessageArrives => MessageKeepsInv(s);
    case ReaderWakes => ReaderWakesKeepsInv(s);
    case JoinReturns =>
  }

  lemma WorkerChecksKeepsInv(s: State, i: nat)
    requires Inv(s)
    ensures Next(s, WorkerChecks(i)).Some? ==> Inv(Next(s, WorkerChecks(i)).value)
  {
    if Next(s, WorkerChecks(i)).Some? {
      assert s.thread == Some(i);
      var t := Next(s, WorkerChecks(i)).value;
      assert |t.workers| == |s.workers|;
      forall j | 0 <= j < |t.workers| && t.workers[j] != Exited
        ensures t.thread == Some(j)
      {
        assert j == i || s.workers[j] != Exited;
      }
    }
  }

  lemma SessionEndsKeepsInv(s: State, i: nat)
    requires Inv(s)
    ensures Next(s, SessionEnds(i, ToNobody)).Some? ==> Inv(Next(s, SessionEnds(i, ToNobody)).value)
    ensures forall w: Target :: Next(s, SessionEnds(i, w)) == Next(s, SessionEnds(i, ToNobody))
  {
    if Next(s, SessionEnds(i, ToNobody)).Some? {
      assert s.thread == Some(i);
      var t := Next(s, SessionEnds(i, ToNobody)).value;
      forall j | 0 <= j < |t.workers| && t.workers[j] != Exited
        ensures t.thread == Some(j)
      {
        assert j == i || s.workers[j] != Exited;
      }
    }
  }

  lemma MessageKeepsInv(s: State)
    requires Inv(s)
    ensures Next(s, MessageArrives).Some? ==> Inv(Next(s, MessageArrives).value)
  {
    if Next(s, MessageArrives).Some? {
      var t := Next(s, MessageArrives).value;
      if s.thread.None? {
        forall j | 0 <= j < |t.workers| && t.workers[j] != Exited
          ensures t.thread == Some(j)
        {
          assert j == |s.workers|;
        }
      } else {
        forall j | 0 <= j < |t.workers| && t.workers[j] != Exited
          ensures t.thread == Some(j)
        {
          assert s.workers[j] != Exited;
        }
      }
    }
  }

  lemma ReaderWakesKeepsInv(s: State)
    requires Inv(s)
    ensures Next(s, ReaderWakes).Some? ==> Inv(Next(s, ReaderWakes).value)
  {
    if Next(s, ReaderWakes).Some? && s.workers[s.thread.value] == Exited {
      var t := Next(s, ReaderWakes).value;
      forall j | 0 <= j < |t.workers| && t.workers[j] != Exited
        ensures t.thread == Some(j)
      {
        assert j == |s.workers|;
      }
    }
  }

  /** Any run of steps from a reachable state stays within the invariant. */
  lemma {:induction false} RunKeepsInv(s: State, steps: seq<Step>)
    requires Inv(s)
    ensures Run(s, steps).Some? ==> Inv(Run(s, steps).value)
    decreases |steps|
  {
    if |steps| > 0 {
      NextKeepsInv(s, steps[0]);
      if Next(s, steps[0]).Some? {
        RunKeepsInv(Next(s, steps[0]).value, steps[1..]);
      }
    }
  }

  /** However the threads interleave, every worker but the current one has
      exited, so at most one session runs at a time. */
  lemma OneSessionAtATime(hasWp: bool, steps: seq<Step>)
    ensures Run(Init(hasWp), steps).Some? ==>
              var s := Run(Init(hasWp), steps).value;
              (forall i | 0 <= i < |s.workers| && s.workers[i] != Exited :: s.thread == Some(i))
              && forall i, j | 0 <= i < |s.workers| && 0 <= j < |s.workers|
                                 && s.workers[i] == InSession && s.workers[j] == InSession :: i == j
  {
    InitInv(hasWp);
    RunKeepsInv(Init(hasWp), steps);
  }

  /** Running `a` then `b` is running `a + b`. */
  lemma {:induction false} RunAppend(s: State, a: seq<Step>, b: seq<Step>)
    ensures Run(s, a + b) == if Run(s, a).Some? then Run(Run(s, a).value, b) else None
    decreases |a|
  {
    if |a| == 0 {
      assert a + b == b;
    } else {
      assert (a + b)[0] == a[0];
      assert (a + b)[1..] == a[1..] + b;
      if Next(s, a[0]).Some? {
        RunAppend(Next(s, a[0]).value, a[1..], b);
      }
    }
  }

  /** The reader is idle again with `running` set and a new worker whose
      handle replaced the old one, and the old worker has exited. */
  predicate Restarted(s: State, t: State)
    requires s.thread.Some? && s.thread.value < |s.workers|
  {
    t.reader == Idle && t.running && !t.stop && t.thread == Some(|s.workers|)
    && |t.workers| == |s.workers| + 1 && t.workers[s.thread.value] == Exited
  }

  /** Steps that bring a waiting reader back to its idle state with a fresh
      worker: wake the reader if it is notified; let a running session end
      and the reader see that the worker is still there; let the worker see
      `stop` and exit; wake the reader. */
  function Finish(s: State): seq<Step>
    requires Inv(s) && s.reader.Waiting?
  {
    var c := s.thread.value;
    if s.workers[c] == Exited then [ReaderWakes]
    else (if s.reader.notified then [ReaderWakes] else [])
         + (if s.workers[c] == InSession then [SessionEnds(c, ToNobody), ReaderWakes] else [])
         + [WorkerChecks(c), ReaderWakes]
  }

  /** A stop completes once the current session, if any, has ended: from
      any state the invariant allows in which the reader waits, the steps of
      `Finish` can all be taken, whatever the current worker is doing, and
      they end with the old worker exited, the reader idle and the next
      worker started. */
  lemma StopCompletes(s: State)
    requires Inv(s) && s.reader.Waiting?
    ensures Run(s, Finish(s)).Some? && Restarted(s, Run(s, Finish(s)).value)
  {
    var c := s.thread.value;
    if s.workers[c] == Exited {
      assert Next(s, ReaderWakes) == Some(Start(s));
      assert Run(Start(s), []) == Some(Start(s));
    } else {
      var w: seq<Step> := if s.reader.notified then [ReaderWakes] else [];
      var m: seq<Step> := if s.workers[c] == InSession then [SessionEnds(c, ToNobody), ReaderWakes] else [];
      var s0 := s.(reader := Waiting(false));
      if s.reader.notified {
        assert Next(s, ReaderWakes) == Some(s0);
        assert Run(s0, []) == Some(s0);
      }
      assert Run(s, w) == Some(s0);
      var s1 := FinishSession(s0);
      assert Run(s0, m) == Some(s1);
      FinishFromTop(s1);
      RunAppend(s, w, m);
      RunAppend(s, w + m, [WorkerChecks(c), ReaderWakes]);
    }
  }

  /** The waiting reader with a session running: the session ends with a
      broadcast, and the reader sees the worker has not exited yet. */
  function FinishSession(s: State): (t: State)
    requires Inv(s) && s.reader == Waiting(false) && s.workers[s.thread.value] != Exited
    ensures Inv(t) && t.reader == Waiting(false) && t.thread == s.thread && |t.workers| == |s.workers|
    ensures t.workers[s.thread.value] == Top || t.workers[s.thread.value] == Parked(true)
    ensures var c := s.thread.value;
            Run(s, if s.workers[c] == InSession then [SessionEnds(c, ToNobody), ReaderWakes] else []) == Some(t)
  {
    var c := s.thread.value;
    if s.workers[c] == InSession then
      var e := Broadcast(s.(running := false, workers := s.workers[c := Top]));
      assert Next(s, SessionEnds(c, ToNobody)) == Some(e);
      NextKeepsInv(s, SessionEnds(c, ToNobody));
      assert Next(e, ReaderWakes) == Some(e.(reader := Waiting(false)));
      NextKeepsInv(e, ReaderWakes);
      assert Run(e.(reader := Waiting(false)), []) == Some(e.(reader := Waiting(false)));
      assert [SessionEnds(c, ToNobody), ReaderWakes][1..] == [ReaderWakes];
      assert [ReaderWakes][1..] == [];
      assert Run(e, [ReaderWakes]) == Some(e.(reader := Waiting(false)));
      e.(reader := Waiting(false))
    else
      assert Run(s, []) == Some(s);
      s
  }

  lemma FinishFromTop(s: State)
    requires Inv(s) && s.reader == Waiting(false)
    requires s.workers[s.thread.value] == Top || s.workers[s.thread.value] == Parked(true)
    ensures var c := s.thread.value;
            Run(s, [WorkerChecks(c), ReaderWakes]).Some?
            && Restarted(s, Run(s, [WorkerChecks(c), ReaderWakes]).value)
  {
    var c := s.thread.value;
    var e := Broadcast(s.(running := false, workers := s.workers[c := Exited]));
    assert Next(s, WorkerChecks(c)) == Some(e);
    assert e.workers[c] == Exited && e.reader == Waiting(true);
    assert Next(e, ReaderWakes) == Some(Start(e));
    assert Run(Start(e), []) == Some(Start(e));
    assert [ReaderWakes][1..] == [];
    assert Run(e, [ReaderWakes]) == Some(Start(e));
    assert [WorkerChecks(c), ReaderWakes][1..] == [ReaderWakes];
    assert Run(s, [WorkerChecks(c), ReaderWakes]) == Run(e, [ReaderWakes]);
  }

  /** The traces that break the code as written go through in the corrected
      protocol: after the early message the reader completes the stop, and
      the ended-then-parked worker is stopped before the next one starts. */
  lemma CorrectedTraces()
    ensures var r := Run(Init(true), [MessageArrives, WorkerChecks(0), ReaderWakes]);
            r.Some? && r.value.reader == Idle && r.value.workers == [Exited, Top]
    ensures var r := Run(Init(true), [WorkerChecks(0), SessionEnds(0, ToNobody), WorkerChecks(0), MessageArrives,
                                      WorkerChecks(0), ReaderWakes]);
            r.Some? && r.value.workers == [Exited, Top] && r.value.thread == Some(1)
  {
    EarlyMessageCompletes();
    ParkedWorkerStopped();
  }

  lemma EarlyMessageCompletes()
    ensures Run(Init(true), [MessageArrives, WorkerChecks(0), ReaderWakes])
            == Some(State([Exited, Top], true, false, Some(1), Idle))
  {
    var a1 := State([Top], true, true, Some(0), Waiting(false));
    var a2 := State([Exited], false, true, Some(0), Waiting(true));
    var a3 := State([Exited, Top], true, false, Some(1), Idle);
    assert Next(Init(true), MessageArrives) == Some(a1) by {
      assert WakeAll([Top]) == [Top];
    }
    assert Next(a1, WorkerChecks(0)) == Some(a2) by {
      assert [Top][0 := Exited] == [Exited];
      assert WakeAll([Exited]) == [Exited];
    }
    assert Next(a2, ReaderWakes) == Some(a3) by {
      assert [Exited] + [Top] == [Exited, Top];
    }
    RunStep(a2, [ReaderWakes], a3);
    RunStep(a1, [WorkerChecks(0), ReaderWakes], a2);
    RunStep(Init(true), [MessageArrives, WorkerChecks(0), ReaderWakes], a1);
  }

  lemma ParkedWorkerStopped()
    ensures Run(Init(true), [WorkerChecks(0), SessionEnds(0, ToNobody), WorkerChecks(0), MessageArrives,
                             WorkerChecks(0), ReaderWakes])
            == Some(State([Exited, Top], true, false, Some(1), Idle))
  {
    var b1 := State([InSession], true, false, Some(0), Idle);
    var b2 := State([Top], false, false, Some(0), Idle);
    var b3 := State([Parked(false)], false, false, Some(0), Idle);
    var b4 := State([Parked(true)], false, true, Some(0), Waiting(false));
    var b5 := State([Exited], false, true, Some(0), Waiting(true));
    var b6 := State([Exited, Top], true, false, Some(1), Idle);
    assert Next(Init(true), WorkerChecks(0)) == Some(b1) by {
      assert [Top][0 := InSession] == [InSession];
    }
    assert Next(b1, SessionEnds(0, ToNobody)) == Some(b2) by {
      assert [InSession][0 := Top] == [Top];
      assert WakeAll([Top]) == [Top];
    }
    assert Next(b2, WorkerChecks(0)) == Some(b3) by {
      assert [Top][0 := Parked(false)] == [Parked(false)];
    }
    assert Next(b3, MessageArrives) == Some(b4) by {
      assert WakeAll([Parked(false)]) == [Parked(true)];
    }
    assert Next(b4, WorkerChecks(0)) == Some(b5) by {
      assert [Parked(true)][0 := Exited] == [Exited];
      assert WakeAll([Exited]) == [Exited];
    }
    assert Next(b5, ReaderWakes) == Some(b6) by {
      assert [Exited] + [Top] == [Exited, Top];
    }
    RunStep(b5, [ReaderWakes], b6);
    RunStep(b4, [WorkerChecks(0), ReaderWakes], b5);
    RunStep(b3, [MessageArrives, WorkerChecks(0), ReaderWakes], b4);
    RunStep(b2, [WorkerChecks(0), MessageArrives, WorkerChecks(0), ReaderWakes], b3);
    RunStep(b1, [SessionEnds(0, ToNobody), WorkerChecks(0), MessageArrives, WorkerChecks(0), ReaderWakes], b2);
    RunStep(Init(true), [WorkerChecks(0), SessionEnds(0, ToNobody), WorkerChecks(0), MessageArrives,
                         WorkerChecks(0), ReaderWakes], b1);
  }

  /** Running from the first step's result. */
  lemma RunStep(s: State, steps: seq<Step>, t: State)
    requires |steps| > 0 && Next(s, steps[0]) == Some(t)
    ensures Run(s, steps) == Run(t, steps[1..])
  {
  }
}

=== FILE: load_mode.dfy ===
/** Load mode (`run_load_all`, src/AnimX-main.c:341-491; older copy in
    src/main.c): every kept frame is decoded into memory up to an optional
    ceiling, then the frames are shown in a loop. Decoded frames are their
    timestamps, and memory is counted in bytes. */
module LoadMode {
  import opened Settings
  import Session

  /** Bytes in a GiB: `mem_usage / (1024.0 * 1024.0 * 1024.0)`. */
  const GiB: real := 1073741824.0

  /** The ceiling test of src/AnimX-main.c:402-403: with `FT_MAXMEM` set,
      the bytes allocated so far, in GiB, have reached `maxmem`. */
  predicate AtCeiling(mem: int, maxmemSet: bool, maxmem: real)
  {
    maxmemSet && (mem as real) / GiB >= maxmem
  }

  /** Why loading ended: the input ran out, or the ceiling was reached
      (the `goto done`, which is not an error). */
  datatype Stop = InputEnded | CeilingReached

  /** The frames loaded, the bytes allocated for them, and why loading
      ended. */
  datatype Loaded = Loaded(images: seq<int>, mem: int, stop: Stop)

  /** The loading loop from a sampler state and an allocation total: each
      kept frame first meets the ceiling test, then is copied and counted.
      What is loaded is always a prefix of what the sampler keeps, all of it
      when the input runs out; loading stops early only when the ceiling is
      set and reached. */
  function LoadFrom(pts: seq<int>, s: Session.Sampler, mem: int, frameBytes: nat, maxmemSet: bool, maxmem: real, dur: int): (r: Loaded)
    ensures r.images <= Session.Sample(pts, s, dur).0
    ensures r.stop == InputEnded ==> r.images == Session.Sample(pts, s, dur).0
    ensures r.stop == CeilingReached ==> AtCeiling(r.mem, maxmemSet, maxmem)
    ensures r.mem == mem + Session.Offset(|r.images|, frameBytes)
    ensures |r.images| > 0 ==> !AtCeiling(r.mem - frameBytes, maxmemSet, maxmem)
    decreases |pts|
  {
    if |pts| == 0 then Loaded([], mem, InputEnded)
    else if pts[0] >= s.nextPts then
      if AtCeiling(mem, maxmemSet, maxmem) then Loaded([], mem, CeilingReached)
      else
        var s' := Session.Sampler(s.nextPts + dur, s.frameCount + 1);
        var rest := LoadFrom(pts[1..], s', mem + frameBytes, frameBytes, maxmemSet, maxmem, dur);
        LoadStep(rest.images, rest.mem, mem, frameBytes);
        Loaded([pts[0]] + rest.images, rest.mem, rest.stop)
    else
      LoadFrom(pts[1..], s, mem, frameBytes, maxmemSet, maxmem, dur)
  }

  lemma LoadStep(images: seq<int>, total: int, mem: int, frameBytes: nat)
    requires total == mem + frameBytes + Session.Offset(|images|, frameBytes)
    ensures total == mem + Session.Offset(|images| + 1, frameBytes)
    ensures |images| == 0 ==> total - frameBytes == mem
  {
    Session.OffsetShift(|images|, frameBytes);
  }

  /** `run_load_all`'s loading phase: a fresh sampler, nothing allocated. */
  function Load(pts: seq<int>, frameBytes: nat, maxmemSet: bool, maxmem: real, dur: int): Loaded
  {
    LoadFrom(pts, Session.Start, 0, frameBytes, maxmemSet, maxmem, dur)
  }

  /** The memory bound: the total is one frame's bytes per loaded frame,
      every frame was appended while the total was below the ceiling, so the
      final total stays below the ceiling plus one frame; without a ceiling
      every kept frame is loaded. */
  lemma CeilingBound(pts: seq<int>, frameBytes: nat, maxmemSet: bool, maxmem: real, dur: int)
    ensures var r := Load(pts, frameBytes, maxmemSet, maxmem, dur);
            r.mem == |r.images| * frameBytes
            && (maxmemSet && |r.images| > 0 ==> ((r.mem - frameBytes) as real) / GiB < maxmem)
            && (!maxmemSet ==> r.images == Session.Sample(pts, Session.Start, dur).0)
  {
    var r := Load(pts, frameBytes, maxmemSet, maxmem, dur);
    Session.OffsetIsProduct(|r.images|, frameBytes);
  }

  /** A ceiling of 0 GB (`--maxmem=0`, which the validator accepts) stops
      loading before the first frame: nothing is loaded. */
  lemma {:induction false} ZeroCeilingLoadsNothing(pts: seq<int>, s: Session.Sampler, frameBytes: nat, dur: int)
    ensures LoadFrom(pts, s, 0, frameBytes, true, 0.0, dur).images == []
    decreases |pts|
  {
    if |pts| > 0 && pts[0] < s.nextPts {
      ZeroCeilingLoadsNothing(pts[1..], s, frameBytes, dur);
    }
  }

  // ---------------------------------------------------------------------
  // The display loop

  /** The next display index, or the fault the C code hits: a `%` by zero,
      or a read of `images.data[i]` outside the loaded frames. */
  datatype Step = Next(i: int) | DivideByZero | ReadOutside

  /** `i = (i + 1) % image_count` as written (src/AnimX-main.c:458, 464
      and 482; src/main.c has the same loop): nothing guards against
      `image_count == 0`, and C's `%` by zero is undefined (a trap on
      common hardware). With no frames the loop has already read
      `images.data[0]` before it gets here. */
  function DisplayStepAsWritten(i: int, count: int): (r: Step)
    ensures r == DivideByZero <==> count == 0
  {
    if count == 0 then DivideByZero else Next((i + 1) % count)
  }

  /** One pass of the display loop as written (src/AnimX-main.c:443-483)
      from index `i`: it first takes `images.data[i]` (454-455), which is
      a read outside the array when `i` is not a loaded frame's index, and
      only then steps the index (458, 464 or 482). So the division by zero
      is never the first fault: with no frames the read comes first. */
  function IterationAsWritten(i: int, count: int): (r: Step)
    ensures r == ReadOutside <==> !(0 <= i < count)
    ensures r != DivideByZero
    ensures 0 <= i < count ==> r == DisplayStepAsWritten(i, count)
  {
    if 0 <= i < count then DisplayStepAsWritten(i, count) else ReadOutside
  }

  /** With at least one frame, a pass from a loaded frame's index reads
      inside the array and moves to another loaded frame's index, so the
      loop started at 0 never faults. */
  lemma IterationStaysInside(i: int, count: int)
    requires 0 <= i < count
    ensures IterationAsWritten(i, count).Next?
    ensures 0 <= IterationAsWritten(i, count).i < count
  {
  }

  /** With `--maxmem=0`, any input leaves the display loop with zero frames.
      Its first pass reads `images.data[0]` of the empty array, and the
      step after that read, if the read yields a frame with no data,
      divides by zero. */
  lemma ZeroCeilingFaults(pts: seq<int>, frameBytes: nat, dur: int)
    ensures IterationAsWritten(0, |Load(pts, frameBytes, true, 0.0, dur).images|) == ReadOutside
    ensures DisplayStepAsWritten(0, |Load(pts, frameBytes, true, 0.0, dur).images|) == DivideByZero
  {
    ZeroCeilingLoadsNothing(pts, Session.Start, frameBytes, dur);
  }

  /** The display step with the missing guard: no frames means nothing to
      show (the session ends), otherwise the index moves on by one and wraps
      to 0 after the last frame. */
  function DisplayStep(i: nat, count: nat): (r: Option<nat>)
    ensures r.None? <==> count == 0
    ensures r.Some? && i < count ==> r.value < count
    ensures r.Some? && i + 1 < count ==> r.value == i + 1
    ensures r.Some? && i + 1 == count ==> r.value == 0
  {
    if count == 0 then None else Some((i + 1) % count)
  }

  /** The index shown at the k-th step of the loop, starting from frame 0. */
  function ShownAt(k: nat, count: nat): (i: nat)
    requires count > 0
    ensures i < count
  {
    if k == 0 then 0 else DisplayStep(ShownAt(k - 1, count), count).value
  }

  /** The loop visits the frames in order, round and round: step k shows
      frame k mod image_count, so every loaded frame is shown once per round
      of `image_count` steps. */
  lemma {:induction false} DisplayCycles(k: nat, count: nat)
    requires count > 0
    ensures ShownAt(k, count) == k % count
  {
    if k > 0 {
      DisplayCycles(k - 1, count);
      ModStep(k, count);
    }
  }

  /** Counting up by one moves the remainder on by one, wrapping to 0. */
  lemma ModStep(k: nat, n: int)
    requires n > 0 && k > 0
    ensures k % n == if (k - 1) % n + 1 < n then (k - 1) % n + 1 else 0
  {
    var q, j := (k - 1) / n, (k - 1) % n;
    assert k - 1 == q * n + j;
    if j + 1 < n {
      ModUnique(k, n, q, j + 1);
    } else {
      assert k == q * n + n;
      assert q * n + n == (q + 1) * n;
      ModUnique(k, n, q + 1, 0);
    }
  }

  lemma ModUnique(a: int, n: int, q: int, r: int)
    requires n > 0 && 0 <= r < n && a == q * n + r
    ensures a % n == r
  {
    var q' := a / n;
    MulMono(q', q + 1, n);
    MulMono(q, q' + 1, n);
  }

  lemma MulMono(x: int, y: int, n: int)
    ensures x >= y && n > 0 ==> x * n >= y * n
  {
  }

  /** The guarded step agrees with the C step wherever the C step is
      defined. */
  lemma DisplayStepAgrees(i: nat, count: nat)
    requires count > 0
    ensures DisplayStepAsWritten(i, count) == Next(DisplayStep(i, count).value)
  {
  }
}

=== FILE: message.dfy ===
/** The control messages a running daemon receives: `send_msg` joins the
    sender's argv into one line, the FIFO reader takes it with `fgets`, and
    `parse_daemon_sender_msg` tokenizes it and applies each token to
    `g_config` (src/AnimX-main.c; older copies in src/main.c).
    `resolve` (realpath) is outside the model and is passed in. */
module Message {
  import opened Settings
  import opened Text
  import Numerals

  /** Longest token the parser copies into its 256-byte buffer. */
  const Cap: nat := 255

  predicate IsSep(c: char) { c == ' ' || c == '\n' }

  /** Length of the leading run of non-separators, but at most `cap`. */
  function RunLength(s: string, cap: nat): (n: nat)
    ensures n <= cap && n <= |s|
    ensures forall j | 0 <= j < n :: !IsSep(s[j])
    ensures n < cap && n < |s| ==> IsSep(s[n])
  {
    if |s| == 0 || cap == 0 || IsSep(s[0]) then 0
    else
      var m := RunLength(s[1..], cap - 1);
      assert forall j | 1 <= j < m + 1 :: s[j] == s[1..][j - 1];
      m + 1
  }

  /** A token: `--` followed by an option body, or a bare word. */
  datatype Token = Opt(body: string) | Bare(text: string)

  predicate StartsWithDashes(s: string)
  {
    |s| >= 2 && s[0] == '-' && s[1] == '-'
  }

  /** A well-formed token: no separators, within the cap, and a bare word
      is non-empty and never starts with "--". */
  predicate TokenOk(t: Token)
  {
    match t
    case Opt(b) => |b| <= Cap && forall j | 0 <= j < |b| :: !IsSep(b[j])
    case Bare(w) => 0 < |w| <= Cap && !StartsWithDashes(w) && forall j | 0 <= j < |w| :: !IsSep(w[j])
  }

  /** The scanning loop of src/AnimX-main.c:963-1065 (and src/main.c:869-947):
      skip ' ' and '\n'; "--" starts an option of up to 255 characters;
      anything else is a word of up to 255 characters. A longer run is cut
      and its remainder scanned as a new token. */
  function Tokens(msg: string): (ts: seq<Token>)
    ensures forall i | 0 <= i < |ts| :: TokenOk(ts[i])
    decreases |msg|
  {
    if |msg| == 0 then []
    else if IsSep(msg[0]) then Tokens(msg[1..])
    else if StartsWithDashes(msg) then
      var rest := msg[2..];
      var n := RunLength(rest, Cap);
      [Opt(rest[..n])] + Tokens(rest[n..])
    else
      var n := RunLength(msg, Cap);
      assert StartsWithDashes(msg[..n]) ==> StartsWithDashes(msg);
      [Bare(msg[..n])] + Tokens(msg[n..])
  }

  // ---------------------------------------------------------------------
  // Applying tokens

  /** Why `err_wargs` ends the run. */
  datatype Reason =
    | NeedsEquals(cmd: string)
    | UnknownMode(value: string)
    | NotANumber(cmd: string, value: string)
    | UnknownOption(cmd: string)

  /** After a token or a whole message: the updated configuration, or the
      exit, with the configuration as far as it had been updated. */
  datatype Applied = Ok(cfg: Config) | Rejected(partial: Config, why: Reason)

  /** An option body split at its first '=': the command, whether a '='
      was there, and the text after it. */
  datatype Command = Command(cmd: string, iseq: bool, rest: string)

  function SplitCommand(body: string): (c: Command)
    ensures Free(c.cmd, '=')
    ensures c.iseq <==> !Free(body, '=')
    ensures body == c.cmd + (if c.iseq then "=" + c.rest else "")
  {
    var k := IndexOf(body, '=');
    if k < |body| then
      assert body == body[..k] + "=" + body[k + 1..];
      Command(body[..k], true, body[k + 1..])
    else
      Command(body, false, "")
  }

  /** One token applied to `g_config` (src/AnimX-main.c:995-1063): a word
      sets the wallpaper to its resolved path; an option sets the one field
      its command names, and `maxmem` also sets `FT_MAXMEM`. */
  function ApplyToken(c: Config, t: Token, resolve: string -> string): (r: Applied)
    ensures r.Rejected? ==> r.partial == c
    ensures t.Bare? ==> r.Ok? && r.cfg.wp == Some(resolve(t.text)) && r.cfg.(wp := c.wp) == c
    ensures t.Opt? && r.Ok? ==> r.cfg.wp == c.wp && r.cfg.daemon == c.daemon
    ensures t.Opt? && r.Ok? && SplitCommand(t.body).cmd == "mode" ==>
              ParseModeName(SplitCommand(t.body).rest).Some?
              && r.cfg == c.(mode := ParseModeName(SplitCommand(t.body).rest).value)
    ensures t.Opt? && r.Ok? && SplitCommand(t.body).cmd == "mon" ==>
              Numerals.StrIsDigit(SplitCommand(t.body).rest)
              && r.cfg == c.(mon := Numerals.Atoi(SplitCommand(t.body).rest))
    ensures t.Opt? && r.Ok? && SplitCommand(t.body).cmd == "fps" ==>
              Numerals.StrIsDigit(SplitCommand(t.body).rest)
              && r.cfg == c.(fps := Numerals.Atoi(SplitCommand(t.body).rest))
    ensures t.Opt? && r.Ok? && SplitCommand(t.body).cmd == "maxmem" ==>
              Numerals.StrIsDigit(SplitCommand(t.body).rest)
              && r.cfg == c.(maxmem := Numerals.Strtod(SplitCommand(t.body).rest), maxmemSet := true)
    ensures t.Opt? && SplitCommand(t.body).cmd !in ["mode", "mon", "fps", "maxmem"] ==>
              r == Rejected(c, UnknownOption(SplitCommand(t.body).cmd))
  {
    match t
    case Bare(w) => Ok(c.(wp := Some(resolve(w))))
    case Opt(body) => ApplyOption(c, SplitCommand(body))
  }

  /** The option branches of src/AnimX-main.c:995-1048 on a split option:
      a known command needs a '=' and a value it takes, and then sets its
      own field and nothing else. */
  function ApplyOption(c: Config, command: Command): (r: Applied)
    ensures r.Rejected? ==> r.partial == c
    ensures r.Ok? ==> r.cfg.wp == c.wp && r.cfg.daemon == c.daemon
    ensures command.cmd == "mode" ==>
              (r.Ok? <==> command.iseq && ParseModeName(command.rest).Some?)
    ensures command.cmd in ["mon", "fps", "maxmem"] ==>
              (r.Ok? <==> command.iseq && Numerals.StrIsDigit(command.rest))
    ensures command.cmd in ["mode", "mon", "fps", "maxmem"] && !command.iseq ==>
              r == Rejected(c, NeedsEquals(command.cmd))
    ensures command.cmd !in ["mode", "mon", "fps", "maxmem"] ==> r == Rejected(c, UnknownOption(command.cmd))
    ensures r.Ok? && command.cmd == "mode" ==>
              ParseModeName(command.rest).Some? && r.cfg == c.(mode := ParseModeName(command.rest).value)
    ensures r.Ok? && command.cmd == "mon" ==>
              Numerals.StrIsDigit(command.rest) && r.cfg == c.(mon := Numerals.Atoi(command.rest))
    ensures r.Ok? && command.cmd == "fps" ==>
              Numerals.StrIsDigit(command.rest) && r.cfg == c.(fps := Numerals.Atoi(command.rest))
    ensures r.Ok? && command.cmd == "maxmem" ==>
              Numerals.StrIsDigit(command.rest)
              && r.cfg == c.(maxmem := Numerals.Strtod(command.rest), maxmemSet := true)
  {
    var Command(cmd, iseq, rest) := command;
    if cmd == "mode" then
      if !iseq then Rejected(c, NeedsEquals(cmd))
      else if rest == "stream" then Ok(c.(mode := Stream))
      else if rest == "load" then Ok(c.(mode := Load))
      else Rejected(c, UnknownMode(rest))
    else if cmd == "mon" || cmd == "fps" || cmd == "maxmem" then
      if !iseq then Rejected(c, NeedsEquals(cmd))
      else if !Numerals.StrIsDigit(rest) then Rejected(c, NotANumber(cmd, rest))
      else if cmd == "mon" then Ok(c.(mon := Numerals.Atoi(rest)))
      else if cmd == "fps" then Ok(c.(fps := Numerals.Atoi(rest)))
      else Ok(c.(maxmem := Numerals.Strtod(rest), maxmemSet := true))
    else Rejected(c, UnknownOption(cmd))
  }

  /** The option bodies the daemon accepts. */
  ghost predicate Accepted(body: string)
  {
    body == "mode=stream" || body == "mode=load"
    || exists k, v | k in ["mon", "fps", "maxmem"] && body == k + "=" + v :: Numerals.StrIsDigit(v)
  }

  /** An option is applied exactly when its body is `mode=stream`,
      `mode=load`, or `mon=`/`fps=`/`maxmem=` followed by text the
      validator accepts; anything else ends the run. */
  lemma OptionAcceptedIff(c: Config, body: string, resolve: string -> string)
    ensures ApplyToken(c, Opt(body), resolve).Ok? <==> Accepted(body)
  {
    if Accepted(body) {
      AcceptedApplies(c, body, resolve);
    }
    if ApplyToken(c, Opt(body), resolve).Ok? {
      AppliedIsAccepted(c, body, resolve);
    }
  }

  /** The option text `k=v`, for a command `k` without '=': `mode` takes
      exactly "stream" and "load"; `mon`, `fps` and `maxmem` take exactly
      the text the validator accepts, and set the field to its `atoi` or
      `strtod` value, `maxmem` with `FT_MAXMEM`; no other field changes,
      and any other command is an unknown option. */
  lemma OptionEffect(c: Config, k: string, v: string, resolve: string -> string)
    requires Free(k, '=')
    ensures var r := ApplyToken(c, Opt(k + "=" + v), resolve);
            && (k == "mode" ==> (r.Ok? <==> v == "stream" || v == "load"))
            && (k == "mode" && v == "stream" ==> r == Ok(c.(mode := Stream)))
            && (k == "mode" && v == "load" ==> r == Ok(c.(mode := Load)))
            && (k in ["mon", "fps", "maxmem"] ==> (r.Ok? <==> Numerals.StrIsDigit(v)))
            && (k == "mon" && Numerals.StrIsDigit(v) ==> r == Ok(c.(mon := Numerals.Atoi(v))))
            && (k == "fps" && Numerals.StrIsDigit(v) ==> r == Ok(c.(fps := Numerals.Atoi(v))))
            && (k == "maxmem" && Numerals.StrIsDigit(v) ==>
                  r == Ok(c.(maxmem := Numerals.Strtod(v), maxmemSet := true)))
            && (k !in ["mode", "mon", "fps", "maxmem"] ==> r == Rejected(c, UnknownOption(k)))
  {
    SplitCommandOf(k, v);
  }

  /** A known command written without '=' ends the run (`err_wargs`). */
  lemma OptionNeedsEquals(c: Config, body: string, resolve: string -> string)
    requires Free(body, '=') && body in ["mode", "mon", "fps", "maxmem"]
    ensures ApplyToken(c, Opt(body), resolve) == Rejected(c, NeedsEquals(body))
  {
    FreeIndexOf(body, '=');
  }

  lemma SplitCommandOf(k: string, v: string)
    requires Free(k, '=')
    ensures SplitCommand(k + "=" + v) == Command(k, true, v)
  {
    SplitAtFirst(k, '=', v);
    assert k + "=" + v == k + ['='] + v;
  }

  lemma AcceptedApplies(c: Config, body: string, resolve: string -> string)
    requires Accepted(body)
    ensures ApplyToken(c, Opt(body), resolve).Ok?
  {
    if body == "mode=stream" {
      assert body == "mode" + "=" + "stream";
      OptionApplies(c, "mode", "stream", resolve);
    } else if body == "mode=load" {
      assert body == "mode" + "=" + "load";
      OptionApplies(c, "mode", "load", resolve);
    } else {
      var k, v :| k in ["mon", "fps", "maxmem"] && body == k + "=" + v && Numerals.StrIsDigit(v);
      OptionApplies(c, k, v, resolve);
    }
  }

  /** The option `k=v` for a known command and a value it takes. */
  lemma OptionApplies(c: Config, k: string, v: string, resolve: string -> string)
    requires k == "mode" ==> v == "stream" || v == "load"
    requires k in ["mon", "fps", "maxmem"] ==> Numerals.StrIsDigit(v)
    requires k in ["mode", "mon", "fps", "maxmem"]
    ensures ApplyToken(c, Opt(k + "=" + v), resolve).Ok?
  {
    SplitCommandOf(k, v);
    CommandApplies(c, k, v);
  }

  lemma CommandApplies(c: Config, k: string, v: string)
    requires k == "mode" ==> v == "stream" || v == "load"
    requires k in ["mon", "fps", "maxmem"] ==> Numerals.StrIsDigit(v)
    requires k in ["mode", "mon", "fps", "maxmem"]
    ensures ApplyOption(c, Command(k, true, v)).Ok?
  {
  }

  lemma AppliedIsAccepted(c: Config, body: string, resolve: string -> string)
    requires ApplyToken(c, Opt(body), resolve).Ok?
    ensures Accepted(body)
  {
    var sc := SplitCommand(body);
    assert sc.iseq;
    if sc.cmd == "mode" {
      ModeBody(body, sc.rest);
    } else {
      NumberBody(body, sc.cmd, sc.rest);
    }
  }

  lemma ModeBody(body: string, rest: string)
    requires body == "mode" + ("=" + rest)
    requires rest == "stream" || rest == "load"
    ensures body == "mode=stream" || body == "mode=load"
  {
  }

  lemma NumberBody(body: string, k: string, v: string)
    requires k in ["mon", "fps", "maxmem"] && body == k + ("=" + v) && Numerals.StrIsDigit(v)
    ensures Accepted(body)
  {
    assert body == k + "=" + v;
  }

  /** Tokens applied one at a time; the first failure stops the run and
      keeps what the earlier tokens set. */
  function Run(c: Config, ts: seq<Token>, resolve: string -> string): Applied
    decreases |ts|
  {
    if |ts| == 0 then Ok(c)
    else match ApplyToken(c, ts[0], resolve)
      case Ok(c') => Run(c', ts[1..], resolve)
      case Rejected(p, why) => Rejected(p, why)
  }

  /** The configuration after a run of tokens that all apply; tokens after
      a failure are skipped. */
  function RunPrefix(c: Config, ts: seq<Token>, resolve: string -> string): Config
    decreases |ts|
  {
    if |ts| == 0 then c
    else match ApplyToken(c, ts[0], resolve)
      case Ok(c') => RunPrefix(c', ts[1..], resolve)
      case Rejected(p, _) => p
  }

  /** Running `a + b` is running `a`, then `b` from where `a` left off. */
  lemma {:induction false} RunAppend(c: Config, a: seq<Token>, b: seq<Token>, resolve: string -> string)
    ensures Run(c, a + b, resolve) ==
              match Run(c, a, resolve)
              case Ok(c') => Run(c', b, resolve)
              case other => other
    decreases |a|
  {
    if |a| == 0 {
      assert a + b == b;
    } else {
      assert (a + b)[0] == a[0];
      assert (a + b)[1..] == a[1..] + b;
      match ApplyToken(c, a[0], resolve)
      case Ok(c') => RunAppend(c', a[1..], b, resolve);
      case _ =>
    }
  }

  /** An error keeps every update made before it: the partial
      configuration is the one the tokens before the failing one built. */
  lemma {:induction false} RejectedKeepsEarlier(c: Config, ts: seq<Token>, resolve: string -> string)
    ensures Run(c, ts, resolve).Rejected? ==> Run(c, ts, resolve).partial == RunPrefix(c, ts, resolve)
    ensures Run(c, ts, resolve).Ok? ==> Run(c, ts, resolve).cfg == RunPrefix(c, ts, resolve)
    decreases |ts|
  {
    if |ts| > 0 {
      match ApplyToken(c, ts[0], resolve)
      case Ok(c') => RejectedKeepsEarlier(c', ts[1..], resolve);
      case _ =>
    }
  }

  /** `parse_daemon_sender_msg`. */
  function ParseMessage(c: Config, msg: string, resolve: string -> string): Applied
  {
    Run(c, Tokens(msg), resolve)
  }

  // ---------------------------------------------------------------------
  // Sending

  /** The sender's argv joined with single spaces. */
  function Join(args: seq<string>): string
  {
    if |args| == 0 then ""
    else if |args| == 1 then args[0]
    else args[0] + " " + Join(args[1..])
  }

  /** The line `send_msg` of src/AnimX-main.c writes: the joined arguments,
      terminated, printed with a trailing '\n'. */
  function SendText(args: seq<string>): string
  {
    Join(args) + "\n"
  }

  /** How the daemon reads an argument the sender sent. */
  function Classify(a: string): Token
  {
    if StartsWithDashes(a) then Opt(a[2..]) else Bare(a)
  }

  function ClassifyAll(args: seq<string>): (ts: seq<Token>)
    ensures |ts| == |args|
    ensures forall i | 0 <= i < |args| :: ts[i] == Classify(args[i])
  {
    if |args| == 0 then [] else [Classify(args[0])] + ClassifyAll(args[1..])
  }

  /** An argument that survives the trip: non-empty, no separators, and
      short enough for the parser's buffer. */
  predicate Sendable(a: string)
  {
    0 < |a| <= Cap && forall j | 0 <= j < |a| :: !IsSep(a[j])
  }

  /** Round trip: re-tokenizing the sent line recovers every argument,
      each as option or word exactly as the sender wrote it. */
  lemma {:induction false} SendRoundTrip(args: seq<string>)
    requires forall i | 0 <= i < |args| :: Sendable(args[i])
    ensures Tokens(SendText(args)) == ClassifyAll(args)
    decreases |args|
  {
    if |args| == 0 {
      assert SendText(args) == "\n";
      assert Tokens("\n"[1..]) == [];
    } else if |args| == 1 {
      TokensCons(args[0], "\n");
      assert Tokens("\n"[1..]) == [];
      assert ClassifyAll(args) == [Classify(args[0])];
    } else {
      var rest := args[1..];
      SendRoundTrip(rest);
      assert SendText(args) == args[0] + (" " + SendText(rest));
      TokensCons(args[0], " " + SendText(rest));
      assert (" " + SendText(rest))[1..] == SendText(rest);
      assert ClassifyAll(args) == [Classify(args[0])] + ClassifyAll(rest);
    }
  }

  /** A sendable argument followed by a separator is read as exactly one
      token. */
  lemma TokensCons(a: string, t: string)
    requires Sendable(a)
    requires |t| > 0 && IsSep(t[0])
    ensures Tokens(a + t) == [Classify(a)] + Tokens(t[1..])
  {
    var s := a + t;
    assert s[|a|] == t[0];
    assert s[..|a|] == a;
    assert s[|a|..] == t;
    if StartsWithDashes(a) {
      assert StartsWithDashes(s);
      var rest := s[2..];
      assert rest[|a| - 2] == t[0];
      assert forall j | 0 <= j < |a| - 2 :: rest[j] == a[j + 2];
      RunStops(rest, |a| - 2);
      assert rest[..|a| - 2] == a[2..];
      assert rest[|a| - 2..] == t;
    } else {
      assert !StartsWithDashes(s);
      assert forall j | 0 <= j < |a| :: s[j] == a[j];
      RunStops(s, |a|);
    }
  }

  lemma RunStops(s: string, k: nat)
    requires k <= |s| && k <= Cap
    requires k < |s| && k < Cap ==> IsSep(s[k])
    requires forall j | 0 <= j < k :: !IsSep(s[j])
    ensures RunLength(s, Cap) == k
  {
  }

  /** A word longer than the buffer is cut after 255 characters and the
      remainder becomes a second word. */
  lemma LongWordCut(w: string)
    requires |w| == Cap + 1 && w[0] != '-'
    requires forall j | 0 <= j < |w| :: !IsSep(w[j])
    ensures Tokens(w) == [Bare(w[..Cap]), Bare(w[Cap..])]
  {
    RunStops(w, Cap);
    var r := w[Cap..];
    assert !StartsWithDashes(w);
    assert |r| == 1 && !IsSep(r[0]) && !StartsWithDashes(r);
    RunStops(r, 1);
    assert r[..1] == r && r[1..] == [];
    assert Tokens(r) == [Bare(r)] + Tokens([]);
  }

  // ---------------------------------------------------------------------
  // Reading from the FIFO

  /** `fgets(buf, 256, fifo)`: at most 255 characters, ending after the
      first '\n' if one comes sooner. The piece holds no '\n' before its
      last character, and it stops short of a '\n' only at the 255-character
      cap or at the end of the stream. */
  function Fgets(stream: string): (r: (string, string))
    requires |stream| > 0
    ensures 0 < |r.0| <= Cap && r.0 + r.1 == stream
    ensures forall j | 0 <= j < |r.0| - 1 :: r.0[j] != '\n'
    ensures r.0[|r.0| - 1] == '\n' || |r.0| == Cap || r.1 == ""
  {
    var k := IndexOf(stream, '\n');
    var n := if k < |stream| && k + 1 <= Cap then k + 1 else if |stream| <= Cap then |stream| else Cap;
    assert stream[..n] + stream[n..] == stream;
    (stream[..n], stream[n..])
  }

  /** The pieces laid end to end. */
  function Concat(ps: seq<string>): string
  {
    if |ps| == 0 then "" else ps[0] + Concat(ps[1..])
  }

  /** The successive pieces the reader parses, each as its own message:
      laid end to end they give the stream back, and each is one `fgets`
      read, with a '\n' only as its last character. */
  function Pieces(stream: string): (ps: seq<string>)
    ensures forall i | 0 <= i < |ps| :: 0 < |ps[i]| <= Cap
    ensures forall i, j | 0 <= i < |ps| && 0 <= j < |ps[i]| - 1 :: ps[i][j] != '\n'
    ensures Concat(ps) == stream
    decreases |stream|
  {
    if |stream| == 0 then [] else
      var (p, rest) := Fgets(stream);
      var ps := [p] + Pieces(rest);
      assert ps[0] == p && ps[1..] == Pieces(rest);
      ps
  }

  /** A message line of at most 255 characters arrives in one piece. */
  lemma ShortLineWhole(args: seq<string>)
    requires |SendText(args)| <= Cap
    requires Free(Join(args), '\n')
    ensures Pieces(SendText(args)) == [SendText(args)]
  {
    var s := SendText(args);
    forall j | 0 <= j < |Join(args)|
      ensures s[j] != '\n'
    {
      assert s[j] == Join(args)[j];
    }
    IndexOfUnique(s, '\n', |Join(args)|);
    assert s[..|s|] == s && s[|s|..] == "";
    assert Fgets(s) == (s, "");
    assert Pieces("") == [];
  }

  /** Inside one piece no run of non-separators can reach 255 characters
      after a "--" prefix, and a word can only reach the cap when the piece
      is all word: the parser's own cut matters only for text that the
      reader has already cut. */
  lemma PieceBoundsTokens(p: string)
    requires |p| <= Cap
    ensures forall i | 0 <= i < |Tokens(p)| :: Tokens(p)[i].Opt? ==> |Tokens(p)[i].body| < Cap - 1
    decreases |p|
  {
    TokensShorter(p);
  }

  lemma {:induction false} TokensShorter(p: string)
    ensures forall i | 0 <= i < |Tokens(p)| :: Tokens(p)[i].Opt? ==> |Tokens(p)[i].body| + 2 <= |p|
    decreases |p|
  {
    if |p| == 0 {
    } else if IsSep(p[0]) {
      TokensShorter(p[1..]);
    } else if StartsWithDashes(p) {
      var rest := p[2..];
      var n := RunLength(rest, Cap);
      TokensShorter(rest[n..]);
    } else {
      var n := RunLength(p, Cap);
      TokensShorter(p[n..]);
    }
  }

  // ---------------------------------------------------------------------
  // The older parser and sender of src/main.c

  /** One token applied by src/main.c:901-946: only `mode` and `mon`, and a
      bare word is stored as given. */
  function LegacyApplyToken(c: Config, t: Token): (r: Applied)
    ensures r.Rejected? ==> r.partial == c
    ensures t.Opt? && SplitCommand(t.body).cmd !in ["mode", "mon"] ==> r == Rejected(c, UnknownOption(SplitCommand(t.body).cmd))
    ensures r.Ok? ==> r.cfg.fps == c.fps && r.cfg.maxmem == c.maxmem && r.cfg.maxmemSet == c.maxmemSet
  {
    match t
    case Bare(w) => Ok(c.(wp := Some(w)))
    case Opt(body) => LegacyApplyOption(c, SplitCommand(body))
  }

  /** The option branches of src/main.c:901-930 on a split option. */
  function LegacyApplyOption(c: Config, command: Command): (r: Applied)
    ensures r.Rejected? ==> r.partial == c
    ensures command.cmd !in ["mode", "mon"] ==> r == Rejected(c, UnknownOption(command.cmd))
    ensures r.Ok? ==> r.cfg.fps == c.fps && r.cfg.maxmem == c.maxmem && r.cfg.maxmemSet == c.maxmemSet
  {
    var Command(cmd, iseq, rest) := command;
    if cmd == "mode" then
      if !iseq then Rejected(c, NeedsEquals(cmd))
      else if rest == "stream" then Ok(c.(mode := Stream))
      else if rest == "load" then Ok(c.(mode := Load))
      else Rejected(c, UnknownMode(rest))
    else if cmd == "mon" then
      if !iseq then Rejected(c, NeedsEquals(cmd))
      else if !Numerals.StrIsDigit(rest) then Rejected(c, NotANumber(cmd, rest))
      else Ok(c.(mon := Numerals.Atoi(rest)))
    else Rejected(c, UnknownOption(cmd))
  }

  /** On `mode` and `mon` options the two parsers agree; `fps` and `maxmem`
      options that the newer parser applies end the older one. */
  lemma LegacyAgreesOnModeAndMon(c: Config, body: string, resolve: string -> string)
    requires SplitCommand(body).cmd in ["mode", "mon"]
    ensures LegacyApplyToken(c, Opt(body)) == ApplyToken(c, Opt(body), resolve)
  {
  }

  lemma LegacyRejectsFpsAndMaxmem(c: Config, body: string)
    requires SplitCommand(body).cmd in ["fps", "maxmem"]
    ensures LegacyApplyToken(c, Opt(body)).Rejected?
  {
  }

  /** `send_msg` of src/main.c:1049-1086 as written: no terminating zero
      byte is appended, so `%s` prints whatever bytes follow the joined
      text in memory up to the first zero byte (`trailing`). */
  function LegacySendTextAsWritten(args: seq<string>, trailing: string): string
  {
    Join(args) + trailing + "\n"
  }

  /** With bytes after the buffer, the daemon reads a different message:
      `--mon=1` followed by the stray byte '2' sets monitor 12. */
  lemma LegacySendGarbles()
    ensures Tokens(LegacySendTextAsWritten(["--mon=1"], "2")) == [Opt("mon=12")]
    ensures Tokens(SendText(["--mon=1"])) == [Opt("mon=1")]
  {
    var a := "--mon=1";
    assert Sendable(a);
    assert Sendable("--mon=12");
    assert LegacySendTextAsWritten([a], "2") == "--mon=12" + "\n";
    TokensCons("--mon=12", "\n");
    TokensCons(a, "\n");
    assert Tokens("\n"[1..]) == [];
  }

  /** What `%s` prints of a buffer: everything before its first zero byte. */
  function CString(buf: string): (r: string)
    ensures Free(r, '\0') && r <= buf
    ensures |r| < |buf| ==> buf[|r|] == '\0'
  {
    buf[..IndexOf(buf, '\0')]
  }

  /** `send_msg` with the terminator appended after the joined text, as
      src/AnimX-main.c:1167 does: whatever follows in memory is no longer
      printed. */
  function LegacySendTextTerminated(args: seq<string>, trailing: string): string
  {
    CString(Join(args) + "\0" + trailing) + "\n"
  }

  /** With the terminator, the older sender writes the same line as the
      newer one whatever bytes follow the buffer (the arguments, being C
      strings, hold no zero byte); as written it does so only when the
      byte after the buffer happens to be zero. */
  lemma LegacySendTerminated(args: seq<string>, trailing: string)
    requires forall i | 0 <= i < |args| :: Free(args[i], '\0')
    ensures LegacySendTextTerminated(args, trailing) == SendText(args)
    ensures LegacySendTextAsWritten(args, "") == SendText(args)
  {
    JoinFree(args, '\0');
    SplitAtFirst(Join(args), '\0', trailing);
    assert Join(args) + "\0" + trailing == Join(args) + ['\0'] + trailing;
  }

  /** Joining with spaces adds no character other than ' '. */
  lemma {:induction false} JoinFree(args: seq<string>, c: char)
    requires c != ' ' && forall i | 0 <= i < |args| :: Free(args[i], c)
    ensures Free(Join(args), c)
    decreases |args|
  {
    if |args| > 1 {
      JoinFree(args[1..], c);
      assert Free(args[0], c);
      FreeConcat(args[0], " ", c);
      FreeConcat(args[0] + " ", Join(args[1..]), c);
    }
  }

  /** `determine_argc` of src/main.c:1040-1047: the number of spaces. */
  method DetermineArgc(s: string) returns (argc: nat)
    ensures argc == Numerals.Count(s, ' ')
  {
    argc := 0;
    var i := 0;
    while i < |s|
      invariant 0 <= i <= |s|
      invariant argc == Numerals.Count(s[..i], ' ')
    {
      assert s[..i + 1][..i] == s[..i];
      if s[i] == ' ' {
        argc := argc + 1;
      }
      i := i + 1;
    }
    assert s[..i] == s;
  }

  /** On a joined line of space-free arguments it counts one less than the
      number of arguments. */
  lemma {:induction false} SpacesOfJoin(args: seq<string>)
    requires |args| > 0
    requires forall i | 0 <= i < |args| :: Free(args[i], ' ')
    ensures Numerals.Count(Join(args), ' ') == |args| - 1
    decreases |args|
  {
    NoSpaces(args[0]);
    if |args| > 1 {
      SpacesOfJoin(args[1..]);
      Numerals.CountAppend(args[0] + " ", Join(args[1..]), ' ');
      Numerals.CountAppend(args[0], " ", ' ');
      assert " "[..0] == "";
    }
  }

  lemma {:induction false} NoSpaces(a: string)
    requires Free(a, ' ')
    ensures Numerals.Count(a, ' ') == 0
    decreases |a|
  {
    if |a| > 0 {
      NoSpaces(a[..|a| - 1]);
    }
  }
}

=== FILE: monitors.dfy ===
/** Monitor selection in `init_context` (src/AnimX-context.c:107-265): from
    the outputs XRandR reports and the `--mon` selector, the rectangle of the
    root window a session draws into. -2 mirrors the frame on every monitor
    at the size of the first, -1 spans one frame across all of them, and any
    other value names a single output. The X server is replaced by the list
    of outputs it would report; both passes over it see the same list. */
module Monitors {
  import opened Settings
  import Numerals

  /** `INT_MAX`, `LONG_MAX` and `LONG_MIN` on a platform with 64-bit `long`. */
  const IntMax: int := 0x7fff_ffff
  const LongMax: int := 0x7fff_ffff_ffff_ffff
  const LongMin: int := -0x8000_0000_0000_0000

  /** A CRTC's position and size (`XRRCrtcInfo`'s `x`, `y`, `width`,
      `height`). */
  datatype Crtc = Crtc(x: int, y: int, w: int, h: int)

  /** The ranges of the C fields: `int` positions, `unsigned int` sizes. */
  predicate Fits(c: Crtc)
  {
    -0x8000_0000 <= c.x <= IntMax && -0x8000_0000 <= c.y <= IntMax
    && 0 <= c.w <= 0xffff_ffff && 0 <= c.h <= 0xffff_ffff
  }

  /** An output: whether it is connected, and the CRTC driving it, if any.
      An output whose information cannot be read is a disconnected one. */
  datatype Output = Output(connected: bool, crtc: Option<Crtc>)

  /** A monitor counts when its output is connected and has a CRTC of
      positive width and height (src/AnimX-context.c:112-119). */
  predicate Counted(o: Output)
  {
    o.connected && o.crtc.Some? && o.crtc.value.w > 0 && o.crtc.value.h > 0
  }

  /** The counted monitors' CRTCs in output order: the first pass counts
      them and the second collects them (src/AnimX-context.c:111-121 and
      154-176); on the same list of outputs the collecting pass finds
      exactly as many as were counted. */
  function Collect(outs: seq<Output>): (ms: seq<Crtc>)
    ensures |ms| <= |outs|
    ensures forall m | m in ms :: m.w > 0 && m.h > 0
    ensures forall i | 0 <= i < |outs| && Counted(outs[i]) :: outs[i].crtc.value in ms
    decreases |outs|
  {
    if |outs| == 0 then []
    else
      var init := Collect(outs[..|outs| - 1]);
      var o := outs[|outs| - 1];
      assert forall i | 0 <= i < |outs| - 1 :: outs[..|outs| - 1][i] == outs[i];
      if Counted(o) then init + [o.crtc.value] else init
  }

  /** Every collected CRTC belongs to a counted output, so there are no
      monitors exactly when no output counts. */
  lemma {:induction false} CollectSound(outs: seq<Output>, m: Crtc)
    requires m in Collect(outs)
    ensures exists i | 0 <= i < |outs| :: Counted(outs[i]) && outs[i].crtc.value == m
    decreases |outs|
  {
    var n := |outs| - 1;
    var init := Collect(outs[..n]);
    if m in init {
      CollectSound(outs[..n], m);
      var i :| 0 <= i < n && Counted(outs[..n][i]) && outs[..n][i].crtc.value == m;
      assert outs[i] == outs[..n][i];
    } else {
      assert Counted(outs[n]) && outs[n].crtc.value == m;
    }
  }

  /** The first collected CRTC is that of the first counted output: the
      reference monitor of mirror mode. */
  lemma {:induction false} CollectFirst(outs: seq<Output>, k: nat)
    requires k < |outs| && Counted(outs[k])
    requires forall j | 0 <= j < k :: !Counted(outs[j])
    ensures |Collect(outs)| > 0 && Collect(outs)[0] == outs[k].crtc.value
    decreases |outs|
  {
    var n := |outs| - 1;
    if k < n {
      CollectFirst(outs[..n], k);
    } else {
      NoneCounted(outs[..n]);
    }
  }

  lemma NoneCounted(outs: seq<Output>)
    requires forall j | 0 <= j < |outs| :: !Counted(outs[j])
    ensures Collect(outs) == []
  {
    if Collect(outs) != [] {
      CollectSound(outs, Collect(outs)[0]);
    }
  }

  /** There are monitors exactly when some output counts, and then their
      bounding box is not empty. */
  lemma AnyCounted(outs: seq<Output>)
    ensures |Collect(outs)| > 0 <==> exists i | 0 <= i < |outs| :: Counted(outs[i])
    ensures |Collect(outs)| > 0 ==> Box(Collect(outs)).x1 - Box(Collect(outs)).x0 > 0
                                    && Box(Collect(outs)).y1 - Box(Collect(outs)).y0 > 0
  {
    var ms := Collect(outs);
    if ms != [] {
      CollectSound(outs, ms[0]);
      BoxNonEmpty(ms);
    }
  }

  // ---------------------------------------------------------------------
  // The combined rectangle

  /** A rectangle by its edges, right and bottom exclusive. */
  datatype Rect = Rect(x0: int, y0: int, x1: int, y1: int)

  /** A CRTC lies inside a rectangle. */
  predicate Within(c: Crtc, b: Rect)
  {
    b.x0 <= c.x && b.y0 <= c.y && c.x + c.w <= b.x1 && c.y + c.h <= b.y1
  }

  function Min(a: int, b: int): int { if a <= b then a else b }
  function Max(a: int, b: int): int { if a >= b then a else b }

  /** The bounding box of one or more CRTCs: it contains each of them. */
  function Box(ms: seq<Crtc>): (b: Rect)
    requires |ms| > 0
    ensures forall i | 0 <= i < |ms| :: Within(ms[i], b)
    decreases |ms|
  {
    var c := ms[|ms| - 1];
    if |ms| == 1 then Rect(c.x, c.y, c.x + c.w, c.y + c.h)
    else
      var b := Box(ms[..|ms| - 1]);
      assert forall i | 0 <= i < |ms| - 1 :: ms[..|ms| - 1][i] == ms[i];
      Rect(Min(b.x0, c.x), Min(b.y0, c.y), Max(b.x1, c.x + c.w), Max(b.y1, c.y + c.h))
  }

  /** The box is the smallest one: each of its edges is an edge of one of
      the CRTCs. */
  lemma {:induction false} BoxTight(ms: seq<Crtc>)
    requires |ms| > 0
    ensures exists i | 0 <= i < |ms| :: ms[i].x == Box(ms).x0
    ensures exists i | 0 <= i < |ms| :: ms[i].y == Box(ms).y0
    ensures exists i | 0 <= i < |ms| :: ms[i].x + ms[i].w == Box(ms).x1
    ensures exists i | 0 <= i < |ms| :: ms[i].y + ms[i].h == Box(ms).y1
    decreases |ms|
  {
    var n := |ms| - 1;
    if n > 0 {
      var p := ms[..n];
      BoxTight(p);
      var b := Box(p);
      var a :| 0 <= a < n && p[a].x == b.x0;
      var c :| 0 <= c < n && p[c].y == b.y0;
      var d :| 0 <= d < n && p[d].x + p[d].w == b.x1;
      var e :| 0 <= e < n && p[e].y + p[e].h == b.y1;
      assert p[a] == ms[a] && p[c] == ms[c] && p[d] == ms[d] && p[e] == ms[e];
      if ms[n].x < b.x0 { assert ms[n].x == Box(ms).x0; } else { assert ms[a].x == Box(ms).x0; }
      if ms[n].y < b.y0 { assert ms[n].y == Box(ms).y0; } else { assert ms[c].y == Box(ms).y0; }
      if ms[n].x + ms[n].w > b.x1 { assert ms[n].x + ms[n].w == Box(ms).x1; } else { assert ms[d].x + ms[d].w == Box(ms).x1; }
      if ms[n].y + ms[n].h > b.y1 { assert ms[n].y + ms[n].h == Box(ms).y1; } else { assert ms[e].y + ms[e].h == Box(ms).y1; }
    } else {
      assert ms[0].x == Box(ms).x0;
      assert ms[0].y == Box(ms).y0;
      assert ms[0].x + ms[0].w == Box(ms).x1;
      assert ms[0].y + ms[0].h == Box(ms).y1;
    }
  }

  /** The collecting loop's bounding-box update (src/AnimX-context.c:150-168):
      the running minima start at `LONG_MAX` and the maxima at `LONG_MIN`,
      and each monitor pulls them outwards. For one or more monitors the
      result is their bounding box; for none the start values remain. */
  method BoundingBox(ms: seq<Crtc>) returns (b: Rect)
    requires forall i | 0 <= i < |ms| :: Fits(ms[i])
    ensures |ms| > 0 ==> b == Box(ms)
    ensures forall i | 0 <= i < |ms| :: Within(ms[i], b)
    ensures |ms| == 0 ==> b == Rect(LongMax, LongMax, LongMin, LongMin)
  {
    var minX, minY, maxX, maxY := LongMax, LongMax, LongMin, LongMin;
    var i := 0;
    while i < |ms|
      invariant 0 <= i <= |ms|
      invariant i == 0 ==> minX == LongMax && minY == LongMax && maxX == LongMin && maxY == LongMin
      invariant i > 0 ==> Rect(minX, minY, maxX, maxY) == Box(ms[..i])
      decreases |ms| - i
    {
      var c := ms[i];
      if c.x < minX { minX := c.x; }
      if c.y < minY { minY := c.y; }
      if c.x + c.w > maxX { maxX := c.x + c.w; }
      if c.y + c.h > maxY { maxY := c.y + c.h; }
      assert ms[..i + 1][..i] == ms[..i];
      i := i + 1;
    }
    b := Rect(minX, minY, maxX, maxY);
    if |ms| > 0 {
      assert ms[..|ms|] == ms;
    }
  }

  /** With at least one monitor of positive size the box has positive
      width and height: the `<= 0` half of the combined-size check of
      src/AnimX-context.c:218 never fires. */
  lemma BoxNonEmpty(ms: seq<Crtc>)
    requires |ms| > 0 && forall m | m in ms :: m.w > 0 && m.h > 0
    ensures Box(ms).x1 - Box(ms).x0 > 0 && Box(ms).y1 - Box(ms).y0 > 0
  {
    assert Within(ms[0], Box(ms));
    assert ms[0] in ms;
  }

  // ---------------------------------------------------------------------
  // Selection

  /** The rectangle chosen, whether it is mirrored on every monitor, and
      `num_monitors`. */
  datatype Target = Target(x: int, y: int, w: int, h: int, mirror: bool, count: nat)

  /** Why `init_context` gives up (it returns -1). `OutsideArray` is the
      read of `outputs[monitor_index]` before the start of the array. */
  datatype Failure = NoMonitors | BadCombined | IndexOutOfRange | NotConnected | NoValidCrtc | OutsideArray

  datatype Selection = Chosen(t: Target) | Failed(why: Failure)

  /** The target of a single CRTC. */
  function Single(c: Crtc, mirror: bool, count: nat): Target
  {
    Target(c.x, c.y, c.w, c.h, mirror, count)
  }

  /** The part shared by both versions: no monitors, mirror, combined. */
  function SelectShared(outs: seq<Output>, index: int): (r: Option<Selection>)
    ensures r.None? <==> |Collect(outs)| > 0 && index != -2 && index != -1
  {
    var ms := Collect(outs);
    if |ms| == 0 then Some(Failed(NoMonitors))
    else if index == -2 then Some(Chosen(Single(ms[0], true, |ms|)))
    else if index == -1 then
      var b := Box(ms);
      var w, h := b.x1 - b.x0, b.y1 - b.y0;
      if w <= 0 || h <= 0 || w > IntMax || h > IntMax then Some(Failed(BadCombined))
      else Some(Chosen(Target(b.x0, b.y0, w, h, false, |ms|)))
    else None
  }

  /** A single output, as written (src/AnimX-context.c:235-263): only
      `index >= num_outputs` is rejected, so an index below -2 reads
      outside the output array. */
  function SelectAsWritten(outs: seq<Output>, index: int): (r: Selection)
    ensures index >= -2 ==> r == Select(outs, index)
    ensures index < -2 && |Collect(outs)| > 0 ==> r == Failed(OutsideArray)
  {
    var shared := SelectShared(outs, index);
    if shared.Some? then shared.value
    else if index >= |outs| then Failed(IndexOutOfRange)
    else if index < 0 then Failed(OutsideArray)
    else SelectOutput(outs[index])
  }

  /** The checks on the chosen output: connected, then a CRTC of positive
      size; `num_monitors` becomes 1. */
  function SelectOutput(o: Output): (r: Selection)
    ensures r.Chosen? <==> Counted(o)
    ensures r.Chosen? ==> r.t == Single(o.crtc.value, false, 1)
    ensures r == Failed(NotConnected) <==> !o.connected
  {
    if !o.connected then Failed(NotConnected)
    else if !Counted(o) then Failed(NoValidCrtc)
    else Chosen(Single(o.crtc.value, false, 1))
  }

  /** Selection with the missing lower bound added: every index that names
      no output, below -2 as well as past the end, is out of range.
      Without monitors nothing is chosen; mirror mode uses the first
      monitor and counts them all; combined mode covers every monitor and
      fails only when the span is wider or taller than `INT_MAX`; a single
      index is chosen exactly when its output counts. */
  function Select(outs: seq<Output>, index: int): (r: Selection)
    ensures r == Failed(NoMonitors) <==> forall i | 0 <= i < |outs| :: !Counted(outs[i])
    ensures r.Chosen? && index == -2 ==> r.t.mirror && r.t.count == |Collect(outs)|
    ensures r.Chosen? && index == -1 ==>
              !r.t.mirror && r.t.count == |Collect(outs)|
              && forall i | 0 <= i < |outs| && Counted(outs[i]) ::
                   Within(outs[i].crtc.value, Rect(r.t.x, r.t.y, r.t.x + r.t.w, r.t.y + r.t.h))
    ensures index == -1 && |Collect(outs)| > 0 ==>
              (r == Failed(BadCombined) <==> Box(Collect(outs)).x1 - Box(Collect(outs)).x0 > IntMax
                                              || Box(Collect(outs)).y1 - Box(Collect(outs)).y0 > IntMax)
    ensures index >= 0 ==> (r.Chosen? <==> index < |outs| && Counted(outs[index]))
    ensures r.Chosen? && index >= 0 ==> r.t == Single(outs[index].crtc.value, false, 1)
    ensures (index < -2 || index >= |outs|) && |Collect(outs)| > 0 ==> r == Failed(IndexOutOfRange)
  {
    AnyCounted(outs);
    var shared := SelectShared(outs, index);
    if shared.Some? then shared.value
    else if index >= |outs| || index < 0 then Failed(IndexOutOfRange)
    else SelectOutput(outs[index])
  }

  /** Mirror mode draws at the position and size of the first counted
      output (src/AnimX-context.c:188-196). */
  lemma MirrorUsesFirst(outs: seq<Output>, k: nat)
    requires k < |outs| && Counted(outs[k])
    requires forall j | 0 <= j < k :: !Counted(outs[j])
    ensures Select(outs, -2) == Chosen(Single(outs[k].crtc.value, true, |Collect(outs)|))
  {
    CollectFirst(outs, k);
  }

  /** The combined target is exactly the bounding box: each edge of it is
      an edge of some counted monitor. */
  lemma CombinedIsTight(outs: seq<Output>)
    requires Select(outs, -1).Chosen?
    ensures var t := Select(outs, -1).t;
            (exists m | m in Collect(outs) :: m.x == t.x)
            && (exists m | m in Collect(outs) :: m.y == t.y)
            && (exists m | m in Collect(outs) :: m.x + m.w == t.x + t.w)
            && (exists m | m in Collect(outs) :: m.y + m.h == t.y + t.h)
  {
    var ms := Collect(outs);
    BoxTight(ms);
    var a :| 0 <= a < |ms| && ms[a].x == Box(ms).x0;
    var c :| 0 <= c < |ms| && ms[c].y == Box(ms).y0;
    var d :| 0 <= d < |ms| && ms[d].x + ms[d].w == Box(ms).x1;
    var e :| 0 <= e < |ms| && ms[e].y + ms[e].h == Box(ms).y1;
    assert ms[a] in ms && ms[c] in ms && ms[d] in ms && ms[e] in ms;
  }

  /** `--mon=-3` passes the option validator and, with any monitor
      present, sends the code as written past the start of the output
      array, where the corrected selection reports the index as out of
      range. */
  lemma BelowMinusTwoUnguarded(outs: seq<Output>, k: nat)
    requires k < |outs| && Counted(outs[k])
    ensures Numerals.StrIsDigit("-3") && Numerals.Atoi("-3") == -3
    ensures SelectAsWritten(outs, -3) == Failed(OutsideArray)
    ensures Select(outs, -3) == Failed(IndexOutOfRange)
  {
    assert Numerals.Unsigned("-3") == "3";
    assert Numerals.DigitRun("3") == 1;
    assert "3"[..1] == "3";
    assert outs[k].crtc.value in Collect(outs);
  }
}

=== FILE: numerals.dfy ===
/** Decimal text as AnimX reads and writes it: the two `str_isdigit`
    validators, `atoi` and `strtod` on text a validator accepted, and the
    `%d` and `%f` renderings the configuration writer uses. */
module Numerals {

  predicate IsDigit(c: char) { '0' <= c <= '9' }

  function DigitValue(c: char): nat
    requires IsDigit(c)
  {
    c as int - '0' as int
  }

  function DigitChar(d: nat): (c: char)
    requires d < 10
    ensures IsDigit(c) && DigitValue(c) == d
  {
    ('0' as int + d) as char
  }

  predicate AllDigits(s: string) { forall i | 0 <= i < |s| :: IsDigit(s[i]) }

  /** The text after at most one leading '-': the validators skip exactly one. */
  function Unsigned(s: string): string
  {
    if |s| > 0 && s[0] == '-' then s[1..] else s
  }

  /** Number of occurrences of `c` in `s`, counted from the back so that a
      growing prefix `s[..i+1]` unfolds in one step. */
  function Count(s: string, c: char): nat
  {
    if |s| == 0 then 0
    else Count(s[..|s| - 1], c) + (if s[|s| - 1] == c then 1 else 0)
  }

  lemma {:induction false} CountPrefixMonotone(s: string, c: char, i: nat)
    requires i <= |s|
    ensures Count(s[..i], c) <= Count(s, c)
    decreases |s|
  {
    if i < |s| {
      assert s[..|s|][..|s| - 1] == s[..|s| - 1];
      assert s[..|s| - 1][..i] == s[..i];
      CountPrefixMonotone(s[..|s| - 1], c, i);
    } else {
      assert s[..i] == s;
    }
  }

  lemma {:induction false} CountAppend(a: string, b: string, c: char)
    ensures Count(a + b, c) == Count(a, c) + Count(b, c)
    decreases |b|
  {
    if |b| == 0 {
      assert a + b == a;
    } else {
      assert (a + b)[..|a + b| - 1] == a + b[..|b| - 1];
      CountAppend(a, b[..|b| - 1], c);
    }
  }

  // ---------------------------------------------------------------------
  // str_isdigit

  /** Meaning of `str_isdigit` in src/AnimX-utils.c: after one optional '-',
      every character is a digit or a '.', and there is at most one '.'. */
  predicate StrIsDigit(s: string)
  {
    var t := Unsigned(s);
    (forall i | 0 <= i < |t| :: IsDigit(t[i]) || t[i] == '.') && Count(t, '.') <= 1
  }

  /** Meaning of the older `str_isdigit` in src/utils.c: after one optional
      '-', every character is a digit. */
  predicate StrIsDigitLegacy(s: string)
  {
    AllDigits(Unsigned(s))
  }

  /** The scan of src/AnimX-utils.c: skip one '-', then walk the text with a
      "period seen" flag, failing on a second '.' or on any non-digit. */
  method ScanIsDigit(s: string) returns (ok: bool)
    ensures ok == StrIsDigit(s)
  {
    var t := Unsigned(s);
    var period := false;
    var i := 0;
    while i < |t|
      invariant 0 <= i <= |t|
      invariant forall j | 0 <= j < i :: IsDigit(t[j]) || t[j] == '.'
      invariant Count(t[..i], '.') <= 1
      invariant period <==> Count(t[..i], '.') == 1
    {
      assert t[..i + 1][..i] == t[..i];
      if t[i] == '.' {
        if period {
          CountPrefixMonotone(t, '.', i + 1);
          return false;
        }
        period := true;
      } else if !IsDigit(t[i]) {
        return false;
      }
      i := i + 1;
    }
    assert t[..i] == t;
    return true;
  }

  /** The scan of src/utils.c: skip one '-', then fail on any non-digit. */
  method ScanIsDigitLegacy(s: string) returns (ok: bool)
    ensures ok == StrIsDigitLegacy(s)
  {
    var t := Unsigned(s);
    var i := 0;
    while i < |t|
      invariant 0 <= i <= |t|
      invariant forall j | 0 <= j < i :: IsDigit(t[j])
    {
      if !IsDigit(t[i]) {
        return false;
      }
      i := i + 1;
    }
    return true;
  }

  /** The newer validator accepts everything the older one accepts. */
  lemma LegacyAcceptsFewer(s: string)
    ensures StrIsDigitLegacy(s) ==> StrIsDigit(s)
  {
    if StrIsDigitLegacy(s) {
      NoDotCount(Unsigned(s));
    }
  }

  /** The edges of the two validators: empty text, a lone '-', a lone '.'
      and "-." pass the newer one; a second '.', a '+' or a second '-'
      fail it; the older one takes "" and "-" but no '.', and skips only
      one '-'. */
  lemma ValidatorEdges()
    ensures StrIsDigit("") && StrIsDigit("-") && StrIsDigit(".") && StrIsDigit("-.")
    ensures !StrIsDigit("1.2.3") && !StrIsDigit("+5") && !StrIsDigit("--5")
    ensures StrIsDigitLegacy("") && StrIsDigitLegacy("-")
    ensures !StrIsDigitLegacy("1.5") && !StrIsDigitLegacy("--5")
  {
    var t := "1.2.3";
    assert t[..4] == "1.2." && t[..4][..3] == "1.2" && t[..4][..3][..2] == "1.";
    assert Count("1.", '.') == Count("1", '.') + 1;
    assert Count(t[..4][..3], '.') == 1;
    assert Count(t, '.') == 2;
    assert Count(".", '.') == Count("", '.') + 1;
    assert !IsDigit("1.5"[1]);
    assert !IsDigit("-5"[0]);
  }

  lemma {:induction false} NoDotCount(t: string)
    requires AllDigits(t)
    ensures Count(t, '.') == 0
    decreases |t|
  {
    if |t| > 0 {
      NoDotCount(t[..|t| - 1]);
    }
  }

  // ---------------------------------------------------------------------
  // atoi and strtod on validated text

  /** Length of the longest prefix of `s` made of digits. */
  function DigitRun(s: string): (n: nat)
    ensures n <= |s|
    ensures AllDigits(s[..n])
    ensures n < |s| ==> !IsDigit(s[n])
  {
    if |s| == 0 || !IsDigit(s[0]) then 0
    else
      var m := DigitRun(s[1..]);
      assert s[..m + 1] == [s[0]] + s[1..][..m];
      m + 1
  }

  /** Value of a digit string, most significant digit first. */
  function Value(s: string): nat
    requires AllDigits(s)
  {
    if |s| == 0 then 0 else 10 * Value(s[..|s| - 1]) + DigitValue(s[|s| - 1])
  }

  function Pow10(k: nat): (p: nat)
    ensures p > 0
  {
    if k == 0 then 1 else 10 * Pow10(k - 1)
  }

  lemma {:induction false} ValueAppend(a: string, b: string)
    requires AllDigits(a) && AllDigits(b)
    ensures AllDigits(a + b)
    ensures Value(a + b) == Value(a) * Pow10(|b|) + Value(b)
    decreases |b|
  {
    AllDigitsConcat(a, b);
    if |b| > 0 {
      var b' := b[..|b| - 1];
      var ab := a + b;
      assert ab[..|ab| - 1] == a + b';
      assert ab[|ab| - 1] == b[|b| - 1];
      ValueAppend(a, b');
      ShiftDigit(Value(a), Value(b'), Pow10(|b'|), DigitValue(b[|b| - 1]));
    } else {
      assert a + b == a;
    }
  }

  lemma AllDigitsConcat(a: string, b: string)
    requires AllDigits(a) && AllDigits(b)
    ensures AllDigits(a + b)
  {
    forall i | 0 <= i < |a + b|
      ensures IsDigit((a + b)[i])
    {
      if i < |a| { assert (a + b)[i] == a[i]; } else { assert (a + b)[i] == b[i - |a|]; }
    }
  }

  lemma ShiftDigit(va: int, vb: int, p: int, d: int)
    ensures 10 * (va * p + vb) + d == va * (10 * p) + (10 * vb + d)
  {
  }

  /** C `atoi` on text that passed `StrIsDigit` (every call site checks
      first): an optional '-', then the leading run of digits; an empty run
      is 0, and anything from a '.' on is ignored. */
  function Atoi(s: string): int
    requires StrIsDigit(s)
  {
    var t := Unsigned(s);
    var n: int := Value(t[..DigitRun(t)]);
    if |s| > 0 && s[0] == '-' then -n else n
  }

  /** C `strtod` on text that passed `StrIsDigit`: optional '-', integer
      digits, then the digits after a '.', read as an exact rational. */
  function Strtod(s: string): real
    requires StrIsDigit(s)
  {
    var t := Unsigned(s);
    var k := DigitRun(t);
    var ip := Value(t[..k]);
    var rest := if k < |t| && t[k] == '.' then t[k + 1..] else "";
    var f := DigitRun(rest);
    var mag := ip as real + (Value(rest[..f]) as real) / (Pow10(f) as real);
    if |s| > 0 && s[0] == '-' then -mag else mag
  }

  // ---------------------------------------------------------------------
  // %d rendering

  /** `%d` of a non-negative number. */
  function NatText(n: nat): string
  {
    if n < 10 then [DigitChar(n)] else NatText(n / 10) + [DigitChar(n % 10)]
  }

  /** `%d` of any number. */
  function IntText(n: int): string
  {
    if n < 0 then "-" + NatText(-n) else NatText(n)
  }

  lemma {:induction false} NatTextValue(n: nat)
    ensures |NatText(n)| > 0
    ensures AllDigits(NatText(n))
    ensures Value(NatText(n)) == n
    decreases n
  {
    if n >= 10 {
      NatTextValue(n / 10);
      var s := NatText(n / 10) + [DigitChar(n % 10)];
      assert s[..|s| - 1] == NatText(n / 10);
    }
  }

  lemma DigitRunAll(s: string)
    requires AllDigits(s)
    ensures DigitRun(s) == |s|
  {
  }

  /** `%d` text is accepted by the validator and `atoi` reads the number back. */
  lemma IntTextRoundTrip(n: int)
    ensures StrIsDigit(IntText(n))
    ensures Atoi(IntText(n)) == n
  {
    var m := if n < 0 then -n else n;
    NatTextValue(m);
    var s := IntText(n);
    assert Unsigned(s) == NatText(m);
    NoDotCount(NatText(m));
    DigitRunAll(NatText(m));
    assert NatText(m)[..|NatText(m)|] == NatText(m);
  }

  // ---------------------------------------------------------------------
  // %f rendering

  /** Round to the nearest integer, ties to even (glibc's default mode). */
  function RoundHalfEven(y: real): (n: nat)
    requires y >= 0.0
    ensures -0.5 <= n as real - y <= 0.5
  {
    var f := y.Floor;
    var d := y - f as real;
    if d > 0.5 then f + 1
    else if d < 0.5 then f
    else if f % 2 == 0 then f
    else f + 1
  }

  function Zeros(k: nat): (z: string)
    ensures |z| == k && AllDigits(z)
  {
    if k == 0 then "" else Zeros(k - 1) + "0"
  }

  /** Left-pad with '0' to at least `width` characters. */
  function PadZeros(s: string, width: nat): string
  {
    if |s| >= width then s else Zeros(width - |s|) + s
  }

  function Abs(x: real): real { if x < 0.0 then -x else x }

  /** Six-decimal value `%f` keeps: |x| scaled by 10^6 and rounded. */
  function Micros(x: real): nat
  {
    RoundHalfEven(Abs(x) * 1000000.0)
  }

  /** The value a `%f` text stands for: `x` rounded to six decimals. */
  function SixDecimals(x: real): real
  {
    (if x < 0.0 then -1.0 else 1.0) * (Micros(x) as real / 1000000.0)
  }

  /** `%f` of `x`: sign, integer part, '.', six decimals. */
  function FixedText(x: real): string
  {
    var n := Micros(x);
    (if x < 0.0 then "-" else "") + NatText(n / 1000000) + "." + PadZeros(NatText(n % 1000000), 6)
  }

  lemma {:induction false} ZerosValue(k: nat)
    ensures Value(Zeros(k)) == 0
    decreases k
  {
    if k > 0 {
      assert Zeros(k)[..k - 1] == Zeros(k - 1);
      ZerosValue(k - 1);
    }
  }

  lemma PaddedValue(n: nat)
    requires n < 1000000
    ensures |PadZeros(NatText(n), 6)| == 6
    ensures AllDigits(PadZeros(NatText(n), 6))
    ensures Value(PadZeros(NatText(n), 6)) == n
  {
    NatTextValue(n);
    assert Pow10(6) == 1000000 by { Pow10Six(); }
    NatTextShort(n, 6);
    PadKeepsValue(NatText(n), 6);
  }

  lemma Pow10Six()
    ensures Pow10(6) == 1000000
  {
    assert Pow10(2) == 100;
    assert Pow10(4) == 10000;
  }

  /** Padding with '0' keeps the digits' value. */
  lemma PadKeepsValue(s: string, width: nat)
    requires AllDigits(s)
    ensures |PadZeros(s, width)| == if |s| >= width then |s| else width
    ensures AllDigits(PadZeros(s, width))
    ensures Value(PadZeros(s, width)) == Value(s)
  {
    if |s| < width {
      var z := Zeros(width - |s|);
      ZerosValue(width - |s|);
      ValueAppend(z, s);
      assert Value(z) * Pow10(|s|) == 0;
    }
  }

  lemma {:induction false} NatTextShort(n: nat, k: nat)
    requires n < Pow10(k)
    ensures |NatText(n)| <= k || (k == 0 && |NatText(n)| == 1)
    decreases n
  {
    if n >= 10 {
      assert k >= 2;
      NatTextShort(n / 10, k - 1);
    }
  }

  /** The parts of a `%f` text: the six-decimal magnitude and the sign. */
  lemma FixedTextShape(x: real)
    ensures var n := Micros(x);
            var t := NatText(n / 1000000) + "." + PadZeros(NatText(n % 1000000), 6);
            && Unsigned(FixedText(x)) == t
            && (|FixedText(x)| > 0 && FixedText(x)[0] == '-' <==> x < 0.0)
  {
    var n := Micros(x);
    NatTextValue(n / 1000000);
  }

  /** The unsigned part of a `%f` text, split at the '.'. */
  function FixedDigits(q: nat, r: nat): string
  {
    NatText(q) + "." + PadZeros(NatText(r), 6)
  }

  lemma FixedDigitsValid(q: nat, r: nat)
    requires r < 1000000
    ensures (forall i | 0 <= i < |FixedDigits(q, r)| ::
               IsDigit(FixedDigits(q, r)[i]) || FixedDigits(q, r)[i] == '.')
    ensures Count(FixedDigits(q, r), '.') == 1
  {
    var ip, fp := NatText(q), PadZeros(NatText(r), 6);
    var t := FixedDigits(q, r);
    NatTextValue(q);
    PaddedValue(r);
    forall i | 0 <= i < |t|
      ensures IsDigit(t[i]) || t[i] == '.'
    {
      if i < |ip| { assert t[i] == ip[i]; }
      else if i > |ip| { assert t[i] == fp[i - |ip| - 1]; }
    }
    DotCount(ip, fp);
  }

  /** Reading the unsigned part back: integer digits stop at the '.', the
      six decimals follow. */
  lemma FixedDigitsRead(q: nat, r: nat)
    requires r < 1000000
    ensures var t := FixedDigits(q, r);
            var k := DigitRun(t);
            && k < |t| && t[k] == '.'
            && AllDigits(t[..k]) && Value(t[..k]) == q
            && DigitRun(t[k + 1..]) == 6
            && AllDigits(t[k + 1..][..6]) && Value(t[k + 1..][..6]) == r
  {
    var ip, fp := NatText(q), PadZeros(NatText(r), 6);
    var t := FixedDigits(q, r);
    NatTextValue(q);
    PaddedValue(r);
    assert t[..|ip|] == ip;
    DigitRunStops(t, |ip|);
    assert t[|ip| + 1..] == fp;
    DigitRunAll(fp);
    assert fp[..6] == fp;
  }

  /** Exact split of a six-decimal value into integer and fractional parts. */
  lemma MicrosSplit(n: nat)
    ensures (n / 1000000) as real + ((n % 1000000) as real) / 1000000.0 == (n as real) / 1000000.0
  {
    var q, r := n / 1000000, n % 1000000;
    assert n == q * 1000000 + r;
    assert (n as real) == (q as real) * 1000000.0 + (r as real);
  }

  /** `strtod` of a validated text whose digits read as `q`, '.', then
      exactly six decimals reading as `r`. */
  lemma StrtodSixDecimals(s: string, q: nat, r: nat)
    requires StrIsDigit(s)
    requires var t := Unsigned(s);
             var k := DigitRun(t);
             && k < |t| && t[k] == '.'
             && AllDigits(t[..k]) && Value(t[..k]) == q
             && DigitRun(t[k + 1..]) == 6
             && AllDigits(t[k + 1..][..6]) && Value(t[k + 1..][..6]) == r
    ensures var m := q as real + (r as real) / 1000000.0;
            Strtod(s) == if |s| > 0 && s[0] == '-' then -m else m
  {
    assert Pow10(6) == 1000000;
  }

  /** `%f` text is accepted by the validator, and `strtod` reads back the
      value rounded to six decimals, so it is within half a millionth of x. */
  lemma FixedTextRoundTrip(x: real)
    ensures StrIsDigit(FixedText(x))
    ensures Strtod(FixedText(x)) == SixDecimals(x)
    ensures Abs(SixDecimals(x) - x) <= 0.0000005
  {
    var n := Micros(x);
    var q, r := n / 1000000, n % 1000000;
    var s := FixedText(x);
    FixedTextShape(x);
    assert Unsigned(s) == FixedDigits(q, r);
    FixedDigitsValid(q, r);
    FixedDigitsRead(q, r);
    StrtodSixDecimals(s, q, r);
    MicrosSplit(n);
    RoundError(x);
  }

  lemma RoundError(x: real)
    ensures -0.0000005 <= (Micros(x) as real) / 1000000.0 - Abs(x) <= 0.0000005
  {
    var y := Abs(x) * 1000000.0;
    var n := Micros(x);
    assert -0.5 <= n as real - y <= 0.5;
  }

  lemma DigitRunStops(t: string, k: nat)
    requires k < |t|
    requires AllDigits(t[..k]) && !IsDigit(t[k])
    ensures DigitRun(t) == k
  {
    var d := DigitRun(t);
    forall i | 0 <= i < k
      ensures IsDigit(t[i])
    {
      assert t[..k][i] == t[i];
    }
    forall i | 0 <= i < d
      ensures IsDigit(t[i])
    {
      assert t[..d][i] == t[i];
    }
  }

  lemma DotCount(ip: string, fp: string)
    requires AllDigits(ip) && AllDigits(fp)
    ensures Count(ip + "." + fp, '.') == 1
  {
    NoDotCount(ip);
    CountConcatDigits(ip + ".", fp);
    assert (ip + ".")[..|ip|] == ip;
  }

  lemma {:induction false} CountConcatDigits(a: string, b: string)
    requires AllDigits(b)
    ensures Count(a + b, '.') == Count(a, '.')
    decreases |b|
  {
    if |b| > 0 {
      assert (a + b)[..|a + b| - 1] == a + b[..|b| - 1];
      CountConcatDigits(a, b[..|b| - 1]);
    } else {
      assert a + b == a;
    }
  }
}

=== FILE: reconfig.dfy ===
/** The reconfiguration decision of the daemon's FIFO reader: after each
    message it compares `g_config` with the worker's copy of the settings,
    and on a difference restarts the worker with a fresh copy
    (src/AnimX-main.c:621-680; older copy src/main.c:560-620).
    `resolve` (realpath) is outside the model and is passed in. */
module Reconfig {
  import opened Settings
  import Message

  /** The settings a worker's session runs with: `Worker_Data`'s `wp`,
      `mon`, `mode`, `maxmem` and `fps`. */
  datatype Copy = Copy(wp: Option<string>, mon: int, mode: Mode, maxmem: real, fps: int)

  /** `init_worker_data` (src/AnimX-main.c:181-193): no wallpaper, monitor
      -1, streaming, no memory ceiling, 30 fps. */
  const Initial: Copy := Copy(None, -1, Stream, 0.0, 30)

  /** The reader's restart test (src/AnimX-main.c:633): a wallpaper is
      configured, and the copy has none or differs from `g_config` in the
      wallpaper, monitor, mode, memory ceiling or frame rate. */
  predicate NeedsRestart(g: Config, w: Copy)
  {
    g.wp.Some? && (w.wp.None? || g.wp.value != w.wp.value || g.mon != w.mon
                   || g.mode != w.mode || g.maxmem != w.maxmem || g.fps != w.fps)
  }

  /** The copy the reader makes before starting the next worker, as
      written (src/AnimX-main.c:653-659): the resolved wallpaper, monitor,
      mode and ceiling are copied, and `fps` is left as it was. */
  function AdoptAsWritten(g: Config, w: Copy, resolve: string -> string): (r: Copy)
    ensures r.fps == w.fps
    ensures r.mon == g.mon && r.mode == g.mode && r.maxmem == g.maxmem
    ensures r.wp.Some? <==> g.wp.Some?
  {
    Copy(if g.wp.Some? then Some(resolve(g.wp.value)) else None, g.mon, g.mode, g.maxmem, w.fps)
  }

  /** The initial copy of src/AnimX-main.c:1086-1092 is the same partial
      copy made into the freshly initialised worker data. */
  function InitialCopy(g: Config, resolve: string -> string): (r: Copy)
    requires g.wp.Some?
    ensures r == AdoptAsWritten(g, Initial, resolve)
  {
    Copy(Some(resolve(g.wp.value)), g.mon, g.mode, g.maxmem, 30)
  }

  /** A wallpaper `realpath` leaves unchanged. The message parser and the
      command line store the resolved path (src/AnimX-main.c:1063, 1292),
      but a wallpaper read from the configuration file is stored as written
      there (src/AnimX-io.c:80), and `--restore` runs with it. */
  predicate Canonical(g: Config, resolve: string -> string)
  {
    g.wp.Some? ==> resolve(g.wp.value) == g.wp.value
  }

  /** The copy holds the resolved wallpaper but the test compares it with
      the wallpaper as stored, and `fps` is compared but never copied: the
      next message restarts the worker again exactly when the configured
      rate differs from the copy's or the stored wallpaper is not its own
      resolved path. */
  lemma FpsNeverSettles(g: Config, w: Copy, resolve: string -> string)
    ensures NeedsRestart(g, AdoptAsWritten(g, w, resolve))
            <==> g.wp.Some? && (g.fps != w.fps || !Canonical(g, resolve))
  {
  }

  /** The copy after `n` messages that all leave `g_config` as it is. */
  function AfterMessages(g: Config, w: Copy, resolve: string -> string, n: nat): Copy
  {
    if n == 0 then w
    else
      var prev := AfterMessages(g, w, resolve, n - 1);
      if NeedsRestart(g, prev) then AdoptAsWritten(g, prev, resolve) else prev
  }

  /** With a configured frame rate other than the copy's, every message
      restarts the worker, however many arrive, whatever the wallpaper. */
  lemma {:induction false} RestartsOnEveryMessage(g: Config, w: Copy, resolve: string -> string, n: nat)
    requires g.wp.Some? && g.fps != w.fps
    ensures NeedsRestart(g, AfterMessages(g, w, resolve, n))
    ensures AfterMessages(g, w, resolve, n).fps == w.fps
  {
    if n > 0 {
      RestartsOnEveryMessage(g, w, resolve, n - 1);
    }
  }

  /** From the start of the daemon: a configuration file with `fps=60`
      makes every message restart the worker. */
  lemma FirstCopyMissesFps(g: Config, resolve: string -> string)
    requires g.wp.Some? && g.fps == 60
    ensures NeedsRestart(g, InitialCopy(g, resolve))
  {
  }

  /** A wallpaper restored from the configuration file that `realpath`
      changes (a relative path, a symbolic link) restarts the worker on
      every message, even with `fps` copied: the test compares the stored
      path with the resolved copy. */
  lemma UnresolvedRestarts(g: Config, w: Copy, resolve: string -> string)
    requires g.wp.Some? && resolve(g.wp.value) != g.wp.value
    ensures NeedsRestart(g, AdoptAsWritten(g, w, resolve))
    ensures NeedsRestart(g, Adopt(g, resolve))
  {
  }

  /** The wallpaper a worker would be started with. */
  function ResolvedWp(g: Config, resolve: string -> string): Option<string>
  {
    if g.wp.Some? then Some(resolve(g.wp.value)) else None
  }

  /** The restart test comparing the resolved wallpaper, the one the copy
      holds, with the copy. */
  predicate NeedsRestartResolved(g: Config, w: Copy, resolve: string -> string)
  {
    g.wp.Some? && (w.wp.None? || resolve(g.wp.value) != w.wp.value || g.mon != w.mon
                   || g.mode != w.mode || g.maxmem != w.maxmem || g.fps != w.fps)
  }

  /** For a wallpaper that is its own resolved path, as every wallpaper
      given in a message is, the two tests decide alike. */
  lemma ResolvedTestAgrees(g: Config, w: Copy, resolve: string -> string)
    requires Canonical(g, resolve)
    ensures NeedsRestartResolved(g, w, resolve) <==> NeedsRestart(g, w)
  {
  }

  /** The copy with `fps` copied as well. It depends only on `g_config`;
      right after it the resolved test asks for no restart, and so does the
      test as written when the wallpaper is its own resolved path. */
  function Adopt(g: Config, resolve: string -> string): (r: Copy)
    ensures !NeedsRestartResolved(g, r, resolve)
    ensures Canonical(g, resolve) ==> !NeedsRestart(g, r)
    ensures r.fps == g.fps && r.mon == g.mon && r.mode == g.mode && r.maxmem == g.maxmem
    ensures r.wp == ResolvedWp(g, resolve)
  {
    Copy(ResolvedWp(g, resolve), g.mon, g.mode, g.maxmem, g.fps)
  }

  /** Two configurations agree on every setting the reader compares, the
      wallpaper taken as resolved. */
  predicate SameSettings(a: Config, b: Config, resolve: string -> string)
  {
    ResolvedWp(a, resolve) == ResolvedWp(b, resolve) && a.mon == b.mon && a.mode == b.mode
    && a.maxmem == b.maxmem && a.fps == b.fps
  }

  /** With the full copy and the resolved test, the worker started for `g`
      is restarted by a later configuration `g2` exactly when `g2` has a
      wallpaper and changes one of the compared settings; whatever `g`'s
      wallpaper, a message that changes nothing never restarts it. */
  lemma RestartOnlyOnChange(g: Config, g2: Config, resolve: string -> string)
    ensures NeedsRestartResolved(g2, Adopt(g, resolve), resolve) <==> g2.wp.Some? && !SameSettings(g, g2, resolve)
    ensures !NeedsRestartResolved(g, Adopt(g, resolve), resolve)
  {
  }

  /** The copy as written and the full copy differ exactly when the old
      copy's frame rate is not the configured one. */
  lemma AdoptDiffersOnlyInFps(g: Config, w: Copy, resolve: string -> string)
    ensures AdoptAsWritten(g, w, resolve) == Adopt(g, resolve) <==> w.fps == g.fps
  {
  }

  // ---------------------------------------------------------------------
  // One message

  /** What the reader does with one message: the daemon exits on a
      rejected message (`err_wargs`), restarts the worker with a new copy,
      or keeps it. */
  datatype Reaction = Exits(partial: Config) | Restart(cfg: Config, copy: Copy) | Keep(cfg: Config)

  /** One message through `parse_daemon_sender_msg` and the restart test,
      with the copy made as written. */
  function HandleAsWritten(c: Config, w: Copy, msg: string, resolve: string -> string): (r: Reaction)
    ensures r.Exits? <==> Message.ParseMessage(c, msg, resolve).Rejected?
    ensures r.Restart? <==> Message.ParseMessage(c, msg, resolve).Ok? && NeedsRestart(Message.ParseMessage(c, msg, resolve).cfg, w)
    ensures r.Keep? ==> r.cfg == Message.ParseMessage(c, msg, resolve).cfg
  {
    match Message.ParseMessage(c, msg, resolve)
    case Rejected(p, _) => Exits(p)
    case Ok(g) => if NeedsRestart(g, w) then Restart(g, AdoptAsWritten(g, w, resolve)) else Keep(g)
  }

  /** The same with both corrections, the full copy and the resolved
      test: the copy handed to the new worker needs no further restart,
      whatever the wallpaper (and by `RestartOnlyOnChange`, only a message
      that changes a compared setting restarts it again). */
  function Handle(c: Config, w: Copy, msg: string, resolve: string -> string): (r: Reaction)
    ensures r.Exits? <==> Message.ParseMessage(c, msg, resolve).Rejected?
    ensures r.Restart? <==> Message.ParseMessage(c, msg, resolve).Ok? && NeedsRestartResolved(Message.ParseMessage(c, msg, resolve).cfg, w, resolve)
    ensures r.Restart? ==> !NeedsRestartResolved(r.cfg, r.copy, resolve)
    ensures r.Restart? && Canonical(r.cfg, resolve) ==> !NeedsRestart(r.cfg, r.copy)
    ensures !r.Exits? ==> r.cfg == Message.ParseMessage(c, msg, resolve).cfg
  {
    match Message.ParseMessage(c, msg, resolve)
    case Rejected(p, _) => Exits(p)
    case Ok(g) => if NeedsRestartResolved(g, w, resolve) then Restart(g, Adopt(g, resolve)) else Keep(g)
  }

  // ---------------------------------------------------------------------
  // The older reader

  /** The restart test of src/main.c:574: no frame rate. */
  predicate LegacyNeedsRestart(g: Config, w: Copy)
  {
    g.wp.Some? && (w.wp.None? || g.wp.value != w.wp.value || g.mon != w.mon
                   || g.mode != w.mode || g.maxmem != w.maxmem)
  }

  /** The copy of src/main.c:595-600: the wallpaper as given, monitor,
      mode and ceiling, exactly the fields the test compares. */
  function LegacyAdopt(g: Config, w: Copy): (r: Copy)
    ensures !LegacyNeedsRestart(g, r)
    ensures r.wp == g.wp && r.fps == w.fps
  {
    Copy(g.wp, g.mon, g.mode, g.maxmem, w.fps)
  }

  /** The two tests agree whenever the frame rates agree, and a difference
      the older test sees the newer one sees too. */
  lemma RestartTestsAgree(g: Config, w: Copy)
    ensures LegacyNeedsRestart(g, w) ==> NeedsRestart(g, w)
    ensures g.fps == w.fps ==> (NeedsRestart(g, w) <==> LegacyNeedsRestart(g, w))
  {
  }
}

=== FILE: session.dfy ===
/** The rules a playback session follows around the decoder: which decoded
    frames are kept (`next_pts`), what the producer does at the end of the
    input, how long the display loops sleep, and the per-frame check of the
    worker's `stop` flag (src/AnimX-main.c, older copies in src/main.c).
    Decoded frames are represented by their presentation timestamps; the
    frame duration is an integer in the stream's time base. */
module Session {
  import opened Settings
  import FrameRing

  /** The producer's `next_pts` and `frame_count`. */
  datatype Sampler = Sampler(nextPts: int, frameCount: nat)

  /** The state at the start of a session and after a rewind. */
  const Start: Sampler := Sampler(0, 0)

  /** The frames a sampler keeps from a run of decoded timestamps, and the
      sampler afterwards (src/AnimX-main.c:535-559 in streaming mode,
      401-423 in load mode): a frame is kept when its timestamp has reached
      `next_pts`, and each kept frame moves `next_pts` on by one frame
      duration and counts it. */
  function Sample(pts: seq<int>, s: Sampler, dur: int): (r: (seq<int>, Sampler))
    ensures |r.0| <= |pts|
    ensures r.1.frameCount == s.frameCount + |r.0|
    ensures forall k | 0 <= k < |r.0| :: r.0[k] in pts
    decreases |pts|
  {
    if |pts| == 0 then ([], s)
    else if pts[0] >= s.nextPts then
      var rest := Sample(pts[1..], Sampler(s.nextPts + dur, s.frameCount + 1), dur);
      var kept := [pts[0]] + rest.0;
      assert forall k | 1 <= k < |kept| :: kept[k] == rest.0[k - 1] && rest.0[k - 1] in pts[1..];
      (kept, rest.1)
    else
      Sample(pts[1..], s, dur)
  }

  /** Where each kept frame sits in the decoded run: the kept timestamps
      are the decoded ones at strictly increasing positions, so sampling
      keeps an order-preserving subsequence and never repeats a frame. */
  function KeptIndices(pts: seq<int>, s: Sampler, dur: int): (idx: seq<nat>)
    ensures |idx| == |Sample(pts, s, dur).0|
    ensures forall k | 0 <= k < |idx| :: idx[k] < |pts| && Sample(pts, s, dur).0[k] == pts[idx[k]]
    ensures forall k, l | 0 <= k < l < |idx| :: idx[k] < idx[l]
    decreases |pts|
  {
    if |pts| == 0 then []
    else if pts[0] >= s.nextPts then
      var ri := KeptIndices(pts[1..], Sampler(s.nextPts + dur, s.frameCount + 1), dur);
      SampleKeeps(pts, s, dur);
      [0] + Shifted(ri)
    else
      SampleSkips(pts, s, dur);
      Shifted(KeptIndices(pts[1..], s, dur))
  }

  /** Positions in `pts[1..]` as positions in `pts`. */
  function Shifted(ri: seq<nat>): (r: seq<nat>)
    ensures |r| == |ri| && forall j | 0 <= j < |ri| :: r[j] == ri[j] + 1
  {
    seq(|ri|, j requires 0 <= j < |ri| => ri[j] + 1)
  }

  /** `k` frame durations, added up one at a time as `next_pts += frame_duration` does. */
  function Offset(k: nat, dur: int): int
  {
    if k == 0 then 0 else Offset(k - 1, dur) + dur
  }

  lemma {:induction false} OffsetIsProduct(k: nat, dur: int)
    ensures Offset(k, dur) == k * dur
  {
    if k > 0 {
      OffsetIsProduct(k - 1, dur);
      assert (k - 1) * dur + dur == k * dur;
    }
  }

  /** `next_pts` ends one duration per kept frame further on, and the k-th
      kept frame (from 0) has reached the starting `next_pts` plus k
      durations. */
  lemma {:induction false} SampleOffsets(pts: seq<int>, s: Sampler, dur: int)
    ensures var r := Sample(pts, s, dur);
            r.1.nextPts == s.nextPts + Offset(|r.0|, dur)
            && forall k | 0 <= k < |r.0| :: r.0[k] >= s.nextPts + Offset(k, dur)
    decreases |pts|
  {
    if |pts| > 0 {
      if pts[0] >= s.nextPts {
        var s' := Sampler(s.nextPts + dur, s.frameCount + 1);
        SampleOffsets(pts[1..], s', dur);
        var rest := Sample(pts[1..], s', dur);
        SampleKeeps(pts, s, dur);
        KeptOffsets(pts[0], rest, s, dur);
      } else {
        SampleOffsets(pts[1..], s, dur);
        SampleSkips(pts, s, dur);
      }
    }
  }

  lemma SampleKeeps(pts: seq<int>, s: Sampler, dur: int)
    requires |pts| > 0 && pts[0] >= s.nextPts
    ensures var rest := Sample(pts[1..], Sampler(s.nextPts + dur, s.frameCount + 1), dur);
            Sample(pts, s, dur) == ([pts[0]] + rest.0, rest.1)
  {
  }

  lemma SampleSkips(pts: seq<int>, s: Sampler, dur: int)
    requires |pts| > 0 && pts[0] < s.nextPts
    ensures Sample(pts, s, dur) == Sample(pts[1..], s, dur)
  {
  }

  /** One kept frame in front of a run that satisfies the offsets from the
      next `next_pts` on. */
  lemma KeptOffsets(p: int, rest: (seq<int>, Sampler), s: Sampler, dur: int)
    requires p >= s.nextPts
    requires rest.1.nextPts == s.nextPts + dur + Offset(|rest.0|, dur)
    requires forall k | 0 <= k < |rest.0| :: rest.0[k] >= s.nextPts + dur + Offset(k, dur)
    ensures rest.1.nextPts == s.nextPts + Offset(|rest.0| + 1, dur)
    ensures var kept := [p] + rest.0;
            forall k | 0 <= k < |kept| :: kept[k] >= s.nextPts + Offset(k, dur)
  {
    OffsetShift(|rest.0|, dur);
    var kept := [p] + rest.0;
    forall k | 0 <= k < |kept|
      ensures kept[k] >= s.nextPts + Offset(k, dur)
    {
      if k > 0 {
        assert kept[k] == rest.0[k - 1];
        OffsetShift(k - 1, dur);
      }
    }
  }

  lemma {:induction false} OffsetShift(k: nat, dur: int)
    ensures dur + Offset(k, dur) == Offset(k + 1, dur)
  {
  }

  /** The sampling bound in the form k·frame_duration: the k-th kept frame
      since the start or a rewind has a timestamp of at least
      `next_pts + k * frame_duration`, and `next_pts` ends at the start
      plus one duration per kept frame. */
  lemma SampleSpacing(pts: seq<int>, s: Sampler, dur: int)
    ensures var r := Sample(pts, s, dur);
            r.1.nextPts == s.nextPts + |r.0| * dur
            && forall k | 0 <= k < |r.0| :: r.0[k] >= s.nextPts + k * dur
  {
    var r := Sample(pts, s, dur);
    SampleOffsets(pts, s, dur);
    OffsetIsProduct(|r.0|, dur);
    forall k | 0 <= k < |r.0|
      ensures r.0[k] >= s.nextPts + k * dur
    {
      OffsetIsProduct(k, dur);
    }
  }

  /** The rule one frame at a time: a run followed by one more frame keeps
      that frame exactly when its timestamp has reached the `next_pts` the
      run left behind. */
  lemma {:induction false} SampleSnoc(pts: seq<int>, p: int, s: Sampler, dur: int)
    ensures var before := Sample(pts, s, dur);
            Sample(pts + [p], s, dur) ==
              if p >= before.1.nextPts
              then (before.0 + [p], Sampler(before.1.nextPts + dur, before.1.frameCount + 1))
              else before
    decreases |pts|
  {
    if |pts| == 0 {
      assert pts + [p] == [p];
      assert [p][1..] == [];
      assert Sample([], s, dur) == ([], s);
      if p >= s.nextPts {
        var s' := Sampler(s.nextPts + dur, s.frameCount + 1);
        assert Sample([], s', dur) == ([], s');
        assert [p] + [] == [p];
        assert Sample([p], s, dur) == ([p], s');
      }
    } else {
      assert (pts + [p])[0] == pts[0];
      assert (pts + [p])[1..] == pts[1..] + [p];
      if pts[0] >= s.nextPts {
        var s' := Sampler(s.nextPts + dur, s.frameCount + 1);
        SampleSnoc(pts[1..], p, s', dur);
        var rest := Sample(pts[1..], s', dur);
        assert [pts[0]] + (rest.0 + [p]) == ([pts[0]] + rest.0) + [p];
      } else {
        SampleSnoc(pts[1..], p, s, dur);
      }
    }
  }

  // ---------------------------------------------------------------------
  // End of input

  /** The producer's end-of-input branch (src/AnimX-main.c:512-530, and
      src/main.c:453-471): unless `done` is already set, the decoder is
      rewound; a successful seek resets the sampler to the start, and only a
      failed seek sets `done`. The queued frames stay where they are, and
      the producer leaves its loop exactly when `done` is set. */
  function EndOfInput<T>(r: FrameRing.Ring<T>, s: Sampler, seekOk: bool): (res: (FrameRing.Ring<T>, Sampler, bool))
    ensures res.0.done <==> r.done || !seekOk
    ensures res.2 <==> res.0.done
    ensures FrameRing.Valid(r) ==> FrameRing.Valid(res.0) && FrameRing.Contents(res.0) == FrameRing.Contents(r)
    ensures !r.done && seekOk ==> res.1 == Start
    ensures r.done || !seekOk ==> res.1 == s
  {
    if r.done then (r, s, true)
    else if !seekOk then (FrameRing.Close(r), s, true)
    else (r, Start, false)
  }

  /** After a rewind, the k-th frame kept from the replayed input is again
      at least k frame durations in. */
  lemma RewindRestartsSpacing<T>(r: FrameRing.Ring<T>, s: Sampler, pts: seq<int>, dur: int)
    requires !r.done
    ensures var s' := EndOfInput(r, s, true).1;
            forall k | 0 <= k < |Sample(pts, s', dur).0| :: Sample(pts, s', dur).0[k] >= k * dur
  {
    var s' := EndOfInput(r, s, true).1;
    assert s' == Start;
    SampleSpacing(pts, s', dur);
  }

  // ---------------------------------------------------------------------
  // Pacing

  /** `sleep_time` as the display loops use it (src/AnimX-main.c:469-475
      and 600-606): the loop sleeps only when the target frame time is
      longer than the time the frame took. */
  function Sleep(target: int, processing: int): (t: int)
    ensures t >= 0
    ensures t > 0 <==> target > processing
  {
    var t := target - processing;
    if t > 0 then t else 0
  }

  /** A displayed frame takes the longer of its processing time and the
      target time. */
  lemma FramePeriod(target: int, processing: int)
    ensures processing + Sleep(target, processing) >= target
    ensures processing + Sleep(target, processing) >= processing
    ensures processing + Sleep(target, processing) == target || Sleep(target, processing) == 0
  {
  }

  /** The fixed target of src/main.c:412 and 542: 33333 microseconds. */
  const LegacyTarget: int := 33333

  /** With the fixed target, a frame that takes less than 33333 µs is
      padded to exactly 33333 µs, and a slower frame is not padded. */
  lemma LegacyPacing(processing: int)
    ensures processing < LegacyTarget ==> processing + Sleep(LegacyTarget, processing) == LegacyTarget
    ensures processing >= LegacyTarget ==> Sleep(LegacyTarget, processing) == 0
  {
  }

  // ---------------------------------------------------------------------
  // The stop check

  /** What a session's check of the worker's `stop` flag does: carry on,
      end the session, or dereference a NULL `Worker_Data`. The worker data
      is `Some(stop)` inside a worker thread and `None` in the process's
      main thread, where no thread-specific value is set. */
  datatype Check = Proceed | EndSession | NullDeref

  /** The check of src/main.c:334-340 and 389-394 as written: no test for
      missing worker data. */
  function LegacyStopCheckAsWritten(wd: Option<bool>): (c: Check)
    ensures c == NullDeref <==> wd.None?
    ensures c == EndSession <==> wd == Some(true)
  {
    if wd.None? then NullDeref
    else if wd.value then EndSession
    else Proceed
  }

  /** Without `--daemon` and with no daemon running, `main` calls the
      session directly from its own thread (src/main.c:1175-1184): the first
      stop check dereferences NULL. */
  lemma LegacyNonDaemonDerefs()
    ensures LegacyStopCheckAsWritten(None) == NullDeref
  {
  }

  /** The guarded check of src/AnimX-main.c:388-396 and 445-452: the flag is
      consulted only when `guard` (the daemon flag) holds and worker data
      exists. It never dereferences NULL, and wherever worker data exists
      in daemon mode it does what the unguarded check does. */
  function StopCheck(guard: bool, wd: Option<bool>): (c: Check)
    ensures c != NullDeref
    ensures guard && wd.Some? ==> c == LegacyStopCheckAsWritten(wd)
    ensures c == EndSession <==> guard && wd == Some(true)
  {
    if guard && wd.Some? && wd.value then EndSession else Proceed
  }

  /** Whether `run_stream` hands its producer/consumer data to the worker
      (src/AnimX-main.c:756-760), to be withdrawn on each exit path (766,
      781, 794): only when the guard holds and worker data exists. */
  predicate RegistersStream(guard: bool, wd: Option<bool>)
  {
    guard && wd.Some?
  }

  /** `run_stream` computes its guard as `flags | FT_DAEMON`, which is
      never zero (src/AnimX-main.c:699), and uses it only for the
      registration above. Worker data exists only in worker threads, which
      only the daemon starts, so the always-true guard registers exactly
      when the intended `flags & FT_DAEMON` would: whenever worker data
      exists. */
  lemma StreamGuardHarmless(isDaemon: bool, wd: Option<bool>)
    requires wd.Some? ==> isDaemon
    ensures RegistersStream(true, wd) == RegistersStream(isDaemon, wd)
    ensures RegistersStream(true, wd) <==> wd.Some?
  {
  }
}

=== FILE: settings.dfy ===
/** The configuration record AnimX keeps in `g_config` and the flag bits
    stored beside it. */
module Settings {

  datatype Option<T> = None | Some(value: T)

  /** Frame generation mode: decode everything up front, or decode while
      displaying through the two-slot ring. */
  datatype Mode = Load | Stream

  /** The integer code the program stores for a mode (`MODE_LOAD = 0`,
      `MODE_STREAM = 1`). */
  function ModeCode(m: Mode): (code: int)
    ensures code == 0 || code == 1
    ensures m == Load <==> code == 0
  {
    match m
    case Load => 0
    case Stream => 1
  }

  /** The spelling used on the command line, in control messages and in the
      configuration file. */
  function ModeName(m: Mode): string
  {
    match m
    case Load => "load"
    case Stream => "stream"
  }

  /** Reading a mode name back: only the two exact spellings are known. */
  function ParseModeName(s: string): (r: Option<Mode>)
    ensures r.Some? ==> ModeName(r.value) == s
    ensures forall m: Mode :: ModeName(m) == s ==> r == Some(m)
  {
    if s == "load" then Some(Load)
    else if s == "stream" then Some(Stream)
    else None
  }

  /** `g_config`: wallpaper path, monitor selector, mode, memory ceiling in
      GB, frames per second, and the two flag bits `FT_MAXMEM` and
      `FT_DAEMON`. The path is `None` while no wallpaper was given. */
  datatype Config = Config(
    wp: Option<string>,
    mon: int,
    mode: Mode,
    maxmem: real,
    fps: int,
    maxmemSet: bool,
    daemon: bool)

  /** Start-up values of `g_config` in src/AnimX-main.c. */
  const Defaults: Config := Config(None, -2, Stream, 999.0, 30, false, false)
}

=== FILE: text.dfy ===
/** Character-level helpers shared by the argument splitter, the control
    message parser and the configuration file parser. */
module Text {

  /** Index of the first `c` in `s`, or `|s|` when there is none: what a C
      scan for the first occurrence stops at. */
  function IndexOf(s: string, c: char): (k: nat)
    ensures k <= |s|
    ensures k < |s| ==> s[k] == c
    ensures forall j | 0 <= j < k :: s[j] != c
  {
    if |s| == 0 then 0
    else if s[0] == c then 0
    else
      var k := IndexOf(s[1..], c);
      assert forall j | 1 <= j < k + 1 :: s[j] == s[1..][j - 1];
      k + 1
  }

  /** The first occurrence is unique: any index with the two defining
      properties is the one `IndexOf` returns. */
  lemma IndexOfUnique(s: string, c: char, k: nat)
    requires k <= |s|
    requires k < |s| ==> s[k] == c
    requires forall j | 0 <= j < k :: s[j] != c
    ensures IndexOf(s, c) == k
  {
  }

  /** In a prefix, the first occurrence is the whole text's first
      occurrence, cut off at the prefix's end. */
  lemma IndexOfPrefix(s: string, c: char, i: nat)
    requires i <= |s|
    ensures IndexOf(s[..i], c) == if IndexOf(s, c) < i then IndexOf(s, c) else i
  {
    var e := IndexOf(s, c);
    var k := if e < i then e else i;
    IndexOfUnique(s[..i], c, k);
  }

  /** `c` does not occur in `s`. */
  predicate Free(s: string, c: char)
  {
    forall j | 0 <= j < |s| :: s[j] != c
  }

  lemma FreeIndexOf(s: string, c: char)
    requires Free(s, c)
    ensures IndexOf(s, c) == |s|
  {
  }

  lemma FreeConcat(a: string, b: string, c: char)
    requires Free(a, c) && Free(b, c)
    ensures Free(a + b, c)
  {
    forall j | 0 <= j < |a + b|
      ensures (a + b)[j] != c
    {
      if j < |a| { assert (a + b)[j] == a[j]; } else { assert (a + b)[j] == b[j - |a|]; }
    }
  }

  /** Splitting `a + [c] + b` at its first `c`, where `a` has none, gives
      `a` and `b` back. */
  lemma SplitAtFirst(a: string, c: char, b: string)
    requires Free(a, c)
    ensures var s := a + [c] + b;
            var k := IndexOf(s, c);
            k == |a| && s[..k] == a && s[k + 1..] == b
  {
    var s := a + [c] + b;
    IndexOfUnique(s, c, |a|);
    assert s[..|a|] == a;
    assert s[|a| + 1..] == b;
  }
}
